=== FILE: README.md ===
# AsteroNote editor core in Dafny

This project models the core of the AsteroNote rich-text editor and proves
properties about it. The core is the plugin-based editor shell and the
plugins that change document structure:

- **EventBus**: the editor's `EventEmitter`. Subscriptions are `on` and
  `once`; `off` and `removeAllListeners` drop them. `emit` delivers over a
  snapshot, and a throwing handler is caught.
- **UndoHistory**: the undo and redo stacks, bounded by `maxSize` (100 by
  default). The keyup, change and paste listeners record content. After
  an undo or redo, recording is suppressed until a timer fires.
- **Registry**: the `PluginRegistry`. It registers classes and resolves
  load order, dependencies first. It rejects unknown names and dependency
  cycles. `initializePlugins` starts plugins in load order and
  `destroyAll` tears them down, newest first.
- **Plugin**: the `BasePlugin` contract. It covers construction,
  enable/disable, toolbar buttons and their click listener, and keyboard
  shortcuts keyed by a canonical `Ctrl+Shift+Alt+KEY` string.
- **EditorCore**: `Editor`. It covers the init/destroy lifecycle,
  toolbar-group lookup, `registerPlugin`, and the keydown path from the
  keydown event to plugin shortcuts and the Tab fallback.
- **Toolbar** and **Bundles**: how the standard (`asteronote.js`) and lite
  (`asteronote-lite.js`) bundles flatten a toolbar configuration and turn
  its actions into plugin classes. Also `createEditor`'s default list.
- **TableGrid**: the table plugin's picker, insert, add/delete row and
  column, delete table, and header-row/column toggles, on a grid of cells.
- **Lists**: the ordered-list (`List.js`) and bullet-list
  (`UnorderedList.js`) plugins. It covers the emptiness and
  caret-at-start tests, indent and outdent, leaving a list on Backspace,
  the keydown decision, list style and list-type conversion.
- **Formatting**: the clear-formatting command (`RemoveFormat.js`). It
  strips `class`, `style` and `data-*` from the elements the selection
  selects. The model includes the walk that collects those elements.
- **LinkUrl**: the link dialog's URL normalisation and what `insertLink`
  writes.
- **VideoUrl**: the video dialog's URL recognisers (YouTube, Vimeo,
  DailyMotion, direct file), modelled as leftmost regular-expression
  matches, and the embed each one produces.
- **Text** and **Seqs**: the JavaScript string and array built-ins the
  rest uses (`trim`, `toUpperCase` restricted to ASCII letters,
  `indexOf`+`splice`, `reverse`).

The DOM, the Selection API, timers and the browser's URL parser are inputs:
- a document is a tree of elements and text nodes;
- a caret is a path into that tree;
- a timer firing is an explicit event;
- the URL parser's verdict is a function parameter.

Plugin constructors and `init`, plugin `destroy`, event handlers and the
`onInit`, `onKeydown` and `onDestroy` callbacks are also parameters:
- a plugin start says whether construction or `init` throws, and which
  bus calls (`on`, `once`, `off`) `init` makes;
- a handler or callback says whether it throws, whether it prevents the
  default of its event, and which bus calls it makes;
- a plugin `destroy` says only whether it throws.

Where the code and its documentation disagree, the model follows the code:
- `Editor.initializePlugins` registers every listed class, and the
  registry ignores duplicate registrations. A class listed twice therefore
  yields one instance under its name, not numbered copies
  (`EditorCore.DuplicateClassesCollapse`).
- The table picker is 8 by 8 (`maxRows = maxCols = 8`), although its
  comments say 10 by 10.
- `Editor.destroy` emits `asteronote.destroy` after
  `removeAllListeners`, so the event reaches no handler unless the
  `onDestroy` callback subscribes one (`EditorCore.DestroyEventUnheard`).
- `removeFormat` claims to clean the elements that intersect the
  selection, but its walk only steps to next siblings and parents. When
  the end lies deeper than the start's siblings, the walk passes it and
  climbs, cleaning elements outside the selection and their common
  ancestor (`Formatting.WalkPassesNestedEnd`). The model follows the walk,
  and `Formatting.RemoveFormatExact` states which elements it cleans.

## Model

| member | source | states |
|---|---|---|
| EventBus.Empty | src/v2/js/core/EventEmitter.js:7-9 | A new bus has no event lists and satisfies the bus invariant (no empty list is kept). |
| EventBus.ListenerCount | src/v2/js/core/EventEmitter.js:118-123 | On a valid bus the count is positive exactly when the event has a list. |
| EventBus.AddHandler | src/v2/js/core/EventEmitter.js:22-26 | The handler is appended to that event's list, creating it if needed; every other event's list is unchanged. |
| EventBus.On | src/v2/js/core/EventEmitter.js:17-28 | A non-function handler is rejected with the type error. Otherwise the handler is appended without de-duplication and the count grows by one. Other events are untouched and validity is kept. |
| EventBus.Once | src/v2/js/core/EventEmitter.js:68-79 | A non-function handler is rejected. Otherwise a wrapper with a fresh identity is appended; it is distinct from every handler already on the bus. |
| EventBus.Off | src/v2/js/core/EventEmitter.js:36-60 | An unknown event is a no-op. Without a handler the event's whole list goes. With one, only its first occurrence is removed and an emptied list is deleted. Other events are untouched. |
| EventBus.RemoveAllListeners | src/v2/js/core/EventEmitter.js:128-130 | Afterwards every event has zero listeners. |
| EventBus.ApplyActions | src/v2/js/core/EventEmitter.js:94-100 | The bus calls a handler makes while it runs keep the bus valid. |
| EventBus.ApplySubscribes | src/v2/js/core/EventEmitter.js:17-28 | Calls that only subscribe keep each event's old listeners as a prefix of its new list, and every subscribed function ends up on its event's list. |
| EventBus.QuietStaysQuiet | src/v2/js/core/EventEmitter.js:17-60 | An event without listeners still has none after bus calls none of which subscribes to it. |
| EventBus.Deliver | src/v2/js/core/EventEmitter.js:73-100 | One guarded handler call keeps the bus valid. A `once` wrapper removes itself only after its function returns normally, so a throwing one stays subscribed. |
| EventBus.DeliverAll | src/v2/js/core/EventEmitter.js:92-100 | Every handler of the snapshot is called in order, whatever the handlers do to the bus meanwhile. The default is prevented exactly when some called function prevents it. |
| EventBus.Emit | src/v2/js/core/EventEmitter.js:87-103 | Emit returns false, leaving the bus as it was, exactly when the event has no list. Otherwise it calls exactly the handlers listed at the moment of emitting, in order, and validity is kept. |
| EventBus.EmitInertKeepsBus | src/v2/js/core/EventEmitter.js:87-103 | Emitting to plain handlers that touch nothing leaves the bus unchanged. |
| EventBus.OnThenOff | src/v2/js/core/EventEmitter.js:36-60 | When the function was not already subscribed to that event, `on` followed by `off` of it restores the bus, including removing a list that `on` created. (`off` removes the first occurrence, so for an already subscribed `f` the pair turns `[f, g]` into `[g, f]`.) |
| EventBus.OnceDeliveredOnce | src/v2/js/core/EventEmitter.js:68-79 | A `once` handler runs on the first emit and is gone afterwards, so a second emit finds no handler. |
| UndoHistory.Create | src/v2/js/core/History.js:6-20 | Both stacks start empty, recording is on, and the recorded content is the current one. A missing or zero `maxSize` becomes 100. The bound is otherwise positive or the value given. |
| UndoHistory.Newest | src/v2/js/core/History.js:62-72 | The result is exactly the last `n` entries of the stack, in order. |
| UndoHistory.Push | src/v2/js/core/History.js:62-68 | The new entry is on top. Within the bound, the stack becomes the newest `maxSize` entries of old stack plus entry, so it never exceeds `maxSize`. |
| UndoHistory.Record | src/v2/js/core/History.js:62-72 | The content goes on top of the undo stack with the oldest entry evicted at capacity. The redo stack is cleared and nothing else changes. |
| UndoHistory.RecordIfChanged | src/v2/js/core/History.js:50-57 | Unchanged content records nothing. Changed content pushes the previous snapshot and remembers the new content. |
| UndoHistory.Undo | src/v2/js/core/History.js:77-106 | It fails, with nothing changed, exactly when the undo stack is empty. Otherwise the current content moves to the redo stack, the top entry is restored, and recording is suppressed until a re-enable timer fires. |
| UndoHistory.Redo | src/v2/js/core/History.js:111-140 | It fails exactly when the redo stack is empty. Otherwise it mirrors undo: the current content goes to the undo stack and the redo top is restored. |
| UndoHistory.ReEnable | src/v2/js/core/History.js:100-103 | A firing re-enable timer lifts suppression and leaves the stacks and content unchanged. |
| UndoHistory.OnKeyup | src/v2/js/core/History.js:27-31 | When suppressed the keyup listener does nothing; otherwise it records if the content changed. |
| UndoHistory.OnChange | src/v2/js/core/History.js:40-44 | When suppressed the change listener does nothing; otherwise it records if the content changed. |
| UndoHistory.OnPaste | src/v2/js/core/History.js:33-37 | When suppressed the paste listener does nothing; otherwise it schedules one delayed re-check. |
| UndoHistory.FlushPaste | src/v2/js/core/History.js:33-37 | A delayed paste re-check records if the content changed, without consulting suppression again. |
| UndoHistory.CanUndo | src/v2/js/core/History.js:145-147 | True exactly when `undo` would succeed. |
| UndoHistory.CanRedo | src/v2/js/core/History.js:152-154 | True exactly when `redo` would succeed. |
| UndoHistory.Clear | src/v2/js/core/History.js:159-163 | Afterwards nothing can be undone or redone, and the current content counts as recorded. |
| UndoHistory.RunKeepsValid | src/v2/js/core/History.js:62-72 | Any sequence of edits, records, undos, redos, timers and clears keeps both stacks within `maxSize`. |
| UndoHistory.UndoThenRedo | src/v2/js/core/History.js:77-140 | An undo followed at once by a redo gives back the content and the undo stack. |
| UndoHistory.RedoThenUndo | src/v2/js/core/History.js:77-140 | A redo followed at once by an undo gives back the content and the redo stack. |
| UndoHistory.SuppressedRecordsNothing | src/v2/js/core/History.js:25-45 | While recording is suppressed, keyup, change and paste events leave both stacks unchanged. |
| UndoHistory.PushAllKeepsNewest | src/v2/js/core/History.js:62-72 | Recording many contents in turn keeps exactly the newest `maxSize` of them. |
| Registry.Empty | src/v2/js/core/PluginRegistry.js:17-45 | A new registry holds no classes and no initialised names. |
| Registry.Register | src/v2/js/core/PluginRegistry.js:17-45 | A non-function is a type error and a nameless class is an error. Registering a known name is a silent no-op. A new name is stored with its dependencies and no instance, after the names already there. |
| Registry.Get | src/v2/js/core/PluginRegistry.js:52-54 | The descriptor exactly when the name is registered, and nothing otherwise. |
| Registry.Visit | src/v2/js/core/PluginRegistry.js:76-101 | Success extends the order with the name, keeping it duplicate-free, registered and dependencies-first; every added name was asked for or is a dependency. An unregistered-name error names a name reachable from this one through dependencies. A cycle error names a registered name that reaches itself through dependencies. |
| Registry.VisitAll | src/v2/js/core/PluginRegistry.js:94-96 | Visiting a list of names has the same guarantees for every name of the list; an unregistered name it reports is reachable from one of them. |
| Registry.ResolveLoadOrder | src/v2/js/core/PluginRegistry.js:71-107 | The order holds every requested name once, all registered, each after its dependencies, and nothing that was not requested or depended on. Any unregistered requested name makes it fail. An unregistered-name error names a name reachable from the request, and a cycle error a registered name on a dependency cycle. |
| Registry.ResolveSucceeds | src/v2/js/core/PluginRegistry.js:71-107 | Partner of the error cases: resolution succeeds whenever every name reachable from the request is registered and the dependencies among them have no cycle (some rank strictly decreases along each). |
| Registry.ResolvedPulledInLater | src/v2/js/core/PluginRegistry.js:94-100 | Every resolved name that was not requested is a dependency of a name placed later. |
| Registry.ResolvedIsLeastClosed | src/v2/js/core/PluginRegistry.js:71-107 | The resolved names lie inside every set that holds the requested names and is closed under dependencies. |
| Registry.CycleRejected | src/v2/js/core/PluginRegistry.js:81-83 | A dependency cycle through a requested name makes resolution fail. |
| Registry.MarkStarted | src/v2/js/core/PluginRegistry.js:142-148 | A started plugin's instance is stored and its name is appended to the initialised list. |
| Registry.MarkThrew | src/v2/js/core/PluginRegistry.js:142-154 | When `init` throws, the instance stays stored but the name is not marked initialised. |
| Registry.StartAll | src/v2/js/core/PluginRegistry.js:125-155 | The start loop stops at the first name of the order that fails to start; every name before it is initialised, and the error is that name's failure. Initialised plugins are never changed. The bus calls are those of the successful starts in order, then those of an `init` that threw. |
| Registry.StartAllKeepsThrown | src/v2/js/core/PluginRegistry.js:142-154 | A plugin whose `init` threw keeps the built instance, and that failure is the one reported. |
| Registry.StartAllLeavesOthers | src/v2/js/core/PluginRegistry.js:125-155 | Plugins outside the order are untouched. |
| Registry.StartAllCompletes | src/v2/js/core/PluginRegistry.js:125-155 | Without a failure every name of the order ends up initialised. |
| Registry.StartAllStartedOnly | src/v2/js/core/PluginRegistry.js:126-148 | A name becomes initialised only if it is in the order and its construction and `init` both succeeded; it then holds that instance. |
| Registry.Instances | src/v2/js/core/PluginRegistry.js:158-166 | The returned map pairs names of the order with their stored instances, in load order, and covers the whole order when all have one. |
| Registry.InitializePlugins | src/v2/js/core/PluginRegistry.js:115-167 | A resolution error changes nothing, makes no bus call and is rethrown. A start failure is the first failure of the load order, with every earlier name initialised. Plugins initialised before the call are never touched, and the bus calls are those of the new starts, then those of an `init` that threw. |
| Registry.InitializeSucceeds | src/v2/js/core/PluginRegistry.js:115-167 | On success every requested name and dependency, or every registered name when none was requested, is initialised, and the result maps the load order to instances. |
| Registry.InitializeStartsOnlyNew | src/v2/js/core/PluginRegistry.js:126-128 | Already-initialised plugins are skipped. A newly initialised one was built and started successfully. |
| Registry.DestroyEach | src/v2/js/core/PluginRegistry.js:176-189 | Each listed plugin whose `destroy` returns loses its instance; a throwing one keeps it; unlisted ones are untouched. |
| Registry.DestroyEachTrace | src/v2/js/core/PluginRegistry.js:176-189 | Every listed plugin is torn down or attempted, in order, even past a throwing `destroy`. |
| Registry.DestroyAll | src/v2/js/core/PluginRegistry.js:172-192 | Teardown runs over the initialised plugins in reverse initialisation order and the initialised list ends empty. Only plugins whose `destroy` threw keep their instance. |
| Registry.InitializeThenDestroy | src/v2/js/core/PluginRegistry.js:207-219 | After initialisation every requested plugin reports initialised with an instance. After `destroyAll` none is initialised, and only those whose `destroy` threw keep an instance. |
| Plugin.Construct | src/v2/js/core/BasePlugin.js:40-50 | Construction without an editor fails. Otherwise the plugin is enabled with no buttons or shortcuts, named by the instance name, else the plugin name, else the class name. |
| Plugin.Enable | src/v2/js/core/BasePlugin.js:81-84 | Sets the enabled flag and announces `plugin.<name>.enabled`. |
| Plugin.Disable | src/v2/js/core/BasePlugin.js:89-92 | Clears the flag, keeping buttons and shortcuts registered, and announces `plugin.<name>.disabled`. |
| Plugin.AddButton | src/v2/js/core/BasePlugin.js:111-143 | A button without a name or callback is an error. Otherwise it is stored under its name and mounted in the action's group, or in the toolbar, or not at all. |
| Plugin.RemoveButton | src/v2/js/core/BasePlugin.js:188-194 | The named button is gone and every other button is kept. |
| Plugin.AddShortcut | src/v2/js/core/BasePlugin.js:201-203 | The combination maps to the new callback, replacing any earlier one, and other combinations are kept. |
| Plugin.Destroy | src/v2/js/core/BasePlugin.js:64-76 | All buttons and shortcuts are removed. |
| Plugin.ShortcutStringParses | src/v2/js/core/BasePlugin.js:213-224 | The combination string determines the Ctrl/Command, Shift and Alt flags and the upper-cased key. |
| Plugin.ShortcutStringInjective | src/v2/js/core/BasePlugin.js:213-224 | Two key events give the same combination string exactly when they agree on the modifiers and on the key up to ASCII case. |
| Plugin.HandleShortcut | src/v2/js/core/BasePlugin.js:210-236 | A disabled plugin handles nothing. Otherwise the event is handled exactly when a callback is registered under its combination string, and that callback runs. |
| Plugin.AddedShortcutHandles | src/v2/js/core/BasePlugin.js:201-236 | A shortcut added under an event's combination handles that event, and stops doing so once the plugin is disabled. |
| Plugin.Click | src/v2/js/core/BasePlugin.js:168-179 | A click on a mounted button ensures focus, moving the caret to the end only when the selection was outside the editable. The callback runs exactly when the plugin is enabled, and selection change is emitted exactly when the plugin is enabled and the callback does not throw. |
| Plugin.DisableSilencesButtons | src/v2/js/core/BasePlugin.js:89-92 | A disabled plugin's mounted button still reacts to clicks but calls nothing; enabling again restores the click. |
| EditorCore.Lookup | src/v2/js/core/Editor.js:491-493 | A name is found exactly when it is a key of the plugin map, with that entry's instance. |
| EditorCore.Put | src/v2/js/core/Editor.js:473-475 | `Map.set` keeps keys distinct: a present key keeps its place with the new value, and a new key goes last. No other key changes. |
| EditorCore.PutAll | src/v2/js/core/Editor.js:473-475 | The merged map's keys are the old ones plus the new ones, still distinct. |
| EditorCore.PutAllOthers | src/v2/js/core/Editor.js:473-475 | Keys the merge does not bring keep their old instances. |
| EditorCore.PutAllLater | src/v2/js/core/Editor.js:473-475 | Every key the merge brings maps to the merged instance. |
| EditorCore.GroupKeysMembership | src/v2/js/core/Editor.js:198-222 | An action has a toolbar group exactly when some flattened action names it, or names a legacy alias of it. |
| EditorCore.ToolbarGroupLookup | src/v2/js/core/Editor.js:192-233 | `getToolbarGroupForAction` finds a group exactly when the array toolbar option names the action or its alias. |
| EditorCore.NonArrayToolbarNoGroups | src/v2/js/core/Editor.js:195 | A toolbar option that is not an array yields no groups at all. |
| EditorCore.Construct | src/v2/js/core/Editor.js:71-98 | A missing target is an error. Otherwise the editor is uninitialised with the given options, no plugins and no listeners. |
| EditorCore.RegisterAll | src/v2/js/core/Editor.js:434-440 | Every valid class gets registered under its name; a class that fails to register is skipped and nothing registered earlier changes. |
| EditorCore.ClassNames | src/v2/js/core/Editor.js:443-445 | It gives one name per class, in order, exactly when every entry is a class. |
| EditorCore.InitializedMap | src/v2/js/core/Editor.js:448-454 | The map a successful registry call returns is keyed by the load order. It holds every requested name once, all initialised. |
| EditorCore.InitializePlugins | src/v2/js/core/Editor.js:432-455 | A failure leaves the plugin map as it was; a class entry that is not a class is reported as such. Success replaces the map with the load order of the listed classes, which includes every one of them. Either way the bus has received the calls of the plugins started, and of an `init` that threw. |
| EditorCore.Adopt | src/v2/js/core/Editor.js:448-454 | The registry's map replaces the plugin map on success, keyed by the load order of the names, which includes all of them. A registry failure is rethrown with the map kept. The bus receives the starts' calls either way. |
| EditorCore.DuplicateClassesCollapse | src/v2/js/core/Editor.js:432-455 | A class listed twice yields exactly one map entry under its name. |
| EditorCore.TriggerCallback | src/v2/js/core/Editor.js:509-514 | A missing callback does nothing. A present one applies its bus calls and reports whether it prevented the default and whether it threw, keeping the bus valid. |
| EditorCore.Init | src/v2/js/core/Editor.js:104-144 | An initialised editor is left as is. Otherwise the groups are built and plugins start, with their bus calls. A plugin failure leaves the editor uninitialised. Then the editor is marked initialised and `onInit` runs; if it throws, the error surfaces with the editor initialised and nothing emitted. Otherwise `asteronote.init` is emitted on the bus holding the plugins' and the callback's subscriptions. |
| EditorCore.InitEventReachesPluginHandlers | src/v2/js/core/Editor.js:117-141 | When plugin starts and `onInit` only subscribe, `asteronote.init` is emitted to every handler they subscribed to it, behind the handlers subscribed before `init`, and reaches exactly the listed handlers. |
| EditorCore.InitIdempotent | src/v2/js/core/Editor.js:105-108 | A second `init` changes nothing. |
| EditorCore.RegisterPlugin | src/v2/js/core/Editor.js:462-484 | Before `init` it fails and changes nothing. Otherwise the new plugin can be fetched by name, every plugin already held is kept, and the bus receives the calls of the plugins it started. |
| EditorCore.InitMakesPluginsAvailable | src/v2/js/core/Editor.js:117-119 | After a successful `init`, every class listed in the options can be fetched by name. |
| EditorCore.FirstHandler | src/v2/js/core/Editor.js:323-330 | It gives the first plugin, in map order, that handles the event; no earlier plugin handles it. |
| EditorCore.HandleShortcuts | src/v2/js/core/Editor.js:317-340 | A prevented event is skipped. Otherwise the first handling plugin wins. An unhandled plain Tab inserts a tab, and nothing else happens. |
| EditorCore.HandleKeydown | src/v2/js/core/Editor.js:282-290 | `onKeydown` runs first; if it throws, nothing is emitted and no shortcut runs. Otherwise `asteronote.keydown` is emitted and, with shortcuts enabled, dispatch is skipped exactly when the event arrived prevented, the callback prevented it, or a keydown handler did. |
| EditorCore.KeydownReachesPlugin | src/v2/js/core/Editor.js:282-340 | Without a callback, on an event not yet prevented, a shortcut goes to a plugin exactly when no keydown handler prevents the default and some plugin handles the combination, and then to the first such plugin. |
| EditorCore.Destroy | src/v2/js/core/Editor.js:520-560 | An uninitialised editor is left as is. Otherwise plugins are torn down and the map is cleared, so no plugin is fetchable, and every listener is removed before `onDestroy` runs. A throwing callback is the error and nothing is emitted. Otherwise the destroy event reaches a handler exactly when the callback subscribed one. |
| EditorCore.DestroyEventUnheard | src/v2/js/core/Editor.js:541-559 | Unless `onDestroy` subscribes to `asteronote.destroy`, the destroy event reaches no handler. |
| Toolbar.FlattenFlat | src/v2/js/asteronote.js:100-116 | Flattening a flat list of action names keeps it as it is, duplicates and order included. |
| Toolbar.FlattenDropsOthers | src/v2/js/asteronote.js:103-116 | Items that are neither strings nor arrays contribute nothing. |
| Toolbar.LegacyGroup | src/v2/js/asteronote.js:104-107 | A legacy `[group, [actions]]` item contributes exactly its actions, whatever the group name. |
| Bundles.ActionNameInjective | src/v2/js/asteronote.js:66-78 | Distinct plugin classes have distinct action names. |
| Bundles.MapClassesCarried | src/v2/js/asteronote.js:66-78 | A class is in the bundle's plugin map exactly when the bundle carries it. |
| Bundles.MapTableEntries | src/v2/js/asteronote.js:66-78 | The plugin map pairs a key with a class exactly when the key is that class's action and the bundle carries it. |
| Bundles.PluginMapInverse | src/v2/js/asteronote.js:123 | `pluginMap[action]` is a class exactly when the action is that class's name in this bundle. |
| Bundles.DeriveCounts | src/v2/js/asteronote.js:120-128 | Each class occurs in the derived list exactly as often as its action occurs in the toolbar actions. |
| Bundles.DeriveOrdered | src/v2/js/asteronote.js:120-128 | Classes keep the order of their actions. |
| Bundles.ToolbarItems | src/v2/js/asteronote.js:87-103 | An absent or falsy toolbar gives the default toolbar. An array gives its elements and a non-empty string its characters. Any other truthy value is not iterable. |
| Bundles.BundlePlugins | src/v2/js/asteronote.js:80-132 | An explicit plugin array is passed through. Otherwise the classes come from flattening the toolbar and mapping each action. |
| Bundles.DeriveActions | src/v2/js/asteronote.js:120-128 | Mapping the action names of bundled classes gives those classes back. |
| Bundles.DefaultToolbarNamesDefaults | src/v2/js/asteronote.js:87-97 | Each bundle's default toolbar names exactly its default classes, all carried by that bundle. |
| Bundles.ActionsRoundTrip | src/v2/js/asteronote.js:86-132 | A toolbar option naming bundled classes loads exactly those classes, in order, duplicates kept. |
| Bundles.DefaultDerivation | src/v2/js/asteronote.js:86-132 | With no toolbar option each bundle loads the classes of its default toolbar. |
| Bundles.DeriveOmits | src/v2/js/asteronote.js:122-127 | A class the bundle does not carry is never loaded from the toolbar. |
| Bundles.LiteOmitsRichPlugins | src/v2/js/asteronote-lite.js:64-73 | The lite bundle never loads highlight, code or removeFormat from any toolbar. |
| Bundles.CreateEditorPlugins | src/v2/js/asteronote.js:48-60 | Explicit plugins are used as given. Otherwise the standard list is seven classes with removeFormat, and the lite list six without it; both start with the four inline styles and end with list and link. |
| TableGrid.NewRow | src/v2/js/plugins/Table.js:160-168 | A new row has the requested number of cells, each an empty data cell with the `<p><br></p>` markup. |
| TableGrid.ToInt32 | src/v2/js/plugins/Table.js:155-156 | `x\|0` lands in the signed 32-bit range and agrees with `x` modulo 2^32. |
| TableGrid.Clamp | src/v2/js/plugins/Table.js:155-156 | The size is always between 1 and 100, and a size already in range is kept. Sizes below 1 after truncation give 1 and sizes above 100 give 100. |
| TableGrid.InsertTable | src/v2/js/plugins/Table.js:154-175 | A new table is rectangular with 1 to 100 rows and columns of empty data cells. It has exactly the clamped sizes, `Math.max(1, Math.min(100, x\|0))` of each request: the requested size when in range, and otherwise 1 or 100 by the side on which its 32-bit value falls. |
| TableGrid.HighlightGrid | src/v2/js/plugins/Table.js:140-152 | The 8 by 8 picker lights cell (i, j) exactly when it lies within the hovered rows and columns. |
| TableGrid.PickerMatchesInsert | src/v2/js/plugins/Table.js:75-91 | Clicking a picker cell inserts a table whose cells are exactly the lit cells. |
| TableGrid.AddRow | src/v2/js/plugins/Table.js:210-226 | Outside a table nothing changes. Otherwise one row of empty cells, as wide as the caret row, goes above or below it, and every other row keeps its place in order. |
| TableGrid.DeleteRow | src/v2/js/plugins/Table.js:245-260 | The caret row is removed and the others keep their order. Deleting the last row removes the table. |
| TableGrid.DeleteTable | src/v2/js/plugins/Table.js:280-296 | The table is removed exactly when the caret is in it. |
| TableGrid.AddRowThenDeleteRow | src/v2/js/plugins/Table.js:210-260 | Adding a row and deleting it again, with the caret in it, gives back the table. |
| TableGrid.AddRowKeepsRectangular | src/v2/js/plugins/Table.js:210-226 | Adding a row keeps a rectangular table rectangular. |
| TableGrid.ColumnSlot | src/v2/js/plugins/Table.js:228-243 | The new cell goes before the caret column, or after it; a row too short for that gets it at the start (left) or the end (right). |
| TableGrid.AddColumn | src/v2/js/plugins/Table.js:228-243 | Every row gains exactly one empty cell at its slot and keeps its other cells in order. |
| TableGrid.DeleteColumn | src/v2/js/plugins/Table.js:262-278 | Each row loses its cell in the caret column when it has one. The table goes exactly when no cell is left. |
| TableGrid.AddColumnThenDeleteColumn | src/v2/js/plugins/Table.js:228-278 | On a rectangular table, adding a column and deleting it again gives back the table. |
| TableGrid.AddColumnKeepsRectangular | src/v2/js/plugins/Table.js:228-243 | Adding a column keeps a rectangular table rectangular. |
| TableGrid.Flip | src/v2/js/plugins/Table.js:298-317 | A replaced cell changes kind (data and header) and keeps its markup; an empty cell gets the default markup. |
| TableGrid.ToggleHeaderRow | src/v2/js/plugins/Table.js:298-317 | Only the first row's cells flip kind, and every other row is unchanged. |
| TableGrid.ToggleHeaderColumn | src/v2/js/plugins/Table.js:319-339 | Only each row's first cell flips kind, and every other cell is unchanged. |
| TableGrid.ToggleHeaderRowTwice | src/v2/js/plugins/Table.js:298-317 | Toggling the header row twice restores every kind and every non-empty markup. |
| TableGrid.ToggleHeaderColumnTwice | src/v2/js/plugins/Table.js:319-339 | Toggling the header column twice restores every kind and every non-empty markup. |
| Lists.StripZeroWidth | src/v2/js/plugins/List.js:398 | Removes exactly the zero-width spaces and keeps every other character with its multiplicity; it leaves a string without one unchanged and works piecewise on concatenations (`StripZeroWidthAppend`), so the order is kept. |
| Lists.StripZeroWidthAppend | src/v2/js/plugins/List.js:398 | Stripping a concatenation is stripping each part and concatenating, so kept characters keep their order. |
| Lists.ListItemEmptyIff | src/v2/js/plugins/List.js:396-404 | The ordered-list plugin finds an item empty exactly when its text is white space and zero-width spaces only. |
| Lists.BulletItemEmptyIff | src/v2/js/plugins/UnorderedList.js:125-129 | The bullet-list plugin finds an item empty exactly when its text is all white space, so its lone-`<br>` test adds nothing. |
| Lists.BulletEmptyIsListEmpty | src/v2/js/plugins/UnorderedList.js:125-129 | Every item the bullet plugin finds empty, the ordered plugin does too. |
| Lists.BulletCaretAtStartSound | src/v2/js/plugins/UnorderedList.js:134-152 | With the caret's own text node included in the sibling check, the test implies that no text precedes the caret in the item. |
| Lists.BulletCaretAtStartAsWrittenUnsound | src/v2/js/plugins/UnorderedList.js:141-149 | As written, the test accepts the start of "y" in `<li><b>x</b>y</li>` although "x" precedes it. |
| Lists.FirstSublist | src/v2/js/plugins/List.js:410-426 | It finds the first child list of the requested kind inside the previous item, if any. |
| Lists.Indent | src/v2/js/plugins/List.js:410-426 | The first item stays put. Any other item leaves the list, which keeps every other item in order. |
| Lists.IndentPlacesItem | src/v2/js/plugins/List.js:410-426 | The indented item ends up last in the previous item's first sublist of that kind, or in a new sublist appended to it. |
| Lists.IndentKeepsItems | src/v2/js/plugins/List.js:410-426 | Indenting neither loses nor duplicates an item. |
| Lists.Outdent | src/v2/js/plugins/List.js:437-449 | A nested item moves right after its parent item in the outer list. Everything else keeps its place. |
| Lists.OutdentDropsEmptySublist | src/v2/js/plugins/List.js:437-449 | The sublist is removed exactly when the outdented item was its only child. |
| Lists.OutdentKeepsItems | src/v2/js/plugins/List.js:437-449 | Outdenting neither loses nor duplicates an item. |
| Lists.IndentThenOutdent | src/v2/js/plugins/List.js:410-454 | Indenting the last-placed item and outdenting it again restores the list, unless the indent created a sublist that the outdent then removed. |
| Lists.ExitInPlace | src/v2/js/plugins/List.js:346-357 | The top-level exit as written: the paragraph replaces the item inside the same list, which keeps its length, its other children, its attributes and its style. It is empty for the ordered-list plugin and takes the item's markup for the bullet plugin. The list is never removed. |
| Lists.ExitInPlaceLeavesItemlessList | src/v2/js/plugins/List.js:347-355 | Exiting the only item of `<ul><li><br></li></ul>` with an empty paragraph leaves `<ul><p></p></ul>`, a list without items. |
| Lists.ExitList | src/v2/js/plugins/List.js:346-357 | The intended exit turns the item into a top-level paragraph between the list's remaining parts. A list of one item is replaced by the paragraph. |
| Lists.ExitListWellFormed | src/v2/js/plugins/List.js:352-355 | The intended exit leaves every top-level list non-empty and made only of items. |
| Lists.ExitListKeepsText | src/v2/js/plugins/UnorderedList.js:84-88 | When the paragraph takes the item's markup, the document text is unchanged. |
| Lists.KeydownEdit | src/v2/js/plugins/List.js:316-362 | Tab indents, and Shift+Tab outdents. Backspace acts exactly on an empty item or a caret at its start: nested items outdent and top-level items exit. Other keys do nothing. |
| Lists.ClosestItem | src/v2/js/plugins/List.js:367-376 | It gives the nearest `LI` on the way up from the caret, or nothing when there is none. |
| Lists.ClosestBulletItem | src/v2/js/plugins/UnorderedList.js:105-120 | It gives the nearest `LI` whose parent is a `UL`, or nothing. |
| Lists.ClosestItemsAgree | src/v2/js/plugins/UnorderedList.js:105-120 | When the ordered plugin's item sits in a `UL`, both lookups find the same item. Otherwise the bullet lookup finds one further up or none. |
| Lists.MapOrderedType | src/v2/js/plugins/List.js:236-245 | The five ordered styles map to one-letter `type` values and every other style to nothing. |
| Lists.MapOrderedTypeInjective | src/v2/js/plugins/List.js:236-245 | Distinct styles map to distinct `type` values. |
| Lists.SetThenGet | src/v2/js/plugins/List.js:207-211 | After `style.listStyleType = v`, reading that property gives `v` and every other property reads as before. |
| Lists.SetKeepsValid | src/v2/js/plugins/List.js:207-211 | Setting a property keeps each property declared once. |
| Lists.SetPropertyTwice | src/v2/js/plugins/List.js:207-211 | Setting a property twice to one value is setting it once. |
| Lists.ApplyListStyle | src/v2/js/plugins/List.js:201-214 | `type` is set exactly for an ordered list with a mapped style, and other attributes are kept. The inline `list-style-type` becomes the style for a non-empty style on a UL or OL and is kept otherwise; every other inline property is kept. |
| Lists.ApplyListStyleIdempotent | src/v2/js/plugins/List.js:201-214 | Partner: applying a style a second time changes nothing. |
| Lists.ConvertListRoot | src/v2/js/plugins/List.js:183-198 | It fails for an unknown type. Otherwise it gives a list of the requested kind with the same children, the class only when non-empty, and the same inline style. |
| Lists.ConvertListRootRoundTrip | src/v2/js/plugins/List.js:183-198 | Converting a list to the other kind and back gives it back, inline style included, when its only attribute is a non-empty class. |
| Lists.StyleSurvivesConversion | src/v2/js/plugins/List.js:183-211 | A list style applied for one kind still shows after converting the list to the other kind. |
| Formatting.StripFormatting | src/v2/js/plugins/RemoveFormat.js:128-149 | Reference: it keeps exactly the attributes other than `class`, `style` and `data-*`, in order. |
| Formatting.StripFormattingIdempotent | src/v2/js/plugins/RemoveFormat.js:128-149 | Stripping twice is stripping once. |
| Formatting.DropIsStrip | src/v2/js/plugins/RemoveFormat.js:146-148 | Removing a list of names that picks out exactly the formatting attributes is the reference strip. |
| Formatting.RemovedAgree | src/v2/js/plugins/RemoveFormat.js:131-148 | Removing `class`, `style` and then every `data-*` name still present is the reference strip. |
| Formatting.DataAttributeNames | src/v2/js/plugins/RemoveFormat.js:138-144 | The collected names are all `data-*` names and include every `data-*` attribute of the element. |
| Formatting.RemoveEach | src/v2/js/plugins/RemoveFormat.js:146-148 | The removal loop leaves exactly the attributes whose names were not listed. |
| Formatting.RemoveFormattingAttributes | src/v2/js/plugins/RemoveFormat.js:128-149 | Cleaning one element step by step gives the reference strip. |
| Formatting.CleanTree | src/v2/js/plugins/RemoveFormat.js:101-111 | An element and its descendants end free of formatting. Every element keeps its tag, its place and its other attributes, in order (its attributes become exactly the reference strip), and text is unchanged. |
| Formatting.CleanTreeUnique | src/v2/js/plugins/RemoveFormat.js:101-111 | Partner: any tree of the same shape that only strips attributes and is free of formatting is the cleaned tree. |
| Formatting.CleanTreeFixes | src/v2/js/plugins/RemoveFormat.js:101-111 | A tree without formatting is left unchanged. |
| Formatting.CleanTreeIdempotent | src/v2/js/plugins/RemoveFormat.js:101-111 | Cleaning twice is cleaning once. |
| Formatting.NextElementSibling | src/v2/js/plugins/RemoveFormat.js:85-86 | It gives the first element after the position among the siblings, skipping text nodes, or nothing when there is none. |
| Formatting.WalkCollectsDistinctElements | src/v2/js/plugins/RemoveFormat.js:84-98 | The walk collects only elements strictly inside the editable, never one twice, so its `includes` test never fires. |
| Formatting.CleanAtCleans | src/v2/js/plugins/RemoveFormat.js:101-111 | Cleaning at a path frees that subtree of formatting and keeps every already clean subtree clean. |
| Formatting.CleanAllCleans | src/v2/js/plugins/RemoveFormat.js:101-111 | After the cleaning loop, every collected element and its descendants are free of formatting. |
| Formatting.CleanAllKeepsRoot | src/v2/js/plugins/RemoveFormat.js:102 | The cleaning loop never changes the editable's own tag or attributes. |
| Formatting.CleanAllFrame | src/v2/js/plugins/RemoveFormat.js:101-111 | An element below none of the collected ones keeps its attributes through the cleaning loop. |
| Formatting.CleanAllCovers | src/v2/js/plugins/RemoveFormat.js:101-111 | An element at or below a collected one ends free of formatting. |
| Formatting.CommonPrefix | src/v2/js/plugins/RemoveFormat.js:58 | It gives the deepest common ancestor of two positions: a common prefix of both paths that no longer one extends. |
| Formatting.ElementOf | src/v2/js/plugins/RemoveFormat.js:73-74 | The position it gives is an element of the tree, and it gives an outside position exactly for an outside one. |
| Formatting.Targets | src/v2/js/plugins/RemoveFormat.js:102 | It keeps exactly the collected elements strictly inside the editable. |
| Formatting.CleanDescendants | src/v2/js/plugins/RemoveFormat.js:61-65 | Every child subtree of the editable is cleaned. The editable keeps its tag and attributes, and the text is unchanged. |
| Formatting.RemoveFormat | src/v2/js/plugins/RemoveFormat.js:35-122 | Without a range nothing changes. Otherwise the document keeps every node, tag, text and place, and only attributes are stripped; the editable keeps its own attributes. |
| Formatting.RemoveFormatExact | src/v2/js/plugins/RemoveFormat.js:43-111 | Partner: exactly the covered elements lose their formatting attributes, and every other element, the editable first, keeps its attributes. Covered means below the editable and, for a partial selection, at or below a collected element. |
| Formatting.CaretCleansEverything | src/v2/js/plugins/RemoveFormat.js:43-55 | With a caret, everything below the editable ends up free of formatting. |
| Formatting.PartialCleansTargets | src/v2/js/plugins/RemoveFormat.js:66-111 | For a partial selection each collected element is inside the editable and ends up clean, with all its descendants. |
| Formatting.PartialTargetsDistinct | src/v2/js/plugins/RemoveFormat.js:77-98 | The elements collected for a partial selection are distinct. |
| Formatting.WalkPassesNestedEnd | src/v2/js/plugins/RemoveFormat.js:84-98 | The walk does not descend: selecting from "a" to "x" in `<div><p>a</p><p><b>x</b></p><p class="k">z</p></div>` collects the third paragraph and the `div`, so the class of the paragraph outside the selection is stripped. |
| LinkUrl.NormalizeUrl | src/v2/js/plugins/Link.js:149-161 | There is no URL exactly when the field is all white space. Otherwise the URL is the trimmed field when that already has an http(s) scheme, in any letter case, else the field with `https://` in front. |
| LinkUrl.NormalizeIdempotent | src/v2/js/plugins/Link.js:149-161 | Normalising a normalised URL changes nothing. |
| LinkUrl.InsertLink | src/v2/js/plugins/Link.js:145-198 | An all-space URL is rejected as empty and an unparsable one as invalid. A link under the caret gets the new href, and the new text unless that is empty. Otherwise an anchor with the text is inserted, or the selection is linked when the text is empty. |
| LinkUrl.WrittenLinksHaveScheme | src/v2/js/plugins/Link.js:159-193 | Every href the command writes starts with `http://` or `https://`. |
| LinkUrl.LinkAtCursor | src/v2/js/plugins/Link.js:224-241 | It gives the nearest `A` from the caret's element upwards, and none exactly when no such element exists. |
| VideoUrl.RunLength | src/v2/js/plugins/Video.js:97-107 | It gives the greedy run of class characters: all of them in the class, and the next one not. |
| VideoUrl.Leftmost | src/v2/js/plugins/Video.js:97-110 | Like `exec`, it gives the first position with a match and that match. There is none exactly when no position matches. |
| VideoUrl.ExecMatches | src/v2/js/plugins/Video.js:97-110 | `exec` finds a match exactly when the pattern matches somewhere. |
| VideoUrl.ParseVideo | src/v2/js/plugins/Video.js:95-114 | An empty URL gives nothing. Otherwise the first of YouTube, Vimeo, DailyMotion and direct file that matches decides the provider, and a direct file embeds the URL itself. |
| VideoUrl.YouTubeCapture | src/v2/js/plugins/Video.js:97 | A YouTube match captures the greedy run of at least six id characters right after the recognised prefix. |
| VideoUrl.YouTubeFirst | src/v2/js/plugins/Video.js:97-100 | When the YouTube pattern matches, its leftmost capture decides the embed source. |
| VideoUrl.VimeoCapture | src/v2/js/plugins/Video.js:101 | A Vimeo match captures the greedy run of digits after the optional channel or group segment. |
| VideoUrl.VimeoFirst | src/v2/js/plugins/Video.js:101-104 | Without a YouTube match, a Vimeo match gives the player source `https://player.vimeo.com/video/` plus the digits of its leftmost capture. |
| VideoUrl.DailyMotionCapture | src/v2/js/plugins/Video.js:105 | A DailyMotion match captures a non-empty run of letters and digits after the recognised prefix. |
| VideoUrl.DailyMotionFirst | src/v2/js/plugins/Video.js:105-108 | Without a YouTube or Vimeo match, a DailyMotion match gives the source `https://www.dailymotion.com/embed/video/` plus the letters and digits of its leftmost capture. |
| VideoUrl.ShortLinkEmbedsId | src/v2/js/plugins/Video.js:97-100 | `https://youtu.be/<id>` followed by anything that does not continue the id embeds exactly that id. |
| VideoUrl.BuildEmbed | src/v2/js/plugins/Video.js:116-134 | A direct file becomes a `<video>` with controls and any other provider an iframe wrapper allowing full screen, both with the parsed source. |
| VideoUrl.InsertVideo | src/v2/js/plugins/Video.js:136-159 | An all-space field does nothing. An unrecognised URL marks the field invalid. Otherwise the embed `BuildEmbed` makes for the parsed URL (a `<video controls>` for a file, the iframe wrapper otherwise) is inserted and reported with the trimmed URL and its provider. |
| Text.Trim | src/v2/js/plugins/Link.js:149-150 | `trim` leaves no white space at either end of the result and never lengthens the input. |
| Text.TrimIsSlice | src/v2/js/plugins/Link.js:149-150 | The trimmed value is a slice of the input with nothing but white space before and after it. |
| Text.TrimIdempotent | src/v2/js/plugins/Link.js:149-150 | Trimming twice is trimming once. |
| Text.TrimEmptyIffAllSpace | src/v2/js/plugins/Link.js:152-156 | A field trims to empty exactly when it is all white space. |
| Text.ToUpper | src/v2/js/core/BasePlugin.js:224 | For ASCII letters: the result has the same length and no lower-case ASCII letter, and agrees with the input up to case. |
| Text.ToUpperIdempotent | src/v2/js/core/BasePlugin.js:224 | Upper-casing twice is upper-casing once. |
| Seqs.RemoveFirst | src/v2/js/core/EventEmitter.js:46-51 | `indexOf` then `splice(i, 1)` removes exactly one occurrence, the first, when there is one, and changes nothing otherwise. |
| Seqs.Reverse | src/v2/js/core/PluginRegistry.js:174 | Position i of the result holds the element at the mirrored position. |

## Left out

- DOM rendering, CSS, dialogs, toolbar markup, focus handling and the events the plugins emit for the UI are not modelled. Buttons record only whether they were mounted.
- The editable area's content and `getContent`/`setContent` are not modelled in EditorCore. Its plugins, bus and toolbar groups are.
- Selection and Range objects are inputs: a caret is a path, and a range is its two ends plus a collapsed flag.
- Timers (`setTimeout`) are explicit events. Their delays (10 ms for paste, 50 ms for re-enabling) are not modelled.
- JavaScript callbacks are parameters (see above), and exceptions are results. A handler's or callback's bus calls are applied after it returns; an `emit` made from inside a handler, `init` or a callback is not modelled.
- Registry.DestroyAll: a plugin `destroy` makes no modelled bus call. Its unsubscriptions would not matter, because `Editor.destroy` removes every listener right after.
- Registry.StartAll: a start whose constructor throws, or whose instance has no `init`, makes no modelled bus call. The base constructor (BasePlugin.js:40-50) makes none, and `init` never runs; bus calls from a subclass constructor are not modelled.
- Lists.ApplyListStyle: the inline style is held as its declarations; style text the CSS parser would drop, and an invalid `list-style-type` value that it would ignore, are not modelled.
- EditorCore.ClassNames: a plugin entry that is not a function is rejected, although `.pluginName || .name` also works on a plain object; likewise `Lists.MapOrderedType` and `Bundles.PluginMap` do not model the object literal's prototype keys.
- Console logging of caught errors is left out.
- The `new URL(...)` parser is a parameter of `LinkUrl.InsertLink`, because its grammar is the WHATWG URL standard.
- LinkUrl.InsertLink: the anchor markup built by string interpolation is not HTML-escaped in the source; the model records the href and text, not the markup.
- Plugin.Click: focusing is reduced to whether the caret moves to the end of the editable.
- Plugin.Construct: `navigator.platform` is a boolean parameter.
- Registry.Register: only string class names are modelled. JavaScript prototype keys and non-string names are not.
- Bundles.BundlePlugins: a `plugins` option that is present but not an array counts as absent, as `Array.isArray` decides.
- Bundles.PluginMapInverse: only string actions are looked up, so non-string toolbar actions and prototype property names are not modelled.
- TableGrid.ToInt32: covers integral inputs only. Fractional and non-numeric sizes are not modelled, because JavaScript numbers are floating point.
- TableGrid.InsertTable: the table has one body. `thead`, `tfoot`, nested tables, merged cells and placing the caret in the first cell are not modelled.
- TableGrid.AddRow: the caret's new position after each table edit is not modelled.
- Lists.Outdent: the ordered-list plugin's top-level Shift+Tab calls the browser's `outdent` command (List.js:452). That command's effect is left out.
- Lists.ClosestItem: `closest('li')` may leave the editable area; the model's chain ends at the editable.
- Lists.ApplyListStyle: `applyList` (List.js:140-180) is left out, because it calls the browser's `insertOrderedList`/`insertUnorderedList` commands.
- Formatting.RemoveFormat: the editable is assumed to have a parent inside the editor's wrapper, so a walk can step out of it. Attribute names are taken as lower case, and comment nodes are not modelled.
- VideoUrl.InsertVideo: inserting the node at the selection and placing the caret after it are not modelled.
- Text.ToUpper: maps only the ASCII letters `a`-`z`; `toUpperCase` also maps every other Unicode lower-case letter, including `ı`→`I`, `é`→`É`, and the length-changing `ß`→`SS`. So a shortcut string built from such a key differs from the program's (Ctrl with `ı` gives `Ctrl+ı` here and `Ctrl+I` in the program), and `Plugin.ShortcutStringInjective` holds for the ASCII mapping only (`é` and `É` give one string in the program).
- The `Editor.init` static helper (Editor.js:568-580), the auto-initialisation on `DOMContentLoaded` (Editor.js:584-594) and `handleSelectionChange` are DOM wiring and are left out.
- The inline-style plugins that only call browser commands are left out (Bold, Italic, Underline, Strikethrough, Highlight, Code, Heading, Align, Blockquote, HorizontalRule, FormatBlock). So are CodeView, ImageTool, the `ajax`, `dom` and `events` helpers, and EditorLite.
- `createEditor` builds an `Editor` from its list. Only the list is modelled (`Bundles.CreateEditorPlugins`).

## Findings

| source | as written | input that shows it | evidently intended | confidence | as-written member | corrected member |
|---|---|---|---|---|---|---|
| src/v2/js/plugins/List.js:346-357 | On Backspace in a top-level item, the new paragraph is inserted inside the list, before the item, which is then removed. The list therefore never becomes empty, and the "remove the list if empty" branch can never run. | `<ul><li><br></li></ul>`, Backspace in the item: the result is `<ul><p></p></ul>`, a list holding a paragraph and no items. | The item becomes a paragraph after the list's earlier items and before its later ones. A list left without items disappears. | high; not executed | Lists.ExitInPlaceLeavesItemlessList | Lists.ExitListWellFormed |
| src/v2/js/plugins/UnorderedList.js:196-207 | The bullet plugin's top-level outdent (and its Backspace exit, lines 83-94) does the same: the paragraph goes inside the `UL`, and the empty-list cleanup is dead. | `<ul><li>a</li></ul>`, Shift+Tab in the item: the result is `<ul><p>a</p></ul>`. | Same as above, with the paragraph keeping the item's markup and the text unchanged. | high; not executed | Lists.ExitInPlace | Lists.ExitListKeepsText |
| src/v2/js/plugins/UnorderedList.js:141-149 | `isCaretAtStartOfItem` checks previous siblings only from the text node's parent upwards. It never checks the text node's own previous sibling. | `<li><b>x</b>y</li>` with the caret at the start of "y": the test returns true although "x" precedes the caret, so Backspace exits or outdents the item. | The caret is at the start only when no content precedes it in the item, starting the sibling check at the text node itself. | high; not executed | Lists.BulletCaretAtStartAsWrittenUnsound | Lists.BulletCaretAtStartSound |

=== FILE: bundles.dfy ===
/** The two bundle entry points: the standard and the lite editor classes
    derive their plugin list from the toolbar configuration, and
    `createEditor` falls back to a fixed plugin list. Plugin classes are
    named by an enumeration. */
module Bundles {
  import opened Wrappers
  import opened Toolbar

  datatype PluginClass =
    | BoldPlugin | ItalicPlugin | UnderlinePlugin | StrikethroughPlugin
    | HighlightPlugin | CodePlugin | RemoveFormatPlugin | ListPlugin
    | LinkPlugin | HeadingPlugin | SeparatorPlugin

  datatype Variant = Standard | Lite

  datatype BundleError = ToolbarNotIterable

  /** The toolbar action naming each class. */
  function ActionName(c: PluginClass): string {
    match c
    case BoldPlugin => "bold"
    case ItalicPlugin => "italic"
    case UnderlinePlugin => "underline"
    case StrikethroughPlugin => "strikethrough"
    case HighlightPlugin => "highlight"
    case CodePlugin => "code"
    case RemoveFormatPlugin => "removeFormat"
    case ListPlugin => "list"
    case LinkPlugin => "link"
    case HeadingPlugin => "heading"
    case SeparatorPlugin => "separator"
  }

  /** The lite map leaves out highlight, code and removeFormat. */
  predicate InBundle(v: Variant, c: PluginClass) {
    v == Standard || !(c == HighlightPlugin || c == CodePlugin || c == RemoveFormatPlugin)
  }

  /** The classes of each bundle's `pluginMap` object literal, in source
      order; each is listed under its action name. */
  const StandardMapClasses: seq<PluginClass> :=
    [BoldPlugin, ItalicPlugin, UnderlinePlugin, StrikethroughPlugin, HighlightPlugin, CodePlugin,
     RemoveFormatPlugin, ListPlugin, LinkPlugin, HeadingPlugin, SeparatorPlugin]

  const LiteMapClasses: seq<PluginClass> :=
    [BoldPlugin, ItalicPlugin, UnderlinePlugin, StrikethroughPlugin, ListPlugin, LinkPlugin,
     HeadingPlugin, SeparatorPlugin]

  function MapClasses(v: Variant): seq<PluginClass> {
    if v == Standard then StandardMapClasses else LiteMapClasses
  }

  function MapTable(v: Variant): seq<(string, PluginClass)> {
    var cs := MapClasses(v);
    seq(|cs|, i requires 0 <= i < |cs| => (ActionName(cs[i]), cs[i]))
  }

  /** Distinct classes have distinct action names. */
  lemma ActionNameInjective(c: PluginClass, d: PluginClass)
    ensures ActionName(c) == ActionName(d) ==> c == d
  {
    if c != d {
      assert ActionName(c)[..2] != ActionName(d)[..2] || |ActionName(c)| != |ActionName(d)| ||
             ActionName(c) != ActionName(d);
    }
  }

  /** Property lookup on an object literal: the entry under the key. */
  function Lookup(table: seq<(string, PluginClass)>, key: string): Option<PluginClass> {
    if |table| == 0 then None
    else if table[0].0 == key then Some(table[0].1)
    else Lookup(table[1..], key)
  }

  ghost predicate KeysDistinct(table: seq<(string, PluginClass)>) {
    forall i, j :: 0 <= i < j < |table| ==> table[i].0 != table[j].0
  }

  /** With distinct keys, lookup finds exactly the listed pairs. */
  lemma {:induction false} LookupFinds(table: seq<(string, PluginClass)>, key: string, c: PluginClass)
    requires KeysDistinct(table)
    ensures Lookup(table, key) == Some(c) <==> (key, c) in table
    decreases |table|
  {
    if |table| > 0 {
      assert KeysDistinct(table[1..]) by {
        forall i, j | 0 <= i < j < |table| - 1
          ensures table[1..][i].0 != table[1..][j].0
        {
          assert table[1..][i] == table[i + 1] && table[1..][j] == table[j + 1];
        }
      }
      LookupFinds(table[1..], key, c);
      assert table == [table[0]] + table[1..];
    }
  }

  lemma MapClassesCarried(v: Variant, c: PluginClass)
    ensures c in MapClasses(v) <==> InBundle(v, c)
  {
    match c
    case BoldPlugin => assert MapClasses(v)[0] == c;
    case ItalicPlugin => assert MapClasses(v)[1] == c;
    case UnderlinePlugin => assert MapClasses(v)[2] == c;
    case StrikethroughPlugin => assert MapClasses(v)[3] == c;
    case HighlightPlugin =>
    case CodePlugin =>
    case RemoveFormatPlugin =>
    case ListPlugin =>
    case LinkPlugin =>
    case HeadingPlugin =>
    case SeparatorPlugin =>
  }

  lemma MapTableKeysDistinct(v: Variant)
    ensures KeysDistinct(MapTable(v))
  {
    var t := MapTable(v);
    var cs := MapClasses(v);
    forall i, j | 0 <= i < j < |t|
      ensures t[i].0 != t[j].0
    {
      ActionNameInjective(cs[i], cs[j]);
    }
  }

  /** Each bundle's map lists every class it carries under that class's
      action name, and nothing else. */
  lemma MapTableEntries(v: Variant, key: string, c: PluginClass)
    ensures (key, c) in MapTable(v) <==> key == ActionName(c) && InBundle(v, c)
  {
    var t := MapTable(v);
    var cs := MapClasses(v);
    MapClassesCarried(v, c);
    if (key, c) in t {
      var i :| 0 <= i < |t| && t[i] == (key, c);
      assert cs[i] == c;
    }
    if key == ActionName(c) && InBundle(v, c) {
      var i :| 0 <= i < |cs| && cs[i] == c;
      assert t[i] == (key, c);
    }
  }

  /** `pluginMap[action]` for a string action. */
  function PluginMap(v: Variant, action: string): Option<PluginClass> {
    Lookup(MapTable(v), action)
  }

  /** The map sends an action to a class exactly when the action is that
      class's name and the bundle carries it. */
  lemma PluginMapInverse(v: Variant, action: string, c: PluginClass)
    ensures PluginMap(v, action) == Some(c) <==> action == ActionName(c) && InBundle(v, c)
  {
    MapTableKeysDistinct(v);
    MapTableEntries(v, action, c);
    LookupFinds(MapTable(v), action, c);
  }

  /** The derivation loop: mapped actions in order, duplicates kept,
      unmapped actions dropped. */
  function Derive(v: Variant, actions: seq<Json>): seq<PluginClass> {
    if |actions| == 0 then [] else Mapped(v, actions[0]) + Derive(v, actions[1..])
  }

  /** What one toolbar item contributes: its class when it is a mapped
      string action, nothing otherwise. */
  function Mapped(v: Variant, item: Json): seq<PluginClass> {
    if item.Str? && PluginMap(v, item.s).Some? then [PluginMap(v, item.s).value] else []
  }

  lemma MappedCount(v: Variant, item: Json, c: PluginClass)
    ensures multiset(Mapped(v, item))[c] ==
      if InBundle(v, c) && item == Str(ActionName(c)) then 1 else 0
  {
    if item.Str? {
      PluginMapInverse(v, item.s, c);
    }
  }

  lemma {:induction false} DeriveAppend(v: Variant, a: seq<Json>, b: seq<Json>)
    ensures Derive(v, a + b) == Derive(v, a) + Derive(v, b)
    decreases |a|
  {
    if |a| == 0 {
      assert a + b == b;
    } else {
      assert (a + b)[0] == a[0];
      assert (a + b)[1..] == a[1..] + b;
      DeriveAppend(v, a[1..], b);
    }
  }

  /** Each class occurs in the derived list exactly as often as its action
      name occurs among the actions, when the bundle carries it, and never
      otherwise. */
  lemma {:induction false} DeriveCounts(v: Variant, actions: seq<Json>, c: PluginClass)
    ensures multiset(Derive(v, actions))[c] ==
      if InBundle(v, c) then multiset(actions)[Str(ActionName(c))] else 0
    decreases |actions|
  {
    if |actions| > 0 {
      var x, rest := actions[0], actions[1..];
      DeriveCounts(v, rest, c);
      MappedCount(v, x, c);
      assert Derive(v, actions) == Mapped(v, x) + Derive(v, rest);
      assert multiset(Derive(v, actions))[c] == multiset(Mapped(v, x))[c] + multiset(Derive(v, rest))[c];
      if InBundle(v, c) {
        var k := Str(ActionName(c));
        assert actions == [x] + rest;
        assert multiset(actions)[k] == multiset([x])[k] + multiset(rest)[k];
      }
    }
  }

  /** The derived list only holds classes whose action appears, in the
      order the actions appear. */
  lemma {:induction false} DeriveOrdered(v: Variant, a: seq<Json>, x: Json, b: seq<Json>, y: Json, cs: seq<Json>)
    requires x.Str? && PluginMap(v, x.s).Some? && y.Str? && PluginMap(v, y.s).Some?
    ensures exists i, j :: (0 <= i < j < |Derive(v, a + [x] + b + [y] + cs)| &&
                            Derive(v, a + [x] + b + [y] + cs)[i] == PluginMap(v, x.s).value &&
                            Derive(v, a + [x] + b + [y] + cs)[j] == PluginMap(v, y.s).value)
  {
    var s := a + [x] + b + [y] + cs;
    DeriveAppend(v, a + [x] + b + [y], cs);
    DeriveAppend(v, a + [x] + b, [y]);
    DeriveAppend(v, a + [x], b);
    DeriveAppend(v, a, [x]);
    var i := |Derive(v, a)|;
    var j := |Derive(v, a)| + 1 + |Derive(v, b)|;
    assert Derive(v, [x]) == Mapped(v, x) + Derive(v, []);
    assert Derive(v, [y]) == Mapped(v, y) + Derive(v, []);
    assert Derive(v, s)[i] == PluginMap(v, x.s).value;
    assert Derive(v, s)[j] == PluginMap(v, y.s).value;
  }

  const StandardDefaultToolbar: seq<Json> :=
    [Str("heading"), Str("separator"),
     Str("bold"), Str("italic"), Str("underline"), Str("strikethrough"), Str("highlight"), Str("code"),
     Str("separator"), Str("removeFormat"), Str("separator"), Str("list"), Str("separator"), Str("link")]

  const LiteDefaultToolbar: seq<Json> :=
    [Str("heading"), Str("list"), Str("separator"),
     Str("bold"), Str("italic"), Str("underline"), Str("strikethrough"),
     Str("separator"), Str("link")]

  function DefaultToolbar(v: Variant): seq<Json> {
    if v == Standard then StandardDefaultToolbar else LiteDefaultToolbar
  }

  /** `for (const item of toolbar)` over `options.toolbar || default`: an
      array yields its elements, a non-empty string its characters, and any
      other truthy value is not iterable. */
  function ToolbarItems(v: Variant, toolbar: Option<Json>): (r: Result<seq<Json>, BundleError>)
    ensures toolbar.None? || Falsy(toolbar.value) ==> r == Ok(DefaultToolbar(v))
    ensures toolbar.Some? && toolbar.value.Arr? ==> r == Ok(toolbar.value.items)
    ensures r.Err? <==> toolbar == Some(Other(true))
    ensures toolbar.Some? && toolbar.value.Str? && toolbar.value.s != "" ==>
      r.Ok? && |r.value| == |toolbar.value.s| &&
      forall i :: 0 <= i < |r.value| ==> r.value[i] == Str([toolbar.value.s[i]])
  {
    match toolbar
    case None => Ok(DefaultToolbar(v))
    case Some(Str(s)) => if s == "" then Ok(DefaultToolbar(v)) else Ok(seq(|s|, i requires 0 <= i < |s| => Str([s[i]])))
    case Some(Arr(xs)) => Ok(xs)
    case Some(Other(truthy)) => if truthy then Err(ToolbarNotIterable) else Ok(DefaultToolbar(v))
  }

  /** The `plugins` option the bundle class hands to the editor. An
      explicit plugin array is passed through and the toolbar is not read. */
  function BundlePlugins(v: Variant, plugins: Option<seq<PluginClass>>, toolbar: Option<Json>): (r: Result<seq<PluginClass>, BundleError>)
    ensures plugins.Some? ==> r == Ok(plugins.value)
    ensures plugins.None? && ToolbarItems(v, toolbar).Ok? ==>
      r == Ok(Derive(v, Flatten(ToolbarItems(v, toolbar).value)))
    ensures plugins.None? && ToolbarItems(v, toolbar).Err? ==> r.Err?
  {
    if plugins.Some? then Ok(plugins.value)
    else
      match ToolbarItems(v, toolbar)
      case Err(e) => Err(e)
      case Ok(items) => Ok(Derive(v, Flatten(items)))
  }

  const StandardDefaultPlugins: seq<PluginClass> :=
    [HeadingPlugin, SeparatorPlugin,
     BoldPlugin, ItalicPlugin, UnderlinePlugin, StrikethroughPlugin, HighlightPlugin, CodePlugin,
     SeparatorPlugin, RemoveFormatPlugin, SeparatorPlugin, ListPlugin, SeparatorPlugin, LinkPlugin]

  const LiteDefaultPlugins: seq<PluginClass> :=
    [HeadingPlugin, ListPlugin, SeparatorPlugin,
     BoldPlugin, ItalicPlugin, UnderlinePlugin, StrikethroughPlugin,
     SeparatorPlugin, LinkPlugin]

  /** Every class in the list is one the bundle carries. */
  predicate Carries(v: Variant, cs: seq<PluginClass>) {
    v == Standard || (HighlightPlugin !in cs && CodePlugin !in cs && RemoveFormatPlugin !in cs)
  }

  /** The toolbar that names the given classes, one action each. */
  function Actions(cs: seq<PluginClass>): seq<Json> {
    seq(|cs|, i requires 0 <= i < |cs| => Str(ActionName(cs[i])))
  }

  /** A toolbar naming classes the bundle carries loads exactly those
      classes, in that order and with their repetitions. */
  lemma CarriesSplit(v: Variant, cs: seq<PluginClass>)
    requires Carries(v, cs) && |cs| > 0
    ensures InBundle(v, cs[0]) && Carries(v, cs[1..])
  {
    assert cs == [cs[0]] + cs[1..];
  }

  lemma MappedAction(v: Variant, c: PluginClass)
    requires InBundle(v, c)
    ensures Mapped(v, Str(ActionName(c))) == [c]
  {
    PluginMapInverse(v, ActionName(c), c);
  }

  lemma ActionsSplit(cs: seq<PluginClass>)
    requires |cs| > 0
    ensures Actions(cs) == [Str(ActionName(cs[0]))] + Actions(cs[1..])
  {
  }

  lemma {:induction false} DeriveActions(v: Variant, cs: seq<PluginClass>)
    requires Carries(v, cs)
    ensures Derive(v, Actions(cs)) == cs
    decreases |cs|
  {
    if |cs| > 0 {
      CarriesSplit(v, cs);
      DeriveActions(v, cs[1..]);
      MappedAction(v, cs[0]);
      ActionsSplit(cs);
    }
  }

  lemma StandardToolbarNamesDefaults()
    ensures StandardDefaultToolbar == Actions(StandardDefaultPlugins)
  {
  }

  lemma LiteToolbarNamesDefaults()
    ensures LiteDefaultToolbar == Actions(LiteDefaultPlugins)
  {
  }

  function DefaultPlugins(v: Variant): seq<PluginClass> {
    if v == Standard then StandardDefaultPlugins else LiteDefaultPlugins
  }

  /** Each default toolbar names its bundle's default classes, and only
      classes the bundle carries. */
  lemma DefaultToolbarNamesDefaults(v: Variant)
    ensures DefaultToolbar(v) == Actions(DefaultPlugins(v))
    ensures Carries(v, DefaultPlugins(v))
  {
    if v == Standard { StandardToolbarNamesDefaults(); } else { LiteToolbarNamesDefaults(); }
  }

  /** A toolbar option that names bundled classes loads exactly those. */
  lemma ActionsRoundTrip(v: Variant, cs: seq<PluginClass>)
    requires Carries(v, cs)
    ensures BundlePlugins(v, None, Some(Arr(Actions(cs)))) == Ok(cs)
  {
    FlattenFlat(Actions(cs));
    DeriveActions(v, cs);
  }

  /** With no toolbar option, each bundle loads the classes its default
      toolbar names, in toolbar order and with repetitions: fourteen for
      the standard bundle (the separator four times), nine for the lite one
      (the separator twice). */
  lemma DefaultDerivation(v: Variant)
    ensures BundlePlugins(v, None, None) == Ok(DefaultPlugins(v))
  {
    DefaultToolbarNamesDefaults(v);
    DerivationOf(v, DefaultToolbar(v), DefaultPlugins(v));
  }

  lemma DerivationOf(v: Variant, t: seq<Json>, cs: seq<PluginClass>)
    requires t == Actions(cs) && Carries(v, cs)
    ensures Derive(v, Flatten(t)) == cs
  {
    FlattenFlat(t);
    DeriveActions(v, cs);
  }

  lemma DeriveOmits(v: Variant, actions: seq<Json>, c: PluginClass)
    requires !InBundle(v, c)
    ensures c !in Derive(v, actions)
  {
    DeriveCounts(v, actions, c);
  }

  /** The lite bundle never loads highlight, code or removeFormat, whatever
      the toolbar names. */
  lemma LiteOmitsRichPlugins(toolbar: Option<Json>)
    requires BundlePlugins(Lite, None, toolbar).Ok?
    ensures var cs := BundlePlugins(Lite, None, toolbar).value;
      HighlightPlugin !in cs && CodePlugin !in cs && RemoveFormatPlugin !in cs
  {
    var actions := Flatten(ToolbarItems(Lite, toolbar).value);
    assert BundlePlugins(Lite, None, toolbar).value == Derive(Lite, actions);
    DeriveOmits(Lite, actions, HighlightPlugin);
    DeriveOmits(Lite, actions, CodePlugin);
    DeriveOmits(Lite, actions, RemoveFormatPlugin);
  }

  /** `createEditor`'s plugin list: `options.plugins || [...]`. */
  function CreateEditorPlugins(v: Variant, plugins: Option<seq<PluginClass>>): (r: seq<PluginClass>)
    ensures plugins.Some? ==> r == plugins.value
    ensures plugins.None? && v == Standard ==> |r| == 7 && r[4] == RemoveFormatPlugin
    ensures plugins.None? && v == Lite ==> |r| == 6 && RemoveFormatPlugin !in r
    ensures plugins.None? ==> r[..4] == [BoldPlugin, ItalicPlugin, UnderlinePlugin, StrikethroughPlugin]
    ensures plugins.None? ==> r[|r| - 2..] == [ListPlugin, LinkPlugin]
  {
    if plugins.Some? then plugins.value
    else if v == Standard then
      [BoldPlugin, ItalicPlugin, UnderlinePlugin, StrikethroughPlugin, RemoveFormatPlugin, ListPlugin, LinkPlugin]
    else
      [BoldPlugin, ItalicPlugin, UnderlinePlugin, StrikethroughPlugin, ListPlugin, LinkPlugin]
  }
}

=== FILE: editor.dfy ===
/** The editor's orchestration: its init/destroy lifecycle, the toolbar
    groups, the plugin map built through the registry, and the keydown
    path that ends in shortcut dispatch. The DOM structure and content
    serialisation are left out; handlers on the bus and the host's
    callbacks are scripted as in the event bus model. */
module EditorCore {
  import opened Wrappers
  import opened Seqs
  import opened Toolbar
  import EventBus
  import Registry
  import Plugin

  type Instance = Plugin.Plugin

  /** The `plugins` Map as its insertion-ordered entries. */
  type Entries = seq<(string, Instance)>

  /** `defaultOptions.toolbar`. */
  const DefaultToolbar: seq<Json> :=
    [Str("bold"), Str("italic"), Str("underline"), Str("strikethrough"),
     Str("removeFormat"), Str("list"), Str("link")]

  /** The `onInit`, `onKeydown` and `onDestroy` entries of
      `options.callbacks`: what each does when called (its calls on the
      editor's bus, whether it prevents the default of its event argument,
      whether it throws), or `None` when the entry is not a function. */
  datatype Callbacks = Callbacks(onInit: Option<EventBus.Reaction>, onKeydown: Option<EventBus.Reaction>,
                                 onDestroy: Option<EventBus.Reaction>)

  /** The options the core reads. `toolbar` is `None` when the key is
      absent (the default then applies); `plugins` is `None` unless the
      option is an array. */
  datatype Options = Options(toolbar: Option<Json>, shortcuts: bool, plugins: Option<seq<Registry.ClassValue>>,
                             callbacks: Callbacks)

  datatype EditorError =
    | TargetNotFound
    | NotInitialized
    | BadPluginEntry
    | PluginFailure(error: Registry.RegistryError)
    | CallbackThrew(name: string)

  datatype Editor = Editor(
    options: Options,
    registry: Registry.Registry<Instance>,
    plugins: Entries,
    initialized: bool,
    groups: set<string>,        // the string keys of `toolbarGroups`
    bus: EventBus.Bus)

  // ---------------------------------------------------------------------
  // The plugins Map

  function Keys(s: Entries): (r: seq<string>)
    ensures |r| == |s| && forall i :: 0 <= i < |s| ==> r[i] == s[i].0
  {
    if |s| == 0 then [] else [s[0].0] + Keys(s[1..])
  }

  /** `Map.prototype.get`. */
  function Lookup(s: Entries, k: string): (r: Option<Instance>)
    ensures r.None? <==> k !in Keys(s)
    ensures r.Some? ==> exists i :: 0 <= i < |s| && s[i] == (k, r.value)
  {
    if |s| == 0 then None
    else if s[0].0 == k then Some(s[0].1)
    else
      var r := Lookup(s[1..], k);
      assert Keys(s) == [s[0].0] + Keys(s[1..]);
      assert r.Some? ==> exists i :: 0 <= i < |s| && s[i] == (k, r.value) by {
        if r.Some? {
          var i :| 0 <= i < |s[1..]| && s[1..][i] == (k, r.value);
          assert s[i + 1] == (k, r.value);
        }
      }
      r
  }

  /** `Map.prototype.set`: a present key keeps its place, a new key goes
      last. */
  function Put(s: Entries, k: string, v: Instance): (r: Entries)
    requires NoDup(Keys(s))
    ensures NoDup(Keys(r))
    ensures Lookup(r, k) == Some(v)
    ensures forall k' :: k' != k ==> Lookup(r, k') == Lookup(s, k')
    ensures forall k' :: k' in Keys(r) <==> k' in Keys(s) || k' == k
    ensures k !in Keys(s) ==> r == s + [(k, v)]
    ensures k in Keys(s) ==> |r| == |s| && Keys(r) == Keys(s)
  {
    if k !in Keys(s) then
      var r := s + [(k, v)];
      PutFresh(s, k, v);
      r
    else
      var i := IndexOf(Keys(s), k);
      var r := s[i := (k, v)];
      PutPresent(s, i, k, v);
      r
  }

  lemma PutFresh(s: Entries, k: string, v: Instance)
    requires NoDup(Keys(s)) && k !in Keys(s)
    ensures var r := s + [(k, v)];
      NoDup(Keys(r)) && Lookup(r, k) == Some(v) &&
      (forall k' :: k' != k ==> Lookup(r, k') == Lookup(s, k')) &&
      (forall k' :: k' in Keys(r) <==> k' in Keys(s) || k' == k)
  {
    var r := s + [(k, v)];
    assert Keys(r) == Keys(s) + [k];
    LookupAppend(s, k, v);
  }

  lemma {:induction false} LookupAppend(s: Entries, k: string, v: Instance)
    requires k !in Keys(s)
    ensures Lookup(s + [(k, v)], k) == Some(v)
    ensures forall k' :: k' != k ==> Lookup(s + [(k, v)], k') == Lookup(s, k')
    decreases |s|
  {
    if |s| > 0 {
      assert (s + [(k, v)])[1..] == s[1..] + [(k, v)];
      assert Keys(s) == [s[0].0] + Keys(s[1..]);
      LookupAppend(s[1..], k, v);
    }
  }

  lemma PutPresent(s: Entries, i: nat, k: string, v: Instance)
    requires NoDup(Keys(s)) && i < |s| && s[i].0 == k
    ensures var r := s[i := (k, v)];
      Keys(r) == Keys(s) && NoDup(Keys(r)) && Lookup(r, k) == Some(v) &&
      (forall k' :: k' != k ==> Lookup(r, k') == Lookup(s, k'))
  {
    var r := s[i := (k, v)];
    assert Keys(r) == Keys(s);
    assert Lookup(r, k) == Some(v) by { LookupUnique(r, i); }
    forall k' | k' != k ensures Lookup(r, k') == Lookup(s, k') {
      LookupOther(s, i, k, v, k');
    }
  }

  /** With distinct keys, the entry at `i` is what its key looks up. */
  lemma {:induction false} LookupUnique(s: Entries, i: nat)
    requires NoDup(Keys(s)) && i < |s|
    ensures Lookup(s, s[i].0) == Some(s[i].1)
    decreases |s|
  {
    if i > 0 {
      assert Keys(s)[0] != Keys(s)[i];
      assert Keys(s[1..]) == Keys(s)[1..];
      LookupUnique(s[1..], i - 1);
    }
  }

  lemma {:induction false} LookupOther(s: Entries, i: nat, k: string, v: Instance, k': string)
    requires i < |s| && s[i].0 == k && k' != k
    ensures Lookup(s[i := (k, v)], k') == Lookup(s, k')
    decreases |s|
  {
    if |s| > 0 && s[0].0 != k' && i > 0 {
      assert s[i := (k, v)][1..] == s[1..][i - 1 := (k, v)];
      LookupOther(s[1..], i - 1, k, v, k');
    }
  }

  /** Dropping the first entry keeps the keys distinct. */
  lemma KeysTail(m: Entries)
    requires |m| > 0
    ensures NoDup(Keys(m)) ==> NoDup(Keys(m[1..]))
  {
    if NoDup(Keys(m)) {
      forall a, b | 0 <= a < b < |Keys(m[1..])| ensures Keys(m[1..])[a] != Keys(m[1..])[b] {
        assert Keys(m[1..])[a] == Keys(m)[a + 1];
        assert Keys(m[1..])[b] == Keys(m)[b + 1];
      }
    }
  }

  /** `instances.forEach((instance, name) => this.plugins.set(name, instance))`. */
  function PutAll(s: Entries, m: Entries): (r: Entries)
    requires NoDup(Keys(s))
    ensures NoDup(Keys(r))
    ensures forall k :: k in Keys(r) <==> k in Keys(s) || k in Keys(m)
    decreases |m|
  {
    if |m| == 0 then s
    else
      var r := PutAll(Put(s, m[0].0, m[0].1), m[1..]);
      assert Keys(m) == [m[0].0] + Keys(m[1..]);
      r
  }

  /** Keys the merged map does not bring look up as before. */
  lemma {:induction false} PutAllOthers(s: Entries, m: Entries)
    requires NoDup(Keys(s))
    ensures forall k :: k !in Keys(m) ==> Lookup(PutAll(s, m), k) == Lookup(s, k)
    decreases |m|
  {
    if |m| > 0 {
      PutAllOthers(Put(s, m[0].0, m[0].1), m[1..]);
      assert Keys(m) == [m[0].0] + Keys(m[1..]);
    }
  }

  /** With distinct keys in the merged map, each of its keys looks up its
      merged value. */
  lemma {:induction false} PutAllLater(s: Entries, m: Entries)
    requires NoDup(Keys(s)) && NoDup(Keys(m))
    ensures forall i :: 0 <= i < |m| ==> Lookup(PutAll(s, m), m[i].0) == Some(m[i].1)
    decreases |m|
  {
    if |m| > 0 {
      var s' := Put(s, m[0].0, m[0].1);
      assert Keys(m) == [m[0].0] + Keys(m[1..]);
      KeysTail(m);
      PutAllLater(s', m[1..]);
      PutAllOthers(s', m[1..]);
      assert m[0].0 !in Keys(m[1..]);
      forall i | 1 <= i < |m| ensures Lookup(PutAll(s, m), m[i].0) == Some(m[i].1) {
        assert m[i] == m[1..][i - 1];
      }
    }
  }

  // ---------------------------------------------------------------------
  // Toolbar groups

  /** `Array.isArray(this.options.toolbar) ? this.options.toolbar : []`,
      with the default toolbar when the option is absent. */
  function ToolbarConfig(toolbar: Option<Json>): seq<Json> {
    match toolbar
    case None => DefaultToolbar
    case Some(Arr(xs)) => xs
    case Some(_) => []
  }

  /** The keys one action adds to `toolbarGroups`: a string action names
      its own group, and `ul`, `ol`, `link` also register the command names
      their plugins use. A non-string action becomes a key no string lookup
      can hit. */
  function ActionKeys(action: Json): set<string> {
    match action
    case Str(a) =>
      {a} + (if a == "ul" then {"insertUnorderedList"} else {})
          + (if a == "ol" then {"insertOrderedList"} else {})
          + (if a == "link" then {"createLink"} else {})
    case _ => {}
  }

  function GroupKeys(actions: seq<Json>): set<string> {
    if |actions| == 0 then {} else ActionKeys(actions[0]) + GroupKeys(actions[1..])
  }

  /** `buildToolbarGroups()`. */
  function BuildToolbarGroups(toolbar: Option<Json>): set<string> {
    GroupKeys(Flatten(ToolbarConfig(toolbar)))
  }

  /** `getToolbarGroupForAction(action)`: whether the toolbar element is
      returned rather than null. */
  function GetToolbarGroupForAction(groups: set<string>, action: string): bool {
    action in groups
  }

  /** An action has a group exactly when the actions name it, or name its
      short alias. */
  lemma {:induction false} GroupKeysMembership(actions: seq<Json>, action: string)
    ensures action in GroupKeys(actions) <==>
      || Str(action) in actions
      || (action == "insertUnorderedList" && Str("ul") in actions)
      || (action == "insertOrderedList" && Str("ol") in actions)
      || (action == "createLink" && Str("link") in actions)
    decreases |actions|
  {
    if |actions| > 0 {
      GroupKeysMembership(actions[1..], action);
      assert forall x :: x in actions <==> x == actions[0] || x in actions[1..];
    }
  }

  lemma ToolbarGroupLookup(toolbar: Option<Json>, action: string)
    ensures GetToolbarGroupForAction(BuildToolbarGroups(toolbar), action) <==>
      var actions := Flatten(ToolbarConfig(toolbar));
      || Str(action) in actions
      || (action == "insertUnorderedList" && Str("ul") in actions)
      || (action == "insertOrderedList" && Str("ol") in actions)
      || (action == "createLink" && Str("link") in actions)
  {
    GroupKeysMembership(Flatten(ToolbarConfig(toolbar)), action);
  }

  /** A toolbar option that is present but not an array gives no groups. */
  lemma NonArrayToolbarNoGroups(toolbar: Json, action: string)
    requires !toolbar.Arr?
    ensures !GetToolbarGroupForAction(BuildToolbarGroups(Some(toolbar)), action)
  {
  }

  // ---------------------------------------------------------------------
  // Lifecycle

  ghost predicate Valid(ed: Editor) {
    Registry.Valid(ed.registry) && EventBus.Valid(ed.bus) && NoDup(Keys(ed.plugins))
  }

  /** `new Editor(target, options)`. */
  function Construct(targetFound: bool, options: Options): (r: Result<Editor, EditorError>)
    ensures r.Err? <==> !targetFound
    ensures r.Ok? ==> Valid(r.value) && !r.value.initialized && r.value.plugins == []
    ensures r.Ok? ==> r.value.options == options && r.value.registry.plugins == map[]
    ensures r.Ok? ==> forall e :: EventBus.ListenerCount(r.value.bus, e) == 0
  {
    if !targetFound then Err(TargetNotFound)
    else Ok(Editor(options, Registry.Empty(), [], false, {}, EventBus.Empty()))
  }

  /** The registration loop: a failing class is reported and skipped. */
  function RegisterAll(reg: Registry.Registry<Instance>, classes: seq<Registry.ClassValue>): (r: Registry.Registry<Instance>)
    requires Registry.Valid(reg)
    ensures Registry.Valid(r)
    ensures r.initialized == reg.initialized
    ensures forall n :: n in reg.plugins ==> n in r.plugins && r.plugins[n] == reg.plugins[n]
    ensures forall i :: 0 <= i < |classes| && classes[i].PluginClass? && Registry.NameOf(classes[i]) != "" ==>
      Registry.NameOf(classes[i]) in r.plugins
    decreases |classes|
  {
    if |classes| == 0 then reg
    else
      var reg' := match Registry.Register(reg, classes[0]) case Ok(x) => x case Err(_) => reg;
      var r := RegisterAll(reg', classes[1..]);
      assert forall i :: 1 <= i < |classes| ==> classes[i] == classes[1..][i - 1];
      r
  }

  /** `pluginClasses.map(C => C.pluginName || C.name)`; an entry that is
      not a class has no usable name. */
  function ClassNames(classes: seq<Registry.ClassValue>): (r: Option<seq<string>>)
    ensures r.Some? <==> forall i :: 0 <= i < |classes| ==> classes[i].PluginClass?
    ensures r.Some? ==> |r.value| == |classes|
    ensures r.Some? ==> forall i :: 0 <= i < |classes| ==> r.value[i] == Registry.NameOf(classes[i])
    decreases |classes|
  {
    if |classes| == 0 then Some([])
    else if classes[0].NotAFunction? then None
    else
      match ClassNames(classes[1..])
      case None => None
      case Some(rest) => Some([Registry.NameOf(classes[0])] + rest)
  }

  /** The map a successful registry call returns is keyed by the load
      order, which holds every requested name once. */
  lemma InitializedMap(reg: Registry.Registry<Instance>, names: seq<string>,
                       startup: string -> Registry.Startup<Instance>)
    requires Registry.Valid(reg)
    requires Registry.InitializePlugins(reg, names, startup).result.Ok?
    ensures var m := Registry.InitializePlugins(reg, names, startup).result.value;
      && Registry.ResolveLoadOrder(reg, Registry.Targets(reg, names)).Ok?
      && Keys(m) == Registry.ResolveLoadOrder(reg, Registry.Targets(reg, names)).value
      && NoDup(Keys(m))
      && (forall n :: n in names ==> n in Keys(m))
      && forall n :: n in Keys(m) ==> n in Registry.InitializePlugins(reg, names, startup).reg.initialized
  {
    Registry.InitializeSucceeds(reg, names, startup);
    var m := Registry.InitializePlugins(reg, names, startup).result.value;
    var order := Registry.ResolveLoadOrder(reg, Registry.Targets(reg, names)).value;
    assert Keys(m) == order;
  }

  /** The registry error an editor error rethrows, if any. */
  function Cause(err: Option<EditorError>): Option<Registry.RegistryError> {
    if err.Some? && err.value.PluginFailure? then Some(err.value.error) else None
  }

  /** The bus calls of the plugin starts that took the initialised names
      from `before` to `after`, then those of the `init` that threw, if
      `err` rethrows that. */
  function StartCalls(before: seq<string>, after: seq<string>, err: Option<EditorError>,
                      startup: string -> Registry.Startup<Instance>): seq<EventBus.Action>
    requires |before| <= |after|
  {
    Registry.InitCalls(after[|before|..], startup) + Registry.FailedCalls(Cause(err), startup)
  }

  /** `initializePlugins(pluginClasses)`: registers every class, then
      replaces the plugin map with what the registry returns for their
      names. A failure is rethrown and leaves the map as it was; either
      way the bus holds what the started plugins subscribed. */
  function InitializePlugins(ed: Editor, classes: seq<Registry.ClassValue>,
                             startup: string -> Registry.Startup<Instance>): (r: (Editor, Option<EditorError>))
    requires Valid(ed)
    ensures Valid(r.0)
    ensures r.0.initialized == ed.initialized && r.0.groups == ed.groups && r.0.options == ed.options
    ensures ed.registry.initialized <= r.0.registry.initialized
    ensures r.0.bus == EventBus.ApplyActions(ed.bus,
      StartCalls(ed.registry.initialized, r.0.registry.initialized, r.1, startup))
    ensures r.1.Some? ==> r.0.plugins == ed.plugins && (r.1.value.PluginFailure? || r.1.value == BadPluginEntry)
    ensures r.1 == Some(BadPluginEntry) <==> ClassNames(classes).None?
    ensures r.1.None? ==>
      var reg := RegisterAll(ed.registry, classes);
      var names := ClassNames(classes).value;
      && Registry.ResolveLoadOrder(reg, Registry.Targets(reg, names)).Ok?
      && Keys(r.0.plugins) == Registry.ResolveLoadOrder(reg, Registry.Targets(reg, names)).value
    ensures r.1.None? ==> forall i :: 0 <= i < |classes| ==>
      classes[i].PluginClass? && Registry.NameOf(classes[i]) in Keys(r.0.plugins)
  {
    var reg := RegisterAll(ed.registry, classes);
    match ClassNames(classes)
    case None =>
      NoStartCalls(reg.initialized, startup);
      (ed.(registry := reg), Some(BadPluginEntry))
    case Some(names) =>
      var r := Adopt(ed, reg, names, startup);
      assert forall i :: 0 <= i < |classes| ==> names[i] in names;
      r
  }

  /** The registry half of `initializePlugins`, once every class has been
      registered into `reg`: the returned map replaces the plugin map, a
      failure is rethrown. */
  function Adopt(ed: Editor, reg: Registry.Registry<Instance>, names: seq<string>,
                 startup: string -> Registry.Startup<Instance>): (r: (Editor, Option<EditorError>))
    requires Valid(ed) && Registry.Valid(reg) && reg.initialized == ed.registry.initialized
    ensures Valid(r.0)
    ensures r.0.initialized == ed.initialized && r.0.groups == ed.groups && r.0.options == ed.options
    ensures ed.registry.initialized <= r.0.registry.initialized
    ensures r.0.bus == EventBus.ApplyActions(ed.bus,
      StartCalls(ed.registry.initialized, r.0.registry.initialized, r.1, startup))
    ensures r.1.Some? ==> r.0.plugins == ed.plugins && r.1.value.PluginFailure?
    ensures r.1.None? ==>
      && Registry.ResolveLoadOrder(reg, Registry.Targets(reg, names)).Ok?
      && Keys(r.0.plugins) == Registry.ResolveLoadOrder(reg, Registry.Targets(reg, names)).value
    ensures r.1.None? ==> forall n :: n in names ==> n in Keys(r.0.plugins)
  {
    var out := Registry.InitializePlugins(reg, names, startup);
    var bus := EventBus.ApplyActions(ed.bus, out.calls);
    AdoptOutcome(reg, names, startup);
    match out.result
    case Err(e) => (ed.(registry := out.reg, bus := bus), Some(PluginFailure(e)))
    case Ok(m) => (ed.(registry := out.reg, plugins := m, bus := bus), None)
  }

  /** What the editor keeps of a registry outcome: the registry stays
      valid and only gains started names, the calls are the start calls,
      and a returned map holds every requested name once. */
  lemma AdoptOutcome(reg: Registry.Registry<Instance>, names: seq<string>,
                     startup: string -> Registry.Startup<Instance>)
    requires Registry.Valid(reg)
    ensures var out := Registry.InitializePlugins(reg, names, startup);
      && Registry.Valid(out.reg)
      && reg.initialized <= out.reg.initialized
      && (out.result.Err? ==>
            out.calls == StartCalls(reg.initialized, out.reg.initialized, Some(PluginFailure(out.result.error)), startup))
      && (out.result.Ok? ==> out.calls == StartCalls(reg.initialized, out.reg.initialized, None, startup))
      && (out.result.Ok? ==>
            && Registry.ResolveLoadOrder(reg, Registry.Targets(reg, names)).Ok?
            && Keys(out.result.value) == Registry.ResolveLoadOrder(reg, Registry.Targets(reg, names)).value
            && NoDup(Keys(out.result.value))
            && forall n :: n in names ==> n in Keys(out.result.value))
  {
    var out := Registry.InitializePlugins(reg, names, startup);
    OutcomeCalls(reg.initialized, out, startup);
    if out.result.Ok? {
      InitializedMap(reg, names, startup);
    }
  }

  /** The calls the registry reports are the start calls of its outcome. */
  lemma OutcomeCalls(before: seq<string>, out: Registry.InitOutcome<Instance>, startup: string -> Registry.Startup<Instance>)
    requires Registry.CallsMade(before, out.reg.initialized,
                                if out.result.Err? then Some(out.result.error) else None, out.calls, startup)
    ensures |before| <= |out.reg.initialized|
    ensures out.result.Err? ==>
      out.calls == StartCalls(before, out.reg.initialized, Some(PluginFailure(out.result.error)), startup)
    ensures out.result.Ok? ==> out.calls == StartCalls(before, out.reg.initialized, None, startup)
  {
  }

  /** Without a new start and without a thrown `init` no bus call is made. */
  lemma NoStartCalls(initialized: seq<string>, startup: string -> Registry.Startup<Instance>)
    ensures StartCalls(initialized, initialized, None, startup) == []
    ensures StartCalls(initialized, initialized, Some(BadPluginEntry), startup) == []
    ensures StartCalls(initialized, initialized, Some(NotInitialized), startup) == []
  {
    assert initialized[|initialized|..] == [];
  }

  /** Listing a class twice yields one instance under its name. */
  lemma DuplicateClassesCollapse(ed: Editor, c: Registry.ClassValue, startup: string -> Registry.Startup<Instance>)
    requires Valid(ed)
    requires InitializePlugins(ed, [c, c], startup).1.None?
    ensures var ks := Keys(InitializePlugins(ed, [c, c], startup).0.plugins);
      c.PluginClass? && Registry.NameOf(c) in ks &&
      forall i, j :: 0 <= i < |ks| && 0 <= j < |ks| && ks[i] == ks[j] == Registry.NameOf(c) ==> i == j
  {
    var r := InitializePlugins(ed, [c, c], startup).0;
    assert Valid(r);
    assert [c, c][0] == c;
  }

  /** What `triggerCallback(name)` did: the bus afterwards, whether the
      callback prevented the default of its event argument, and whether it
      threw. The throw is not caught, so the caller stops there. */
  datatype CallbackRun = CallbackRun(bus: EventBus.Bus, prevented: bool, threw: bool)

  /** `triggerCallback(name, ...args)`: a no-op unless the entry is a
      function, which is then called. */
  function TriggerCallback(b: EventBus.Bus, cb: Option<EventBus.Reaction>): (r: CallbackRun)
    ensures EventBus.Valid(b) ==> EventBus.Valid(r.bus)
    ensures cb.None? ==> r == CallbackRun(b, false, false)
  {
    match cb
    case None => CallbackRun(b, false, false)
    case Some(react) => CallbackRun(EventBus.ApplyActions(b, react.actions), react.preventsDefault, react.throws)
  }

  /** What `init()` did: the editor afterwards, the error it threw, and
      the editor as the handlers of the init event see it. */
  datatype InitOutcome = InitOutcome(editor: Editor, error: Option<EditorError>, atInitEvent: Option<Editor>)

  /** `init()`: returns at once on an initialised editor; otherwise builds
      the toolbar groups, initialises the option's plugins (whose `init`
      subscribe their handlers), marks the editor initialised, runs the
      `onInit` callback and only then emits `asteronote.init`. A plugin
      failure leaves the editor uninitialised; a throwing `onInit` leaves it
      initialised, and no init event is emitted in either case. */
  function Init(ed: Editor, startup: string -> Registry.Startup<Instance>,
                script: EventBus.FnId -> EventBus.Reaction): (r: InitOutcome)
    requires Valid(ed)
    ensures Valid(r.editor)
    ensures ed.initialized ==> r == InitOutcome(ed, None, None)
    ensures !ed.initialized ==>
      && r.editor.groups == BuildToolbarGroups(ed.options.toolbar)
      && ed.registry.initialized <= r.editor.registry.initialized
    ensures r.atInitEvent.Some? <==> !ed.initialized && r.error.None?
    ensures r.atInitEvent.Some? ==>
      && r.atInitEvent.value.initialized
      && r.editor == r.atInitEvent.value.(bus := EventBus.Emit(r.atInitEvent.value.bus, "asteronote.init", script).bus)
    ensures !ed.initialized && r.error.Some? && !r.error.value.CallbackThrew? ==>
      && !r.editor.initialized && ed.options.plugins.Some?
      && (r.error.value.PluginFailure? || r.error.value == BadPluginEntry)
      && r.editor.bus == EventBus.ApplyActions(ed.bus,
           StartCalls(ed.registry.initialized, r.editor.registry.initialized, r.error, startup))
    ensures !ed.initialized && (r.error.None? || r.error.value.CallbackThrew?) ==>
      var cb := ed.options.callbacks.onInit;
      var run := TriggerCallback(EventBus.ApplyActions(ed.bus,
                   StartCalls(ed.registry.initialized, r.editor.registry.initialized, None, startup)), cb);
      && (r.error.Some? <==> cb.Some? && cb.value.throws)
      && (r.error.Some? ==> r.error.value.name == "onInit" && r.editor.initialized && r.editor.bus == run.bus)
      && (r.error.None? ==> r.atInitEvent.value.bus == run.bus)
    ensures ed.options.plugins.None? ==>
      r.editor.plugins == ed.plugins && (r.error.Some? ==> r.error == Some(CallbackThrew("onInit")))
  {
    if ed.initialized then InitOutcome(ed, None, None)
    else
      var ed1 := ed.(groups := BuildToolbarGroups(ed.options.toolbar));
      var (ed2, err) := if ed.options.plugins.Some? then InitializePlugins(ed1, ed.options.plugins.value, startup)
                        else (NoStartCalls(ed1.registry.initialized, startup); (ed1, None));
      if err.Some? then InitOutcome(ed2, err, None)
      else
        var ed3 := ed2.(initialized := true);
        var run := TriggerCallback(ed3.bus, ed.options.callbacks.onInit);
        var ed4 := ed3.(bus := run.bus);
        if run.threw then InitOutcome(ed4, Some(CallbackThrew("onInit")), None)
        else
          var em := EventBus.Emit(ed4.bus, "asteronote.init", script);
          InitOutcome(ed4.(bus := em.bus), None, Some(ed4))
  }

  /** The starts of `initialized` past `before` are among the calls of the
      starts that took `before` to `after`. */
  lemma NewStartCalls(before: seq<string>, after: seq<string>, startup: string -> Registry.Startup<Instance>,
                      n: string, a: EventBus.Action)
    requires before <= after && n in after && n !in before && a in Registry.BusCalls(startup(n))
    ensures a in StartCalls(before, after, None, startup)
  {
    var rest := after[|before|..];
    assert after == before + rest;
    assert n in rest;
    Registry.InitCallsMember(rest, startup, n, a);
  }

  /** The calls of starts that only subscribe only subscribe. */
  lemma {:induction false} InitCallsOnlySubscribe(names: seq<string>, startup: string -> Registry.Startup<Instance>)
    requires forall n :: n in names ==> EventBus.OnlySubscribes(Registry.BusCalls(startup(n)))
    ensures EventBus.OnlySubscribes(Registry.InitCalls(names, startup))
    decreases |names|
  {
    if |names| > 0 {
      assert names[0] in names;
      assert forall n :: n in names[1..] ==> n in names;
      InitCallsOnlySubscribe(names[1..], startup);
      var a: seq<EventBus.Action> := Registry.BusCalls(startup(names[0]));
      var b: seq<EventBus.Action> := Registry.InitCalls(names[1..], startup);
      forall i | 0 <= i < |a + b| ensures !(a + b)[i].Unsubscribe? {
        if i >= |a| { assert (a + b)[i] == b[i - |a|]; }
      }
    }
  }

  /** The handlers that the initialised plugins and the `onInit` callback
      subscribe are on the bus when `asteronote.init` is emitted, behind
      the ones subscribed before `init`, when none of them unsubscribes
      anything; so the init event reaches them. */
  lemma InitEventReachesPluginHandlers(ed: Editor, startup: string -> Registry.Startup<Instance>,
                                       script: EventBus.FnId -> EventBus.Reaction)
    requires Valid(ed) && !ed.initialized
    requires Init(ed, startup, script).error.None?
    requires forall n :: EventBus.OnlySubscribes(Registry.BusCalls(startup(n)))
    requires ed.options.callbacks.onInit.Some? ==> EventBus.OnlySubscribes(ed.options.callbacks.onInit.value.actions)
    ensures var r := Init(ed, startup, script);
      var at := r.atInitEvent.value.bus;
      && EventBus.Emit(at, "asteronote.init", script).trace == EventBus.Listeners(at, "asteronote.init")
      && (forall e :: EventBus.Listeners(ed.bus, e) <= EventBus.Listeners(at, e))
      && (forall n, e, f ::
            (n in r.editor.registry.initialized && n !in ed.registry.initialized &&
             EventBus.Subscribe(e, f) in Registry.BusCalls(startup(n))) ==>
            EventBus.Direct(f) in EventBus.Listeners(at, e))
      && (forall e, f :: ed.options.callbacks.onInit.Some? && EventBus.Subscribe(e, f) in ed.options.callbacks.onInit.value.actions ==>
            EventBus.Direct(f) in EventBus.Listeners(at, e))
  {
    var r := Init(ed, startup, script);
    var before := ed.registry.initialized;
    var after := r.editor.registry.initialized;
    var calls := StartCalls(before, after, None, startup);
    assert calls == Registry.InitCalls(after[|before|..], startup) + [];
    InitCallsOnlySubscribe(after[|before|..], startup);
    var b1 := EventBus.ApplyActions(ed.bus, calls);
    EventBus.ApplySubscribes(ed.bus, calls);
    var cb := ed.options.callbacks.onInit;
    var at := r.atInitEvent.value.bus;
    if cb.Some? {
      EventBus.ApplySubscribes(b1, cb.value.actions);
      assert at == EventBus.ApplyActions(b1, cb.value.actions);
    }
    forall e ensures EventBus.Listeners(ed.bus, e) <= EventBus.Listeners(at, e) {
      assert EventBus.Listeners(ed.bus, e) <= EventBus.Listeners(b1, e);
    }
    forall n, e, f | n in after && n !in before && EventBus.Subscribe(e, f) in Registry.BusCalls(startup(n))
      ensures EventBus.Direct(f) in EventBus.Listeners(at, e)
    {
      NewStartCalls(before, after, startup, n, EventBus.Subscribe(e, f));
      PrefixMember(EventBus.Listeners(b1, e), EventBus.Listeners(at, e), EventBus.Direct(f));
    }
  }

  /** A second `init` changes nothing. */
  lemma InitIdempotent(ed: Editor, startup: string -> Registry.Startup<Instance>,
                       script: EventBus.FnId -> EventBus.Reaction)
    requires Valid(ed)
    requires Init(ed, startup, script).error.None?
    ensures var once := Init(ed, startup, script).editor;
      once.initialized && Init(once, startup, script).editor == once
  {
  }

  /** `registerPlugin(PluginClass)`: only after `init`; the new plugin and
      any dependencies it started are merged into the map, which keeps
      every plugin it held. */
  function RegisterPlugin(ed: Editor, c: Registry.ClassValue,
                          startup: string -> Registry.Startup<Instance>): (r: (Editor, Option<EditorError>))
    requires Valid(ed)
    ensures Valid(r.0)
    ensures !ed.initialized ==> r == (ed, Some(NotInitialized))
    ensures r.0.initialized == ed.initialized && ed.registry.initialized <= r.0.registry.initialized
    ensures r.0.bus == EventBus.ApplyActions(ed.bus,
      StartCalls(ed.registry.initialized, r.0.registry.initialized, r.1, startup))
    ensures forall k :: k in Keys(ed.plugins) ==> k in Keys(r.0.plugins)
    ensures r.1.Some? ==> r.0.plugins == ed.plugins
    ensures r.1.None? ==> c.PluginClass? && Lookup(r.0.plugins, Registry.NameOf(c)).Some?
    ensures r.1.None? ==> forall k :: k in Keys(r.0.plugins) && k !in Keys(ed.plugins) ==>
      k in r.0.registry.initialized
  {
    if !ed.initialized then
      NoStartCalls(ed.registry.initialized, startup);
      (ed, Some(NotInitialized))
    else
      match Registry.Register(ed.registry, c)
      case Err(e) =>
        NoStartCalls(ed.registry.initialized, startup);
        assert Registry.FailedCalls(Cause(Some(PluginFailure(e))), startup) == [];
        (ed, Some(PluginFailure(e)))
      case Ok(reg) =>
        var name := Registry.NameOf(c);
        var out := Registry.InitializePlugins(reg, [name], startup);
        var bus := EventBus.ApplyActions(ed.bus, out.calls);
        OutcomeCalls(reg.initialized, out, startup);
        match out.result
        case Err(e) => (ed.(registry := out.reg, bus := bus), Some(PluginFailure(e)))
        case Ok(m) =>
          InitializedMap(reg, [name], startup);
          assert name in Keys(m);
          var idx := IndexOf(Keys(m), name);
          var merged := PutAll(ed.plugins, m);
          PutAllLater(ed.plugins, m);
          assert Lookup(merged, m[idx].0) == Some(m[idx].1);
          (ed.(registry := out.reg, plugins := merged, bus := bus), None)
  }

  /** `getPlugin(name)`. */
  function GetPlugin(ed: Editor, name: string): Option<Instance> {
    Lookup(ed.plugins, name)
  }

  /** After a successful `init` whose options list plugin classes, every
      listed class can be fetched by name. */
  lemma InitMakesPluginsAvailable(ed: Editor, startup: string -> Registry.Startup<Instance>,
                                  script: EventBus.FnId -> EventBus.Reaction)
    requires Valid(ed) && !ed.initialized && ed.options.plugins.Some?
    requires Init(ed, startup, script).error.None?
    ensures var classes := ed.options.plugins.value;
      forall i :: 0 <= i < |classes| ==>
        GetPlugin(Init(ed, startup, script).editor, Registry.NameOf(classes[i])).Some?
  {
  }

  // ---------------------------------------------------------------------
  // Keydown and shortcuts

  /** Where a keydown's shortcut handling ended. */
  datatype Dispatch =
    | Aborted                           // the `onKeydown` callback threw
    | NotRun                            // `options.shortcuts` is off
    | Skipped                           // the event's default was prevented
    | ByPlugin(name: string, callback: Plugin.CallbackId)
    | TabInserted
    | Unhandled

  /** The first entry whose plugin handles the event. */
  function FirstHandler(ps: Entries, isMac: bool, ev: Plugin.KeyEvent): (r: Option<nat>)
    ensures r.Some? ==> r.value < |ps| && Plugin.HandleShortcut(ps[r.value].1, isMac, ev).Handled?
    ensures r.Some? ==> forall j :: 0 <= j < r.value ==> Plugin.HandleShortcut(ps[j].1, isMac, ev).NotHandled?
    ensures r.None? ==> forall j :: 0 <= j < |ps| ==> Plugin.HandleShortcut(ps[j].1, isMac, ev).NotHandled?
    decreases |ps|
  {
    if |ps| == 0 then None
    else if Plugin.HandleShortcut(ps[0].1, isMac, ev).Handled? then Some(0)
    else
      match FirstHandler(ps[1..], isMac, ev)
      case None => None
      case Some(i) => Some(i + 1)
  }

  /** `handleShortcuts(event)`. */
  function HandleShortcuts(ps: Entries, isMac: bool, ev: Plugin.KeyEvent, defaultPrevented: bool): (r: Dispatch)
    ensures defaultPrevented <==> r == Skipped
    ensures r.ByPlugin? ==> exists i :: (
      && 0 <= i < |ps| && ps[i].0 == r.name
      && Plugin.HandleShortcut(ps[i].1, isMac, ev) == Plugin.Handled(r.callback)
      && forall j :: 0 <= j < i ==> Plugin.HandleShortcut(ps[j].1, isMac, ev).NotHandled?)
    ensures !defaultPrevented && (exists i :: 0 <= i < |ps| && Plugin.HandleShortcut(ps[i].1, isMac, ev).Handled?)
      ==> r.ByPlugin?
    ensures r == TabInserted <==>
      !defaultPrevented && ev.key == "Tab" && !ev.shiftKey &&
      forall j :: 0 <= j < |ps| ==> Plugin.HandleShortcut(ps[j].1, isMac, ev).NotHandled?
    ensures r != NotRun
  {
    if defaultPrevented then Skipped
    else
      match FirstHandler(ps, isMac, ev)
      case Some(i) => ByPlugin(ps[i].0, Plugin.HandleShortcut(ps[i].1, isMac, ev).callback)
      case None => if ev.key == "Tab" && !ev.shiftKey then TabInserted else Unhandled
  }

  /** Whether some handler of the snapshot of `e` on `b` prevents the
      default of the event it is given. */
  ghost predicate SomeHandlerPrevents(b: EventBus.Bus, e: string, script: EventBus.FnId -> EventBus.Reaction) {
    exists h :: h in EventBus.Listeners(b, e) && script(h.fn).preventsDefault
  }

  /** `handleKeydown(event)` on an event whose default was already
      prevented or not: the `onKeydown` callback runs first, then
      `asteronote.keydown` is emitted, and shortcut dispatch sees the
      default-prevention of the event, of the callback and of the handlers.
      A throwing callback ends the call before the emit. */
  function HandleKeydown(ed: Editor, isMac: bool, ev: Plugin.KeyEvent, prevented: bool,
                         script: EventBus.FnId -> EventBus.Reaction): (r: (Editor, Dispatch))
    requires Valid(ed)
    ensures Valid(r.0)
    ensures r.0 == ed.(bus := r.0.bus)
    ensures var cb := ed.options.callbacks.onKeydown;
      r.1 == Aborted <==> cb.Some? && cb.value.throws
    ensures var run := TriggerCallback(ed.bus, ed.options.callbacks.onKeydown);
      && (r.1 == Aborted ==> r.0.bus == run.bus)
      && (r.1 != Aborted ==> r.0.bus == EventBus.Emit(run.bus, "asteronote.keydown", script).bus)
    ensures r.1 != Aborted ==> (!ed.options.shortcuts <==> r.1 == NotRun)
    ensures r.1 != Aborted && ed.options.shortcuts ==>
      var run := TriggerCallback(ed.bus, ed.options.callbacks.onKeydown);
      (r.1 == Skipped <==> prevented || run.prevented || SomeHandlerPrevents(run.bus, "asteronote.keydown", script))
  {
    var run := TriggerCallback(ed.bus, ed.options.callbacks.onKeydown);
    if run.threw then (ed.(bus := run.bus), Aborted)
    else
      var em := EventBus.Emit(run.bus, "asteronote.keydown", script);
      var d := if ed.options.shortcuts then HandleShortcuts(ed.plugins, isMac, ev, prevented || run.prevented || em.defaultPrevented)
               else NotRun;
      assert em.defaultPrevented <==> SomeHandlerPrevents(run.bus, "asteronote.keydown", script) by {
        if em.defaultPrevented {
          var i :| 0 <= i < |em.trace| && script(em.trace[i].fn).preventsDefault;
          assert em.trace[i] in EventBus.Listeners(run.bus, "asteronote.keydown");
        }
        if SomeHandlerPrevents(run.bus, "asteronote.keydown", script) {
          var h :| h in EventBus.Listeners(run.bus, "asteronote.keydown") && script(h.fn).preventsDefault;
          var i :| 0 <= i < |em.trace| && em.trace[i] == h;
        }
      }
      (ed.(bus := em.bus), d)
  }

  /** Without a callback, on an event not yet prevented, a plugin shortcut
      is dispatched exactly when no keydown handler prevents the default
      and some plugin handles the combination, and then to the first such
      plugin in map order. */
  lemma KeydownReachesPlugin(ed: Editor, isMac: bool, ev: Plugin.KeyEvent, script: EventBus.FnId -> EventBus.Reaction)
    requires Valid(ed) && ed.options.shortcuts && ed.options.callbacks.onKeydown.None?
    ensures var d := HandleKeydown(ed, isMac, ev, false, script).1;
      d.ByPlugin? <==>
        !SomeHandlerPrevents(ed.bus, "asteronote.keydown", script) &&
        exists i :: 0 <= i < |ed.plugins| && Plugin.HandleShortcut(ed.plugins[i].1, isMac, ev).Handled?
    ensures var d := HandleKeydown(ed, isMac, ev, false, script).1;
      d.ByPlugin? ==> var i := FirstHandler(ed.plugins, isMac, ev).value;
        d == ByPlugin(ed.plugins[i].0, Plugin.HandleShortcut(ed.plugins[i].1, isMac, ev).callback)
  {
  }

  /** What `destroy()` did: the editor afterwards, the error it threw, and
      whether the destroy event reached any handler. */
  datatype DestroyOutcome = DestroyOutcome(editor: Editor, error: Option<EditorError>, destroyDelivered: bool)

  /** `destroy()`: a no-op unless initialised; otherwise plugins are torn
      down through the registry, the map and every bus subscription are
      dropped, the editor is marked uninitialised, the `onDestroy` callback
      runs, and then the destroy event is emitted, which reaches only what
      that callback subscribed. */
  function Destroy(ed: Editor, teardown: string -> Registry.Teardown,
                   script: EventBus.FnId -> EventBus.Reaction): (r: DestroyOutcome)
    requires Valid(ed)
    ensures Valid(r.editor)
    ensures !ed.initialized ==> r == DestroyOutcome(ed, None, false)
    ensures ed.initialized ==>
      && !r.editor.initialized
      && r.editor.plugins == []
      && r.editor.registry.initialized == []
    ensures var cb := ed.options.callbacks.onDestroy;
      r.error.Some? <==> ed.initialized && cb.Some? && cb.value.throws
    ensures r.error.Some? ==> r.error.value == CallbackThrew("onDestroy")
    ensures var run := TriggerCallback(EventBus.RemoveAllListeners(ed.bus), ed.options.callbacks.onDestroy);
      r.destroyDelivered <==>
        ed.initialized && r.error.None? && EventBus.ListenerCount(run.bus, "asteronote.destroy") > 0
    ensures forall n :: ed.initialized ==> GetPlugin(r.editor, n).None?
  {
    if !ed.initialized then DestroyOutcome(ed, None, false)
    else
      var reg := Registry.DestroyAll(ed.registry, teardown).0;
      var bus := EventBus.RemoveAllListeners(ed.bus);
      var run := TriggerCallback(bus, ed.options.callbacks.onDestroy);
      var ed1 := ed.(registry := reg, plugins := [], bus := run.bus, initialized := false);
      if run.threw then DestroyOutcome(ed1, Some(CallbackThrew("onDestroy")), false)
      else
        var em := EventBus.Emit(ed1.bus, "asteronote.destroy", script);
        DestroyOutcome(ed1.(bus := em.bus), None, em.delivered)
  }

  /** Unless the `onDestroy` callback subscribes to it, the destroy event
      is emitted to nobody: every subscription was dropped before it. */
  lemma DestroyEventUnheard(ed: Editor, teardown: string -> Registry.Teardown,
                            script: EventBus.FnId -> EventBus.Reaction)
    requires Valid(ed)
    requires ed.options.callbacks.onDestroy.Some? ==>
      !EventBus.SubscribesTo(ed.options.callbacks.onDestroy.value.actions, "asteronote.destroy")
    ensures !Destroy(ed, teardown, script).destroyDelivered
  {
    var cb := ed.options.callbacks.onDestroy;
    if ed.initialized && cb.Some? {
      var bus := EventBus.RemoveAllListeners(ed.bus);
      EventBus.QuietStaysQuiet(bus, cb.value.actions, "asteronote.destroy");
    }
  }
}

=== FILE: event_bus.dfy ===
/** The editor's publish/subscribe bus (`EventEmitter`): a map from event
    name to an ordered list of handlers. Handlers are opaque function
    identities; what a handler does when it is called is supplied as a
    script, so that delivery can be stated as a pure function returning
    the new bus and the trace of handlers called. */
module EventBus {
  import opened Wrappers
  import opened Seqs

  /** Identity of a JavaScript function value supplied by a caller. */
  type FnId = nat

  /** A subscribed handler: a function passed to `on`, or the wrapper
      closure that `once` creates (a fresh function, distinct from every
      other, identified here by a token). */
  datatype Handler = Direct(fn: FnId) | OnceWrapper(token: nat, fn: FnId)

  /** The handler argument of `on` and `once`, which the source checks with
      `typeof handler === 'function'`. */
  datatype Arg = Callable(fn: FnId) | NotCallable

  datatype BusError = HandlerNotFunction

  /** `nextToken` is the identity the next `once` wrapper receives. */
  datatype Bus = Bus(events: map<string, seq<Handler>>, nextToken: nat)

  /** What a handler does to the bus while it runs. */
  datatype Action =
    | Subscribe(event: string, fn: FnId)
    | SubscribeOnce(event: string, fn: FnId)
    | Unsubscribe(event: string, handler: Option<Handler>)

  /** The behaviour of one function when called: the bus calls it makes, in
      order; whether it calls `preventDefault` on its event argument; and
      whether it then throws. */
  datatype Reaction = Reaction(actions: seq<Action>, preventsDefault: bool, throws: bool)

  /** The outcome of `emit`: its boolean result, the bus afterwards, the
      handlers called in order, and whether any of them prevented the
      default action of the event argument. */
  datatype Emission = Emission(delivered: bool, bus: Bus, trace: seq<Handler>, defaultPrevented: bool)

  /** The bus never holds an empty handler list, and every `once` wrapper
      token is below `nextToken`. */
  ghost predicate Valid(b: Bus) {
    && (forall e :: e in b.events ==> |b.events[e]| > 0)
    && (forall e, h :: e in b.events && h in b.events[e] && h.OnceWrapper? ==> h.token < b.nextToken)
  }

  function Empty(): (b: Bus)
    ensures Valid(b)
  {
    Bus(map[], 0)
  }

  function Listeners(b: Bus, e: string): seq<Handler> {
    if e in b.events then b.events[e] else []
  }

  /** `listenerCount`. */
  function ListenerCount(b: Bus, e: string): (n: nat)
    ensures Valid(b) ==> (n > 0 <==> e in b.events)
  {
    |Listeners(b, e)|
  }

  /** Appends `h` to the list of `e`, creating the list if needed. */
  function AddHandler(b: Bus, e: string, h: Handler): (r: Bus)
    ensures Listeners(r, e) == Listeners(b, e) + [h]
    ensures forall e' :: e' != e ==> Listeners(r, e') == Listeners(b, e')
    ensures r.nextToken == b.nextToken
  {
    b.(events := b.events[e := Listeners(b, e) + [h]])
  }

  /** `on`: appends the handler without de-duplication; a non-function
      is a `TypeError`. */
  function On(b: Bus, e: string, arg: Arg): (r: Result<Bus, BusError>)
    ensures r.Err? <==> arg.NotCallable?
    ensures r.Ok? ==> Listeners(r.value, e) == Listeners(b, e) + [Direct(arg.fn)]
    ensures r.Ok? ==> ListenerCount(r.value, e) == ListenerCount(b, e) + 1
    ensures r.Ok? ==> forall e' :: e' != e ==> Listeners(r.value, e') == Listeners(b, e')
    ensures r.Ok? && Valid(b) ==> Valid(r.value)
  {
    match arg
    case NotCallable => Err(HandlerNotFunction)
    case Callable(f) => Ok(AddHandler(b, e, Direct(f)))
  }

  /** `once`: subscribes a fresh wrapper of the function; the wrapper
      unsubscribes itself after the function returns normally (see
      `Deliver`). */
  function Once(b: Bus, e: string, arg: Arg): (r: Result<Bus, BusError>)
    ensures r.Err? <==> arg.NotCallable?
    ensures r.Ok? ==> Listeners(r.value, e) == Listeners(b, e) + [OnceWrapper(b.nextToken, arg.fn)]
    ensures r.Ok? ==> forall e' :: e' != e ==> Listeners(r.value, e') == Listeners(b, e')
    ensures r.Ok? && Valid(b) ==> Valid(r.value)
    ensures r.Ok? && Valid(b) ==>
      forall e' :: OnceWrapper(b.nextToken, arg.fn) !in Listeners(b, e')
  {
    match arg
    case NotCallable => Err(HandlerNotFunction)
    case Callable(f) =>
      var b' := AddHandler(b, e, OnceWrapper(b.nextToken, f));
      Ok(b'.(nextToken := b.nextToken + 1))
  }

  /** `off`: without a handler, drops the whole event; with one, removes
      its first occurrence and drops the event once its list is empty. An
      event without subscribers is left alone. */
  function Off(b: Bus, e: string, h: Option<Handler>): (r: Bus)
    ensures e !in b.events ==> r == b
    ensures h.None? ==> Listeners(r, e) == []
    ensures h.Some? ==> Listeners(r, e) == RemoveFirst(Listeners(b, e), h.value)
    ensures forall e' :: e' != e ==> Listeners(r, e') == Listeners(b, e')
    ensures r.nextToken == b.nextToken
    ensures Valid(b) ==> Valid(r)
  {
    if e !in b.events then b
    else match h
      case None => b.(events := b.events - {e})
      case Some(x) =>
        var rest := RemoveFirst(b.events[e], x);
        if |rest| == 0 then b.(events := b.events - {e})
        else b.(events := b.events[e := rest])
  }

  /** `removeAllListeners`. */
  function RemoveAllListeners(b: Bus): (r: Bus)
    ensures Valid(r)
    ensures forall e :: ListenerCount(r, e) == 0
  {
    Bus(map[], b.nextToken)
  }

  function ApplyAction(b: Bus, a: Action): (r: Bus)
    ensures Valid(b) ==> Valid(r)
  {
    match a
    case Subscribe(e, f) => On(b, e, Callable(f)).value
    case SubscribeOnce(e, f) => Once(b, e, Callable(f)).value
    case Unsubscribe(e, h) => Off(b, e, h)
  }

  function ApplyActions(b: Bus, acts: seq<Action>): (r: Bus)
    ensures Valid(b) ==> Valid(r)
    decreases |acts|
  {
    if |acts| == 0 then b else ApplyActions(ApplyAction(b, acts[0]), acts[1..])
  }

  /** Calls that subscribe and never unsubscribe. */
  predicate OnlySubscribes(acts: seq<Action>) {
    forall i :: 0 <= i < |acts| ==> !acts[i].Unsubscribe?
  }

  /** Calls that only subscribe keep every handler already there, in front
      and in order, and leave each function subscribed with `on` among the
      handlers of its event. */
  lemma {:induction false} ApplySubscribes(b: Bus, acts: seq<Action>)
    requires OnlySubscribes(acts)
    ensures forall e :: Listeners(b, e) <= Listeners(ApplyActions(b, acts), e)
    ensures forall e, f :: Subscribe(e, f) in acts ==> Direct(f) in Listeners(ApplyActions(b, acts), e)
    decreases |acts|
  {
    if |acts| > 0 {
      var b1 := ApplyAction(b, acts[0]);
      assert OnlySubscribes(acts[1..]) by {
        forall i | 0 <= i < |acts[1..]| ensures !acts[1..][i].Unsubscribe? {
          assert acts[1..][i] == acts[i + 1];
        }
      }
      ApplySubscribes(b1, acts[1..]);
      var r := ApplyActions(b, acts);
      assert r == ApplyActions(b1, acts[1..]);
      assert forall e :: Listeners(b, e) <= Listeners(b1, e) by {
        assert !acts[0].Unsubscribe?;
      }
      forall e, f | Subscribe(e, f) in acts ensures Direct(f) in Listeners(r, e) {
        if acts[0] == Subscribe(e, f) {
          assert Direct(f) in Listeners(b1, e);
          PrefixMember(Listeners(b1, e), Listeners(r, e), Direct(f));
        } else {
          assert Subscribe(e, f) in acts[1..];
        }
      }
    }
  }

  /** Some call subscribes a handler to `e`. */
  predicate SubscribesTo(acts: seq<Action>, e: string) {
    exists i :: 0 <= i < |acts| && !acts[i].Unsubscribe? && acts[i].event == e
  }

  /** An event without handlers keeps none through calls that never
      subscribe to it. */
  lemma {:induction false} QuietStaysQuiet(b: Bus, acts: seq<Action>, e: string)
    requires Listeners(b, e) == [] && !SubscribesTo(acts, e)
    ensures Listeners(ApplyActions(b, acts), e) == []
    decreases |acts|
  {
    if |acts| > 0 {
      var b1 := ApplyAction(b, acts[0]);
      assert !(!acts[0].Unsubscribe? && acts[0].event == e);
      assert Listeners(b1, e) == [];
      assert forall i :: 0 <= i < |acts[1..]| ==> acts[1..][i] == acts[i + 1];
      QuietStaysQuiet(b1, acts[1..], e);
    }
  }

  /** One call of a handler inside `emit`'s `try`: the function runs; a
      `once` wrapper then removes itself, unless the function threw, in
      which case the wrapper's own `off` is never reached. The exception
      itself is caught and logged. */
  function Deliver(b: Bus, e: string, h: Handler, script: FnId -> Reaction): (r: Bus)
    ensures Valid(b) ==> Valid(r)
  {
    var react := script(h.fn);
    var b' := ApplyActions(b, react.actions);
    if h.OnceWrapper? && !react.throws then Off(b', e, Some(h)) else b'
  }

  /** Delivery to each handler of a snapshot, in order, whatever the
      earlier handlers did. */
  function DeliverAll(b: Bus, e: string, hs: seq<Handler>, script: FnId -> Reaction)
    : (r: (Bus, seq<Handler>, bool))
    ensures r.1 == hs
    ensures r.2 <==> exists i :: 0 <= i < |hs| && script(hs[i].fn).preventsDefault
    ensures Valid(b) ==> Valid(r.0)
    decreases |hs|
  {
    if |hs| == 0 then (b, [], false)
    else
      var b' := Deliver(b, e, hs[0], script);
      var rest := DeliverAll(b', e, hs[1..], script);
      assert forall i :: 1 <= i < |hs| ==> hs[i] == hs[1..][i - 1];
      (rest.0, [hs[0]] + rest.1, script(hs[0].fn).preventsDefault || rest.2)
  }

  /** `emit`: false for an event without a handler list; otherwise every
      handler of the list as it stood when `emit` was called is called
      once, in subscription order — a handler subscribed during delivery
      is not called in this pass, one unsubscribed during delivery still
      is, and a handler that throws does not stop the ones after it. */
  function Emit(b: Bus, e: string, script: FnId -> Reaction): (r: Emission)
    ensures r.delivered <==> e in b.events
    ensures Valid(b) ==> (r.delivered <==> ListenerCount(b, e) > 0)
    ensures r.trace == Listeners(b, e)
    ensures r.defaultPrevented <==>
      exists i :: 0 <= i < |r.trace| && script(r.trace[i].fn).preventsDefault
    ensures !r.delivered ==> r.bus == b
    ensures Valid(b) ==> Valid(r.bus)
  {
    if e !in b.events then Emission(false, b, [], false)
    else
      var d := DeliverAll(b, e, b.events[e], script);
      Emission(true, d.0, d.1, d.2)
  }

  /** A handler is inert under a script when it is a plain subscription
      whose function touches no subscription. */
  predicate Inert(h: Handler, script: FnId -> Reaction) {
    h.Direct? && script(h.fn).actions == []
  }

  lemma {:induction false} DeliverAllInert(b: Bus, e: string, hs: seq<Handler>, script: FnId -> Reaction)
    requires forall i :: 0 <= i < |hs| ==> Inert(hs[i], script)
    ensures DeliverAll(b, e, hs, script).0 == b
  {
    if |hs| > 0 {
      assert Inert(hs[0], script);
      assert Deliver(b, e, hs[0], script) == b;
      DeliverAllInert(b, e, hs[1..], script);
    }
  }

  /** Emitting to handlers that only run (plain subscriptions that neither
      subscribe nor unsubscribe anything) leaves the bus as it was,
      whether or not they throw. */
  lemma EmitInertKeepsBus(b: Bus, e: string, script: FnId -> Reaction)
    requires forall i :: 0 <= i < |Listeners(b, e)| ==> Inert(Listeners(b, e)[i], script)
    ensures Emit(b, e, script).bus == b
  {
    if e in b.events {
      assert Listeners(b, e) == b.events[e];
      DeliverAllInert(b, e, b.events[e], script);
    }
  }

  /** Subscribing a function with `on` and unsubscribing it with `off`
      gives the bus back, provided it was not already subscribed to that
      event. */
  lemma OnThenOff(b: Bus, e: string, f: FnId)
    requires Valid(b)
    requires Direct(f) !in Listeners(b, e)
    ensures Off(On(b, e, Callable(f)).value, e, Some(Direct(f))) == b
  {
    assert On(b, e, Callable(f)).value == AddHandler(b, e, Direct(f));
    OffUndoesAdd(b, e, Direct(f));
  }

  /** Removing a handler just appended, which was not there before,
      gives the bus back. */
  lemma OffUndoesAdd(b: Bus, e: string, h: Handler)
    requires Valid(b)
    requires h !in Listeners(b, e)
    ensures Off(AddHandler(b, e, h), e, Some(h)) == b
  {
    var L := Listeners(b, e);
    var b1 := AddHandler(b, e, h);
    assert b1.events[e] == L + [h];
    RemoveFirstOfAppended(L, h);
    if e in b.events {
      assert |L| > 0;
      assert Off(b1, e, Some(h)) == b1.(events := b1.events[e := L]);
      assert b1.events[e := L] == b.events;
    } else {
      assert L == [];
      assert Off(b1, e, Some(h)) == b1.(events := b1.events - {e});
      assert b1.events - {e} == b.events;
    }
  }

  /** A `once` subscription on a quiet event: when its function returns
      normally it is called on the first emit and gone afterwards, so the
      next emit reports no listener; when its function throws it stays
      subscribed. */
  lemma OnceDeliveredOnce(b: Bus, e: string, f: FnId, script: FnId -> Reaction)
    requires Valid(b)
    requires e !in b.events
    requires script(f).actions == []
    ensures var b1 := Once(b, e, Callable(f)).value;
            var first := Emit(b1, e, script);
            && first.trace == [OnceWrapper(b.nextToken, f)]
            && (!script(f).throws ==> !Emit(first.bus, e, script).delivered)
            && (script(f).throws ==> ListenerCount(first.bus, e) == 1)
  {
    var h := OnceWrapper(b.nextToken, f);
    var b1 := Once(b, e, Callable(f)).value;
    assert Listeners(b1, e) == [h];
    var first := Emit(b1, e, script);
    var d := DeliverAll(b1, e, [h], script);
    assert d.0 == DeliverAll(Deliver(b1, e, h, script), e, [], script).0;
    assert ApplyActions(b1, []) == b1;
    if !script(f).throws {
      assert Listeners(first.bus, e) == RemoveFirst([h], h);
      assert e !in first.bus.events;
    }
  }
}

=== FILE: formatting.dfy ===
/** The clear-formatting command. It strips the `class`, `style` and
    `data-*` attributes from elements of the editable area, leaving tags,
    other attributes and text alone. Which elements it cleans depends on
    the selection: all of them for a caret or a selection spanning the
    whole area, and otherwise those met by a walk from the selection's
    start towards its end. The editable area is a tree of element and text
    nodes; a node inside it is named by its path of child indices from the
    editable root. */
module Formatting {
  import opened Wrappers
  import opened Text
  import opened Seqs

  datatype Attr = Attr(name: string, value: string)

  datatype Node = TextNode(s: string) | Element(tag: string, attrs: seq<Attr>, kids: seq<Node>)

  // ---------------------------------------------------------------- attributes

  /** The attributes the command strips. */
  predicate IsFormatting(name: string) {
    name == "class" || name == "style" || StartsWith(name, "data-")
  }

  predicate NoFormatting(attrs: seq<Attr>) {
    forall a :: a in attrs ==> !IsFormatting(a.name)
  }

  /** The reference definition: keep exactly the attributes that are not
      formatting, in their order. */
  function StripFormatting(attrs: seq<Attr>): (r: seq<Attr>)
    ensures forall a :: a in r <==> a in attrs && !IsFormatting(a.name)
    ensures |r| <= |attrs|
  {
    if |attrs| == 0 then []
    else (if IsFormatting(attrs[0].name) then [] else [attrs[0]]) + StripFormatting(attrs[1..])
  }

  /** An element without formatting attributes is left as it is. */
  lemma {:induction false} StripFormattingFixes(attrs: seq<Attr>)
    requires NoFormatting(attrs)
    ensures StripFormatting(attrs) == attrs
  {
    if |attrs| > 0 {
      assert attrs[0] in attrs;
      StripFormattingFixes(attrs[1..]);
      assert attrs == [attrs[0]] + attrs[1..];
    }
  }

  /** Stripping twice is stripping once. */
  lemma StripFormattingIdempotent(attrs: seq<Attr>)
    ensures StripFormatting(StripFormatting(attrs)) == StripFormatting(attrs)
  {
    StripFormattingFixes(StripFormatting(attrs));
  }

  /** The attributes whose name is not among `names`, in order: what a
      series of `removeAttribute` calls leaves. */
  function Drop(attrs: seq<Attr>, names: seq<string>): (r: seq<Attr>)
    ensures forall a :: a in r <==> a in attrs && a.name !in names
  {
    if |attrs| == 0 then []
    else (if attrs[0].name in names then [] else [attrs[0]]) + Drop(attrs[1..], names)
  }

  /** `element.removeAttribute(name)`. */
  function RemoveAttribute(attrs: seq<Attr>, name: string): (r: seq<Attr>)
    ensures forall a :: a in r <==> a in attrs && a.name != name
  {
    if |attrs| == 0 then []
    else (if attrs[0].name == name then [] else [attrs[0]]) + RemoveAttribute(attrs[1..], name)
  }

  lemma {:induction false} DropNothing(attrs: seq<Attr>)
    ensures Drop(attrs, []) == attrs
  {
    if |attrs| > 0 {
      DropNothing(attrs[1..]);
      assert attrs == [attrs[0]] + attrs[1..];
    }
  }

  lemma {:induction false} RemoveAttributeAppend(a: seq<Attr>, b: seq<Attr>, name: string)
    ensures RemoveAttribute(a + b, name) == RemoveAttribute(a, name) + RemoveAttribute(b, name)
    decreases |a|
  {
    if |a| == 0 {
      assert a + b == b;
    } else {
      assert (a + b)[0] == a[0];
      assert (a + b)[1..] == a[1..] + b;
      RemoveAttributeAppend(a[1..], b, name);
    }
  }

  lemma {:induction false} DropAppend(a: seq<Attr>, b: seq<Attr>, names: seq<string>)
    ensures Drop(a + b, names) == Drop(a, names) + Drop(b, names)
    decreases |a|
  {
    if |a| == 0 {
      assert a + b == b;
    } else {
      assert (a + b)[0] == a[0];
      assert (a + b)[1..] == a[1..] + b;
      DropAppend(a[1..], b, names);
    }
  }

  /** Removing one more name after a series of removals. */
  lemma {:induction false} RemoveAfterDrop(attrs: seq<Attr>, names: seq<string>, name: string)
    ensures RemoveAttribute(Drop(attrs, names), name) == Drop(attrs, names + [name])
  {
    if |attrs| > 0 {
      RemoveAfterDrop(attrs[1..], names, name);
      var head: seq<Attr> := if attrs[0].name in names then [] else [attrs[0]];
      assert Drop(attrs, names) == head + Drop(attrs[1..], names);
      RemoveAttributeAppend(head, Drop(attrs[1..], names), name);
      assert RemoveAttribute(head, name) == if attrs[0].name in names + [name] then [] else [attrs[0]];
    }
  }

  /** Two series of removals are one. */
  lemma {:induction false} DropDrop(attrs: seq<Attr>, s: seq<string>, t: seq<string>)
    ensures Drop(Drop(attrs, s), t) == Drop(attrs, s + t)
  {
    if |attrs| > 0 {
      DropDrop(attrs[1..], s, t);
      var head: seq<Attr> := if attrs[0].name in s then [] else [attrs[0]];
      assert Drop(attrs, s) == head + Drop(attrs[1..], s);
      DropAppend(head, Drop(attrs[1..], s), t);
      assert Drop(head, t) == if attrs[0].name in s + t then [] else [attrs[0]];
    }
  }

  /** Dropping names that agree with `IsFormatting` on every attribute
      present is stripping the formatting. */
  lemma {:induction false} DropIsStrip(attrs: seq<Attr>, names: seq<string>)
    requires forall a :: a in attrs ==> (a.name in names <==> IsFormatting(a.name))
    ensures Drop(attrs, names) == StripFormatting(attrs)
  {
    if |attrs| > 0 {
      assert attrs[0] in attrs;
      DropIsStrip(attrs[1..], names);
    }
  }

  /** Once every `data-*` name left after removing `class` and `style`
      has been removed too, exactly the formatting is gone. */
  lemma RemovedAgree(attrs: seq<Attr>, removed: seq<string>)
    requires forall n :: n in removed ==> StartsWith(n, "data-")
    requires forall a :: a in Drop(attrs, ["class", "style"]) && StartsWith(a.name, "data-") ==> a.name in removed
    ensures Drop(attrs, ["class", "style"] + removed) == StripFormatting(attrs)
  {
    forall a | a in attrs
      ensures a.name in ["class", "style"] + removed <==> IsFormatting(a.name)
    {
      if StartsWith(a.name, "data-") && a.name !in ["class", "style"] {
        assert a in Drop(attrs, ["class", "style"]);
      }
    }
    DropIsStrip(attrs, ["class", "style"] + removed);
  }

  /** The collecting loop: the names starting with `data-`. */
  method DataAttributeNames(attrs: seq<Attr>) returns (names: seq<string>)
    ensures forall n :: n in names ==> StartsWith(n, "data-")
    ensures forall a :: a in attrs && StartsWith(a.name, "data-") ==> a.name in names
  {
    names := [];
    var i := 0;
    while i < |attrs|
      invariant 0 <= i <= |attrs|
      invariant forall n :: n in names ==> StartsWith(n, "data-")
      invariant forall k :: 0 <= k < i && StartsWith(attrs[k].name, "data-") ==> attrs[k].name in names
    {
      if StartsWith(attrs[i].name, "data-") {
        names := names + [attrs[i].name];
      }
      i := i + 1;
    }
  }

  lemma DropAll(attrs: seq<Attr>, names: seq<string>)
    ensures Drop(attrs, names[..|names|]) == Drop(attrs, names)
  {
    assert names[..|names|] == names;
  }

  /** One more removal drops one more name. */
  lemma DropStep(attrs: seq<Attr>, names: seq<string>, j: nat)
    requires j < |names|
    ensures RemoveAttribute(Drop(attrs, names[..j]), names[j]) == Drop(attrs, names[..j + 1])
  {
    RemoveAfterDrop(attrs, names[..j], names[j]);
    assert names[..j + 1] == names[..j] + [names[j]];
  }

  /** The removing loop: `removeAttribute` for each name in turn. */
  method RemoveEach(attrs: seq<Attr>, names: seq<string>) returns (r: seq<Attr>)
    ensures r == Drop(attrs, names)
  {
    DropNothing(attrs);
    r := attrs;
    var j := 0;
    while j < |names|
      invariant 0 <= j <= |names|
      invariant r == Drop(attrs, names[..j])
    {
      DropStep(attrs, names, j);
      r := RemoveAttribute(r, names[j]);
      j := j + 1;
    }
    DropAll(attrs, names);
  }

  /** `removeFormattingAttributes` on an element, step by step as the
      plugin does it: remove `class`, remove `style`, collect the names
      starting with `data-`, then remove each collected name. The result
      is the reference stripping. */
  method RemoveFormattingAttributes(attrs: seq<Attr>) returns (r: seq<Attr>)
    ensures r == StripFormatting(attrs)
  {
    DropNothing(attrs);
    RemoveAfterDrop(attrs, [], "class");
    r := RemoveAttribute(attrs, "class");
    RemoveAfterDrop(attrs, ["class"], "style");
    assert [] + ["class"] == ["class"];
    assert ["class"] + ["style"] == ["class", "style"];
    r := RemoveAttribute(r, "style");
    var names := DataAttributeNames(r);
    DropDrop(attrs, ["class", "style"], names);
    r := RemoveEach(r, names);
    RemovedAgree(attrs, names);
  }

  // ---------------------------------------------------------------- trees

  function TreeText(n: Node): string {
    match n
    case TextNode(s) => s
    case Element(_, _, kids) => KidsText(kids)
  }

  function KidsText(ks: seq<Node>): string {
    if |ks| == 0 then "" else TreeText(ks[0]) + KidsText(ks[1..])
  }

  /** No element of the tree carries a formatting attribute. */
  predicate FormatFree(n: Node) {
    match n
    case TextNode(_) => true
    case Element(_, attrs, kids) => NoFormatting(attrs) && forall k :: 0 <= k < |kids| ==> FormatFree(kids[k])
  }

  /** `b` is `a` with the attributes of some of its elements stripped of
      formatting: the same nodes, tags, text and shape, and at every
      element either the same attributes or the stripped ones. */
  predicate Stripped(a: Node, b: Node)
    decreases a
  {
    match a
    case TextNode(_) => b == a
    case Element(tag, attrs, kids) =>
      && b.Element? && b.tag == tag
      && (b.attrs == attrs || b.attrs == StripFormatting(attrs))
      && |b.kids| == |kids|
      && forall k :: 0 <= k < |kids| ==> Stripped(kids[k], b.kids[k])
  }

  /** An element and all its descendants cleaned (`removeFormattingAttributes`
      on the element and on each of `querySelectorAll('*')`). Text nodes are
      not elements and are left untouched. */
  function CleanTree(n: Node): (r: Node)
    ensures FormatFree(r)
    ensures Stripped(n, r)
    ensures n.Element? ==> r.attrs == StripFormatting(n.attrs)
    ensures TreeText(r) == TreeText(n)
    ensures r.TextNode? <==> n.TextNode?
  {
    match n
    case TextNode(_) => n
    case Element(tag, attrs, kids) => Element(tag, StripFormatting(attrs), CleanKids(kids))
  }

  function CleanKids(ks: seq<Node>): (r: seq<Node>)
    ensures |r| == |ks|
    ensures forall k :: 0 <= k < |ks| ==> r[k] == CleanTree(ks[k])
    ensures KidsText(r) == KidsText(ks)
  {
    if |ks| == 0 then [] else [CleanTree(ks[0])] + CleanKids(ks[1..])
  }

  /** Cleaning a tree with no formatting changes nothing; in particular
      cleaning is idempotent. */
  lemma {:induction false} CleanTreeFixes(n: Node)
    requires FormatFree(n)
    ensures CleanTree(n) == n
  {
    match n {
      case TextNode(_) =>
      case Element(tag, attrs, kids) =>
        StripFormattingFixes(attrs);
        forall k | 0 <= k < |kids|
          ensures CleanKids(kids)[k] == kids[k]
        {
          CleanTreeFixes(kids[k]);
        }
        assert CleanKids(kids) == kids;
    }
  }

  lemma CleanTreeIdempotent(n: Node)
    ensures CleanTree(CleanTree(n)) == CleanTree(n)
  {
    CleanTreeFixes(CleanTree(n));
  }

  /** Cleaning is the one way of stripping a tree that leaves no
      formatting anywhere. */
  lemma {:induction false} CleanTreeUnique(n: Node, b: Node)
    requires Stripped(n, b) && FormatFree(b)
    ensures b == CleanTree(n)
  {
    match n {
      case TextNode(_) =>
      case Element(tag, attrs, kids) =>
        if b.attrs == attrs {
          StripFormattingFixes(attrs);
        }
        forall k | 0 <= k < |kids| ensures b.kids[k] == CleanKids(kids)[k] {
          CleanTreeUnique(kids[k], b.kids[k]);
        }
        assert b.kids == CleanKids(kids);
    }
  }

  lemma {:induction false} StrippedRefl(a: Node)
    ensures Stripped(a, a)
  {
    match a {
      case TextNode(_) =>
      case Element(_, _, kids) =>
        forall k | 0 <= k < |kids| ensures Stripped(kids[k], kids[k]) {
          StrippedRefl(kids[k]);
        }
    }
  }

  /** Stripping after stripping is stripping. */
  lemma {:induction false} StrippedTrans(a: Node, b: Node, c: Node)
    requires Stripped(a, b) && Stripped(b, c)
    ensures Stripped(a, c)
  {
    match a {
      case TextNode(_) =>
      case Element(_, attrs, kids) =>
        StripFormattingIdempotent(attrs);
        forall k | 0 <= k < |kids| ensures Stripped(kids[k], c.kids[k]) {
          StrippedTrans(kids[k], b.kids[k], c.kids[k]);
        }
    }
  }

  /** A stripped tree holds, at every path, a stripping of the original
      node there. */
  lemma {:induction false} StrippedAt(a: Node, b: Node, q: seq<nat>)
    requires Stripped(a, b) && Subtree(a, q).Some?
    ensures Subtree(b, q).Some? && Stripped(Subtree(a, q).value, Subtree(b, q).value)
    decreases |q|
  {
    if |q| > 0 {
      StrippedAt(a.kids[q[0]], b.kids[q[0]], q[1..]);
    }
  }

  /** Below a node without formatting there is none. */
  lemma {:induction false} FormatFreeBelow(n: Node, q: seq<nat>)
    requires FormatFree(n) && Subtree(n, q).Some?
    ensures FormatFree(Subtree(n, q).value)
    decreases |q|
  {
    if |q| > 0 {
      FormatFreeBelow(n.kids[q[0]], q[1..]);
    }
  }

  // ---------------------------------------------------------------- paths

  /** The node at path `p` below `n`, if there is one. */
  function Subtree(n: Node, p: seq<nat>): Option<Node>
    decreases |p|
  {
    if |p| == 0 then Some(n)
    else if n.Element? && p[0] < |n.kids| then Subtree(n.kids[p[0]], p[1..])
    else None
  }

  predicate ElementAt(root: Node, p: seq<nat>) {
    Subtree(root, p).Some? && Subtree(root, p).value.Element?
  }

  function Parent(p: seq<nat>): seq<nat>
    requires |p| > 0
  {
    p[..|p| - 1]
  }

  function Last(p: seq<nat>): nat
    requires |p| > 0
  {
    p[|p| - 1]
  }

  /** Going one step further down a path. */
  lemma {:induction false} SubtreeSnoc(n: Node, p: seq<nat>, k: nat)
    ensures Subtree(n, p + [k]) ==
      if Subtree(n, p).Some? && Subtree(n, p).value.Element? && k < |Subtree(n, p).value.kids|
      then Some(Subtree(n, p).value.kids[k]) else None
    decreases |p|
  {
    if |p| > 0 {
      assert (p + [k])[0] == p[0];
      assert (p + [k])[1..] == p[1..] + [k];
      if n.Element? && p[0] < |n.kids| {
        SubtreeSnoc(n.kids[p[0]], p[1..], k);
      }
    } else {
      assert p + [k] == [k];
    }
  }

  lemma ParentLast(p: seq<nat>)
    requires |p| > 0
    ensures Parent(p) + [Last(p)] == p
  {
  }

  lemma ParentSnoc(p: seq<nat>, k: nat)
    ensures Parent(p + [k]) == p && Last(p + [k]) == k
  {
    assert (p + [k])[..|p|] == p;
  }

  /** A prefix of the accumulator stays a prefix after a push. */
  lemma PrefixPush<T>(acc: seq<T>, acc': seq<T>, r: seq<T>)
    requires acc' == acc || (exists x :: acc' == acc + [x])
    requires |acc'| <= |r| && r[..|acc'|] == acc'
    ensures |acc| <= |r| && r[..|acc|] == acc
  {
    assert acc'[..|acc|] == acc;
    assert r[..|acc|] == acc'[..|acc|];
  }

  /** The parent of an existing node is an element holding it. */
  lemma SubtreeParent(root: Node, p: seq<nat>)
    requires |p| > 0 && Subtree(root, p).Some?
    ensures ElementAt(root, Parent(p))
    ensures Last(p) < |Subtree(root, Parent(p)).value.kids|
    ensures Subtree(root, Parent(p)).value.kids[Last(p)] == Subtree(root, p).value
  {
    ParentLast(p);
    SubtreeSnoc(root, Parent(p), Last(p));
  }

  /** `nextElementSibling`: the first element child after position `j`. */
  function NextElementSibling(ks: seq<Node>, j: nat): (r: Option<nat>)
    ensures r.Some? ==> j < r.value < |ks| && ks[r.value].Element?
    ensures r.Some? ==> forall m :: j < m < r.value ==> !ks[m].Element?
    ensures r.None? ==> forall m :: j < m < |ks| ==> !ks[m].Element?
    decreases |ks| - j
  {
    if j + 1 >= |ks| then None
    else if ks[j + 1].Element? then Some(j + 1)
    else NextElementSibling(ks, j + 1)
  }

  // ---------------------------------------------------------------- the walk

  /** A node of the document: one inside the editable area, or one outside
      it (the editable's own ancestors and their other descendants). */
  datatype Loc = Inside(path: seq<nat>) | Outside

  /** Siblings still ahead of the node at `p`, counting itself. */
  function Remaining(root: Node, p: seq<nat>): nat {
    if |p| > 0 && ElementAt(root, Parent(p)) && Last(p) < |Subtree(root, Parent(p)).value.kids|
    then |Subtree(root, Parent(p)).value.kids| - Last(p) else 0
  }

  /** The collection loop from the element at `cur`, strictly inside the
      editable: stop at the end element; otherwise step to the next element
      sibling, or else up to the parent unless the parent is the editable
      (then stop). A parent is pushed only if not collected already. Each
      step goes right or up, which is why the walk ends. */
  function Walk(root: Node, cur: seq<nat>, end: Loc, acc: seq<Loc>): (r: seq<Loc>)
    requires |cur| > 0 && ElementAt(root, cur)
    ensures |acc| <= |r| && r[..|acc|] == acc
    decreases |cur|, Remaining(root, cur)
  {
    if end == Inside(cur) then acc
    else
      SubtreeParent(root, cur);
      var ks := Subtree(root, Parent(cur)).value.kids;
      match NextElementSibling(ks, Last(cur))
      case Some(k) =>
        var next := Parent(cur) + [k];
        StepRight(root, cur, k);
        var acc' := acc + [Inside(next)];
        var r := Walk(root, next, end, acc');
        PrefixPush(acc, acc', r);
        r
      case None =>
        if |cur| >= 2 then
          var up := Parent(cur);
          var acc' := if Inside(up) in acc then acc else acc + [Inside(up)];
          var r := Walk(root, up, end, acc');
          PrefixPush(acc, acc', r);
          r
        else acc
  }

  /** A step to a later element sibling stays at the same depth and leaves
      fewer siblings ahead. */
  lemma StepRight(root: Node, cur: seq<nat>, k: nat)
    requires |cur| > 0 && ElementAt(root, Parent(cur))
    requires Last(cur) < k < |Subtree(root, Parent(cur)).value.kids|
    requires Subtree(root, Parent(cur)).value.kids[k].Element?
    ensures |Parent(cur) + [k]| == |cur| && ElementAt(root, Parent(cur) + [k])
    ensures Remaining(root, Parent(cur) + [k]) < Remaining(root, cur)
  {
    ParentSnoc(Parent(cur), k);
    SubtreeSnoc(root, Parent(cur), k);
  }

  /** `elementsToClean`: the start element unless it is the editable, then
      the walk. From the editable itself the first step already leaves it
      (the editable sits inside the editor's wrapper), and the loop stops
      because the editable no longer contains the current element; from
      outside it the loop does not run. */
  function Collect(root: Node, start: Loc, end: Loc): (r: seq<Loc>)
    requires start.Inside? ==> ElementAt(root, start.path)
  {
    match start
    case Outside => [Outside]
    case Inside(p) =>
      if |p| == 0 then (if end == start then [] else [Outside])
      else Walk(root, p, end, [start])
  }

  /** `a` comes no later than `cur` in the walk's order and is not one of
      its proper ancestors: it is `cur`, a descendant of `cur`, or lies in
      an earlier branch. */
  predicate Behind(a: seq<nat>, cur: seq<nat>) {
    a == cur
    || (|cur| < |a| && a[..|cur|] == cur)
    || exists m :: 0 <= m < |a| && m < |cur| && a[..m] == cur[..m] && a[m] < cur[m]
  }

  /** Stepping right keeps everything collected behind the new element. */
  lemma BehindRight(a: seq<nat>, cur: seq<nat>, k: nat)
    requires |cur| > 0 && Last(cur) < k && Behind(a, cur)
    ensures Behind(a, Parent(cur) + [k])
  {
    var next := Parent(cur) + [k];
    var L := |cur| - 1;
    assert next[..L] == cur[..L];
    if a == cur || (|cur| < |a| && a[..|cur|] == cur) {
      assert a[..L] == cur[..L];
      assert 0 <= L < |a| && L < |next| && a[..L] == next[..L] && a[L] < next[L];
    } else {
      var m :| 0 <= m < |a| && m < |cur| && a[..m] == cur[..m] && a[m] < cur[m];
      assert next[..m] == cur[..m];
      assert 0 <= m < |a| && m < |next| && a[..m] == next[..m] && a[m] < next[m];
    }
  }

  /** Stepping up keeps everything collected behind the parent. */
  lemma BehindUp(a: seq<nat>, cur: seq<nat>)
    requires |cur| > 0 && Behind(a, cur)
    ensures Behind(a, Parent(cur))
  {
    var up := Parent(cur);
    if a == cur || (|cur| < |a| && a[..|cur|] == cur) {
      assert a[..|up|] == up;
    } else {
      var m :| 0 <= m < |a| && m < |cur| && a[..m] == cur[..m] && a[m] < cur[m];
      if m < |up| {
        assert up[..m] == cur[..m];
      } else {
        assert a[..|up|] == up;
      }
    }
  }

  /** The element a step right or up leads to is never behind the current
      one, so it has not been collected yet. */
  lemma NotBehindNext(cur: seq<nat>, k: nat)
    requires |cur| > 0 && Last(cur) < k
    ensures !Behind(Parent(cur) + [k], cur)
  {
    var next := Parent(cur) + [k];
    forall m | 0 <= m < |next| && m < |cur| && next[..m] == cur[..m]
      ensures !(next[m] < cur[m])
    {
      if m < |cur| - 1 {
        assert next[m] == cur[m];
      }
    }
    assert next[|cur| - 1] != cur[|cur| - 1];
  }

  lemma NotBehindUp(cur: seq<nat>)
    requires |cur| > 0
    ensures !Behind(Parent(cur), cur)
  {
    var up := Parent(cur);
    forall m | 0 <= m < |up| && m < |cur| && up[..m] == cur[..m]
      ensures !(up[m] < cur[m])
    {
      assert up[m] == cur[m];
    }
  }

  /** Everything the walk collects is an element strictly inside the
      editable, and nothing is collected twice; in particular the
      `includes` test before pushing a parent never finds it. */
  /** Every collected entry is an element strictly inside the editable
      that lies behind `cur` in document order. */
  ghost predicate CollectedBehind(root: Node, acc: seq<Loc>, cur: seq<nat>) {
    forall x :: x in acc ==> x.Inside? && |x.path| > 0 && ElementAt(root, x.path) && Behind(x.path, cur)
  }

  /** Every entry is an element strictly inside the editable. */
  ghost predicate InsideElements(root: Node, r: seq<Loc>) {
    forall x :: x in r ==> x.Inside? && |x.path| > 0 && ElementAt(root, x.path)
  }

  lemma BehindInside(root: Node, acc: seq<Loc>, cur: seq<nat>)
    requires CollectedBehind(root, acc, cur)
    ensures InsideElements(root, acc)
  {
  }

  /** Collecting the next element sibling keeps the entries distinct and
      behind the new position. */
  lemma StepRightKeeps(root: Node, cur: seq<nat>, k: nat, acc: seq<Loc>)
    requires |cur| > 0 && Last(cur) < k && ElementAt(root, Parent(cur) + [k])
    requires NoDup(acc) && CollectedBehind(root, acc, cur)
    ensures NoDup(acc + [Inside(Parent(cur) + [k])])
    ensures CollectedBehind(root, acc + [Inside(Parent(cur) + [k])], Parent(cur) + [k])
  {
    var next := Parent(cur) + [k];
    NotBehindNext(cur, k);
    assert Inside(next) !in acc;
    forall x | x in acc + [Inside(next)]
      ensures x.Inside? && |x.path| > 0 && ElementAt(root, x.path) && Behind(x.path, next)
    {
      if x in acc {
        BehindRight(x.path, cur, k);
      }
    }
    NoDupSnoc(acc, Inside(next));
  }

  /** Collecting the parent keeps the entries distinct and behind it. */
  lemma StepUpKeeps(root: Node, cur: seq<nat>, acc: seq<Loc>)
    requires |cur| >= 2 && ElementAt(root, Parent(cur))
    requires NoDup(acc) && CollectedBehind(root, acc, cur)
    ensures Inside(Parent(cur)) !in acc
    ensures NoDup(acc + [Inside(Parent(cur))])
    ensures CollectedBehind(root, acc + [Inside(Parent(cur))], Parent(cur))
  {
    var up := Parent(cur);
    NotBehindUp(cur);
    assert Inside(up) !in acc;
    forall x | x in acc + [Inside(up)]
      ensures x.Inside? && |x.path| > 0 && ElementAt(root, x.path) && Behind(x.path, up)
    {
      if x in acc {
        BehindUp(x.path, cur);
      }
    }
    NoDupSnoc(acc, Inside(up));
  }

  /** Everything the walk collects is an element strictly inside the
      editable, and nothing is collected twice; in particular the
      `includes` test before pushing a parent never finds it. */
  lemma {:induction false} WalkCollectsDistinctElements(root: Node, cur: seq<nat>, end: Loc, acc: seq<Loc>)
    requires |cur| > 0 && ElementAt(root, cur)
    requires NoDup(acc) && CollectedBehind(root, acc, cur)
    ensures NoDup(Walk(root, cur, end, acc)) && InsideElements(root, Walk(root, cur, end, acc))
    decreases |cur|, Remaining(root, cur)
  {
    if end == Inside(cur) {
      BehindInside(root, acc, cur);
    } else {
      SubtreeParent(root, cur);
      var ks := Subtree(root, Parent(cur)).value.kids;
      match NextElementSibling(ks, Last(cur)) {
        case Some(k) =>
          var next := Parent(cur) + [k];
          assert Parent(next) == Parent(cur);
          SubtreeSnoc(root, Parent(cur), k);
          StepRightKeeps(root, cur, k, acc);
          WalkCollectsDistinctElements(root, next, end, acc + [Inside(next)]);
        case None =>
          if |cur| >= 2 {
            StepUpKeeps(root, cur, acc);
            WalkCollectsDistinctElements(root, Parent(cur), end, acc + [Inside(Parent(cur))]);
          } else {
            BehindInside(root, acc, cur);
          }
      }
    }
  }


  // ---------------------------------------------------------------- cleaning

  /** Clean the element at `p` and its descendants; nothing happens when
      there is no node at `p`. */
  function CleanAt(n: Node, p: seq<nat>): (r: Node)
    ensures TreeText(r) == TreeText(n)
    ensures |p| > 0 ==> r.TextNode? == n.TextNode?
    decreases |p|
  {
    if |p| == 0 then CleanTree(n)
    else if n.Element? && p[0] < |n.kids| then
      var kid := CleanAt(n.kids[p[0]], p[1..]);
      KidsTextUpdate(n.kids, p[0], kid);
      n.(kids := n.kids[p[0] := kid])
    else n
  }

  lemma {:induction false} KidsTextUpdate(ks: seq<Node>, i: nat, x: Node)
    requires i < |ks| && TreeText(x) == TreeText(ks[i])
    ensures KidsText(ks[i := x]) == KidsText(ks)
  {
    assert (ks[i := x])[0] == if i == 0 then x else ks[0];
    if i == 0 {
      assert (ks[i := x])[1..] == ks[1..];
    } else {
      assert (ks[i := x])[1..] == ks[1..][i - 1 := x];
      KidsTextUpdate(ks[1..], i - 1, x);
    }
  }

  /** Cleaning below the root never touches the root element itself. */
  lemma CleanAtKeepsRoot(n: Node, p: seq<nat>)
    requires n.Element? && |p| > 0
    ensures CleanAt(n, p).Element?
    ensures CleanAt(n, p).tag == n.tag && CleanAt(n, p).attrs == n.attrs
  {
  }

  /** Cleaning changes attributes only: the same paths lead to nodes of
      the same kind. */
  lemma {:induction false} CleanAtShape(n: Node, p: seq<nat>, q: seq<nat>)
    ensures Subtree(CleanAt(n, p), q).Some? == Subtree(n, q).Some?
    ensures Subtree(n, q).Some? ==> (Subtree(CleanAt(n, p), q).value.Element? == Subtree(n, q).value.Element?)
    decreases |p|
  {
    if |p| == 0 {
      CleanTreeShape(n, q);
    } else if n.Element? && p[0] < |n.kids| && |q| > 0 && q[0] < |n.kids| {
      if q[0] == p[0] {
        CleanAtShape(n.kids[p[0]], p[1..], q[1..]);
      }
    }
  }

  lemma {:induction false} CleanTreeShape(n: Node, q: seq<nat>)
    ensures Subtree(n, q).Some? ==> Subtree(CleanTree(n), q) == Some(CleanTree(Subtree(n, q).value))
    ensures Subtree(CleanTree(n), q).Some? == Subtree(n, q).Some?
    decreases |q|
  {
    if |q| > 0 && n.Element? && q[0] < |n.kids| {
      CleanTreeShape(n.kids[q[0]], q[1..]);
    }
  }

  /** A tree without formatting is left as it is wherever it is cleaned. */
  lemma {:induction false} CleanAtFixes(n: Node, p: seq<nat>)
    requires FormatFree(n)
    ensures CleanAt(n, p) == n
    decreases |p|
  {
    if |p| == 0 {
      CleanTreeFixes(n);
    } else if n.Element? && p[0] < |n.kids| {
      CleanAtFixes(n.kids[p[0]], p[1..]);
      assert n.kids[p[0] := n.kids[p[0]]] == n.kids;
    }
  }

  /** After cleaning at `p`, the subtree at `p` is free of formatting, and
      a subtree at `q` that already was stays so. */
  lemma {:induction false} CleanAtCleans(n: Node, p: seq<nat>, q: seq<nat>)
    ensures Subtree(n, p).Some? ==>
      Subtree(CleanAt(n, p), p).Some? && FormatFree(Subtree(CleanAt(n, p), p).value)
    ensures Subtree(n, q).Some? && FormatFree(Subtree(n, q).value) ==>
      Subtree(CleanAt(n, p), q).Some? && FormatFree(Subtree(CleanAt(n, p), q).value)
    decreases |p|
  {
    CleanAtShape(n, p, p);
    CleanAtShape(n, p, q);
    if |p| == 0 {
      CleanTreeShape(n, q);
    } else if n.Element? && p[0] < |n.kids| {
      CleanAtCleans(n.kids[p[0]], p[1..], p[1..]);
      if |q| == 0 {
        if FormatFree(n) {
          CleanAtFixes(n, p);
        }
      } else if q[0] < |n.kids| {
        if q[0] == p[0] {
          CleanAtCleans(n.kids[p[0]], p[1..], q[1..]);
        }
      }
    }
  }

  /** The cleaning loop over the collected elements, in order. */
  function CleanAll(n: Node, ps: seq<seq<nat>>): (r: Node)
    ensures TreeText(r) == TreeText(n)
    decreases |ps|
  {
    if |ps| == 0 then n else CleanAll(CleanAt(n, ps[0]), ps[1..])
  }

  lemma {:induction false} CleanAllKeepsRoot(n: Node, ps: seq<seq<nat>>)
    requires n.Element? && forall i :: 0 <= i < |ps| ==> |ps[i]| > 0
    ensures CleanAll(n, ps).Element?
    ensures CleanAll(n, ps).tag == n.tag && CleanAll(n, ps).attrs == n.attrs
    decreases |ps|
  {
    if |ps| > 0 {
      CleanAtKeepsRoot(n, ps[0]);
      CleanAllKeepsRoot(CleanAt(n, ps[0]), ps[1..]);
    }
  }

  lemma {:induction false} CleanAllKeepsFree(n: Node, ps: seq<seq<nat>>, q: seq<nat>)
    requires Subtree(n, q).Some? && FormatFree(Subtree(n, q).value)
    ensures Subtree(CleanAll(n, ps), q).Some? && FormatFree(Subtree(CleanAll(n, ps), q).value)
    decreases |ps|
  {
    if |ps| > 0 {
      CleanAtCleans(n, ps[0], q);
      CleanAllKeepsFree(CleanAt(n, ps[0]), ps[1..], q);
    }
  }

  /** Every element in the list ends up without formatting, itself and
      all its descendants. */
  lemma {:induction false} CleanAllCleans(n: Node, ps: seq<seq<nat>>, q: seq<nat>)
    requires q in ps && Subtree(n, q).Some?
    ensures Subtree(CleanAll(n, ps), q).Some? && FormatFree(Subtree(CleanAll(n, ps), q).value)
    decreases |ps|
  {
    if ps[0] == q {
      CleanAtCleans(n, q, q);
      CleanAtShape(n, q, q);
      CleanAllKeepsFree(CleanAt(n, q), ps[1..], q);
    } else {
      assert q in ps[1..];
      CleanAtShape(n, ps[0], q);
      CleanAllCleans(CleanAt(n, ps[0]), ps[1..], q);
    }
  }

  /** The attributes of the element at `q`, if there is one. */
  function AttrsAt(n: Node, q: seq<nat>): Option<seq<Attr>> {
    match Subtree(n, q)
    case Some(Element(_, attrs, _)) => Some(attrs)
    case _ => None
  }

  lemma {:induction false} CleanAtStripped(n: Node, p: seq<nat>)
    ensures Stripped(n, CleanAt(n, p))
    decreases |p|
  {
    if |p| == 0 {
    } else if n.Element? && p[0] < |n.kids| {
      var r := CleanAt(n, p);
      CleanAtStripped(n.kids[p[0]], p[1..]);
      forall k | 0 <= k < |n.kids| ensures Stripped(n.kids[k], r.kids[k]) {
        if k != p[0] { StrippedRefl(n.kids[k]); }
      }
    } else {
      StrippedRefl(n);
    }
  }

  /** Cleaning at `p` leaves the attributes of every element not at or
      below `p` as they were. */
  lemma {:induction false} CleanAtFrame(n: Node, p: seq<nat>, q: seq<nat>)
    requires !(p <= q)
    ensures AttrsAt(CleanAt(n, p), q) == AttrsAt(n, q)
    decreases |p|
  {
    if n.Element? && p[0] < |n.kids| && |q| > 0 && q[0] < |n.kids| && q[0] == p[0] {
      assert p <= q <==> p[1..] <= q[1..];
      CleanAtFrame(n.kids[p[0]], p[1..], q[1..]);
    }
  }

  lemma {:induction false} CleanAllStripped(n: Node, ps: seq<seq<nat>>)
    ensures Stripped(n, CleanAll(n, ps))
    decreases |ps|
  {
    if |ps| == 0 {
      StrippedRefl(n);
    } else {
      CleanAtStripped(n, ps[0]);
      CleanAllStripped(CleanAt(n, ps[0]), ps[1..]);
      StrippedTrans(n, CleanAt(n, ps[0]), CleanAll(n, ps));
    }
  }

  /** The cleaning loop leaves the attributes of every element below none
      of the listed paths as they were. */
  lemma {:induction false} CleanAllFrame(n: Node, ps: seq<seq<nat>>, q: seq<nat>)
    requires forall i :: 0 <= i < |ps| ==> !(ps[i] <= q)
    ensures AttrsAt(CleanAll(n, ps), q) == AttrsAt(n, q)
    decreases |ps|
  {
    if |ps| > 0 {
      CleanAtFrame(n, ps[0], q);
      CleanAllFrame(CleanAt(n, ps[0]), ps[1..], q);
    }
  }

  /** The node at `p + q` is the node at `q` below the node at `p`. */
  lemma {:induction false} SubtreeAppend(n: Node, p: seq<nat>, q: seq<nat>)
    ensures Subtree(n, p + q) == if Subtree(n, p).Some? then Subtree(Subtree(n, p).value, q) else None
    decreases |p|
  {
    if |p| > 0 {
      assert (p + q)[0] == p[0] && (p + q)[1..] == p[1..] + q;
      if n.Element? && p[0] < |n.kids| {
        SubtreeAppend(n.kids[p[0]], p[1..], q);
      }
    } else {
      assert p + q == q;
    }
  }

  /** The loop leaves every element at or below a listed path free of
      formatting. */
  lemma CleanAllCovers(n: Node, ps: seq<seq<nat>>, p: seq<nat>, q: seq<nat>)
    requires p in ps && p <= q && Subtree(n, q).Some?
    ensures Subtree(CleanAll(n, ps), q).Some? && FormatFree(Subtree(CleanAll(n, ps), q).value)
  {
    var rest := q[|p|..];
    assert q == p + rest;
    SubtreeAppend(n, p, rest);
    CleanAllCleans(n, ps, p);
    var r := CleanAll(n, ps);
    SubtreeAppend(r, p, rest);
    CleanAllStripped(n, ps);
    StrippedAt(n, r, q);
    FormatFreeBelow(Subtree(r, p).value, rest);
  }

  /** A stripped element that is free of formatting carries exactly the
      stripped attributes. */
  lemma StrippedFreeAttrs(a: Node, b: Node)
    requires a.Element? && Stripped(a, b) && FormatFree(b)
    ensures b.attrs == StripFormatting(a.attrs)
  {
    if b.attrs == a.attrs {
      StripFormattingFixes(a.attrs);
    }
  }

  // ---------------------------------------------------------------- the command

  /** The live range: whether it is collapsed, and its start and end
      containers. */
  datatype Range = Range(collapsed: bool, start: Loc, end: Loc)

  predicate ValidLoc(root: Node, l: Loc) {
    l.Inside? ==> Subtree(root, l.path).Some?
  }

  /** The longest common prefix of two paths: their deepest common
      ancestor. */
  function CommonPrefix(p: seq<nat>, q: seq<nat>): (r: seq<nat>)
    ensures |r| <= |p| && |r| <= |q| && r == p[..|r|] && r == q[..|r|]
    ensures |r| < |p| && |r| < |q| ==> p[|r|] != q[|r|]
  {
    if |p| == 0 || |q| == 0 || p[0] != q[0] then []
    else [p[0]] + CommonPrefix(p[1..], q[1..])
  }

  /** `range.commonAncestorContainer`. */
  function CommonAncestor(a: Loc, b: Loc): Loc {
    if a.Inside? && b.Inside? then Inside(CommonPrefix(a.path, b.path)) else Outside
  }

  /** The container is the editable, or a text node directly inside it. */
  predicate SpansWholeArea(root: Node, c: Loc) {
    c == Inside([]) || (c.Inside? && |c.path| == 1 && Subtree(root, c.path).Some? && Subtree(root, c.path).value.TextNode?)
  }

  /** The container itself when it is an element, else its parent. */
  function ElementOf(root: Node, l: Loc): (r: Loc)
    requires root.Element? && ValidLoc(root, l)
    ensures r.Inside? ==> ElementAt(root, r.path)
    ensures r.Outside? <==> l.Outside?
  {
    match l
    case Outside => Outside
    case Inside(p) =>
      if Subtree(root, p).value.Element? then l
      else
        SubtreeParent(root, p);
        Inside(Parent(p))
  }

  /** The collected locations that are elements strictly inside the
      editable: the guard of the cleaning loop. */
  function Targets(ls: seq<Loc>): (r: seq<seq<nat>>)
    ensures forall p :: p in r <==> Inside(p) in ls && |p| > 0
  {
    if |ls| == 0 then []
    else (if ls[0].Inside? && |ls[0].path| > 0 then [ls[0].path] else []) + Targets(ls[1..])
  }

  /** Every child of the editable cleaned, the editable itself not. */
  function CleanDescendants(root: Node): (r: Node)
    requires root.Element?
    ensures r.Element? && r.tag == root.tag && r.attrs == root.attrs
    ensures |r.kids| == |root.kids|
    ensures forall k :: 0 <= k < |r.kids| ==> FormatFree(r.kids[k])
    ensures TreeText(r) == TreeText(root)
  {
    root.(kids := CleanKids(root.kids))
  }

  /** The partial-selection elements: those collected from the start
      element towards the end element. */
  function PartialTargets(root: Node, sel: Range): seq<seq<nat>>
    requires root.Element? && ValidLoc(root, sel.start) && ValidLoc(root, sel.end)
  {
    Targets(Collect(root, ElementOf(root, sel.start), ElementOf(root, sel.end)))
  }

  /** `removeFormat`: with no range nothing changes; a collapsed range or
      one whose common ancestor is the editable (or a text node right
      inside it) cleans every descendant; otherwise the collected elements
      and their descendants are cleaned. Only attributes change, each
      element keeping its own or the stripped ones, and the editable keeps
      its own. */
  function RemoveFormat(root: Node, sel: Option<Range>): (r: Node)
    requires root.Element?
    requires sel.Some? ==> ValidLoc(root, sel.value.start) && ValidLoc(root, sel.value.end)
    ensures Stripped(root, r)
    ensures r.attrs == root.attrs
    ensures sel.None? ==> r == root
  {
    match sel
    case None =>
      StrippedRefl(root);
      root
    case Some(range) =>
      if WholeArea(root, range) then
        CleanDescendants(root)
      else
        var ps := PartialTargets(root, range);
        CleanAllKeepsRoot(root, ps);
        CleanAllStripped(root, ps);
        CleanAll(root, ps)
  }

  /** The selection cleans every descendant of the editable. */
  predicate WholeArea(root: Node, range: Range) {
    range.collapsed || SpansWholeArea(root, CommonAncestor(range.start, range.end))
  }

  /** The elements whose formatting `removeFormat` strips: below the
      editable, all of them for a caret or a whole-area selection, and
      otherwise those at or below a collected element. */
  ghost predicate Covered(root: Node, sel: Option<Range>, q: seq<nat>)
    requires root.Element?
    requires sel.Some? ==> ValidLoc(root, sel.value.start) && ValidLoc(root, sel.value.end)
  {
    sel.Some? && |q| > 0 &&
      (WholeArea(root, sel.value) || exists p :: p in PartialTargets(root, sel.value) && p <= q)
  }

  /** Exactly the covered elements lose their formatting attributes; every
      other element, the editable first, keeps its attributes. */
  lemma RemoveFormatExact(root: Node, sel: Option<Range>, q: seq<nat>)
    requires root.Element?
    requires sel.Some? ==> ValidLoc(root, sel.value.start) && ValidLoc(root, sel.value.end)
    requires ElementAt(root, q)
    ensures AttrsAt(RemoveFormat(root, sel), q) ==
      Some(if Covered(root, sel, q) then StripFormatting(Subtree(root, q).value.attrs)
           else Subtree(root, q).value.attrs)
  {
    var a := Subtree(root, q).value;
    if sel.Some? && |q| > 0 {
      var range := sel.value;
      if WholeArea(root, range) {
        ExactWhole(root, range, q);
      } else {
        var ps := PartialTargets(root, range);
        if exists p :: p in ps && p <= q {
          var p :| p in ps && p <= q;
          ExactCovered(root, range, p, q);
        } else {
          CleanAllFrame(root, ps, q);
        }
      }
    } else {
      StrippedAt(root, RemoveFormat(root, sel), q);
    }
  }

  lemma ExactWhole(root: Node, range: Range, q: seq<nat>)
    requires root.Element? && ValidLoc(root, range.start) && ValidLoc(root, range.end)
    requires ElementAt(root, q) && |q| > 0 && WholeArea(root, range)
    ensures AttrsAt(RemoveFormat(root, Some(range)), q) == Some(StripFormatting(Subtree(root, q).value.attrs))
  {
    var r := RemoveFormat(root, Some(range));
    StrippedAt(root, r, q);
    assert q == [q[0]] + q[1..];
    CleanTreeShape(root.kids[q[0]], q[1..]);
    StrippedFreeAttrs(Subtree(root, q).value, Subtree(r, q).value);
  }

  lemma ExactCovered(root: Node, range: Range, p: seq<nat>, q: seq<nat>)
    requires root.Element? && ValidLoc(root, range.start) && ValidLoc(root, range.end)
    requires ElementAt(root, q) && |q| > 0 && !WholeArea(root, range)
    requires p in PartialTargets(root, range) && p <= q
    ensures AttrsAt(RemoveFormat(root, Some(range)), q) == Some(StripFormatting(Subtree(root, q).value.attrs))
  {
    var r := RemoveFormat(root, Some(range));
    StrippedAt(root, r, q);
    CleanAllCovers(root, PartialTargets(root, range), p, q);
    StrippedFreeAttrs(Subtree(root, q).value, Subtree(r, q).value);
  }


  /** With a caret, everything below the editable ends up free of
      formatting. */
  lemma CaretCleansEverything(root: Node, range: Range)
    requires root.Element? && ValidLoc(root, range.start) && ValidLoc(root, range.end)
    requires range.collapsed
    ensures var r := RemoveFormat(root, Some(range));
      forall k :: 0 <= k < |r.kids| ==> FormatFree(r.kids[k])
  {
  }

  /** For a partial selection, the cleaned elements are distinct elements
      strictly inside the editable, and each ends up free of formatting
      together with its descendants. */
  lemma PartialCleansTargets(root: Node, range: Range)
    requires root.Element? && ValidLoc(root, range.start) && ValidLoc(root, range.end)
    requires !range.collapsed && !SpansWholeArea(root, CommonAncestor(range.start, range.end))
    ensures var ps := PartialTargets(root, range);
      forall p :: p in ps ==>
        (|p| > 0 && ElementAt(root, p) && Subtree(RemoveFormat(root, Some(range)), p).Some? &&
         FormatFree(Subtree(RemoveFormat(root, Some(range)), p).value))
  {
    var start := ElementOf(root, range.start);
    var end := ElementOf(root, range.end);
    var ls := Collect(root, start, end);
    var ps := PartialTargets(root, range);
    if start.Inside? && |start.path| > 0 {
      WalkCollectsDistinctElements(root, start.path, end, [start]);
    }
    forall p | p in ps
      ensures |p| > 0 && ElementAt(root, p)
      ensures Subtree(RemoveFormat(root, Some(range)), p).Some?
      ensures FormatFree(Subtree(RemoveFormat(root, Some(range)), p).value)
    {
      assert Inside(p) in ls;
      CleanAllCleans(root, ps, p);
    }
  }

  /** The collected elements are never collected twice. */
  lemma PartialTargetsDistinct(root: Node, range: Range)
    requires root.Element? && ValidLoc(root, range.start) && ValidLoc(root, range.end)
    ensures NoDup(Collect(root, ElementOf(root, range.start), ElementOf(root, range.end)))
  {
    var start := ElementOf(root, range.start);
    if start.Inside? && |start.path| > 0 {
      WalkCollectsDistinctElements(root, start.path, ElementOf(root, range.end), [start]);
    }
  }

  /** `<div><p>a</p><p><b>x</b></p><p class="k">z</p></div>` as the only
      child of the editable, and a selection from "a" to "x". */
  const ExampleParagraphs: Node :=
    Element("div", [], [Element("p", [], [TextNode("a")]),
                        Element("p", [], [Element("b", [], [TextNode("x")])]),
                        Element("p", [Attr("class", "k")], [TextNode("z")])])
  const ExampleRoot: Node := Element("div", [], [ExampleParagraphs])
  const ExampleRange: Range := Range(false, Inside([0, 0, 0]), Inside([0, 1, 0, 0]))
  const ExampleCollected: seq<Loc> := [Inside([0, 0]), Inside([0, 1]), Inside([0, 2]), Inside([0])]

  lemma ExampleSteps()
    ensures Walk(ExampleRoot, [0, 1], Inside([0, 1, 0]), ExampleCollected[..2]) == ExampleCollected
  {
    var div := ExampleParagraphs;
    var end := Inside([0, 1, 0]);
    assert Parent([0, 2]) == [0] && Last([0, 2]) == 2 && Parent([0, 1]) == [0] && Last([0, 1]) == 1;
    assert Subtree(ExampleRoot, [0]) == Some(div);
    assert NextElementSibling(div.kids, 2) == None;
    assert NextElementSibling(div.kids, 1) == Some(2);
    assert [0] + [2] == [0, 2];
    assert ExampleCollected[..2] + [Inside([0, 2])] == ExampleCollected[..3];
    assert ExampleCollected[..3] + [Inside([0])] == ExampleCollected;
    assert Walk(ExampleRoot, [0], end, ExampleCollected) == ExampleCollected;
    assert Walk(ExampleRoot, [0, 2], end, ExampleCollected[..3]) == ExampleCollected;
  }

  lemma ExampleCollect()
    ensures !WholeArea(ExampleRoot, ExampleRange)
    ensures Collect(ExampleRoot, ElementOf(ExampleRoot, ExampleRange.start), ElementOf(ExampleRoot, ExampleRange.end))
      == ExampleCollected
  {
    var div := ExampleParagraphs;
    assert CommonPrefix([0, 0, 0], [0, 1, 0, 0]) == [0];
    assert ElementOf(ExampleRoot, ExampleRange.start) == Inside([0, 0]);
    assert ElementOf(ExampleRoot, ExampleRange.end) == Inside([0, 1, 0]);
    assert Parent([0, 0]) == [0] && Last([0, 0]) == 0;
    assert Subtree(ExampleRoot, [0]) == Some(div);
    assert NextElementSibling(div.kids, 0) == Some(1);
    assert [0] + [1] == [0, 1];
    assert [Inside([0, 0])] + [Inside([0, 1])] == ExampleCollected[..2];
    ExampleSteps();
  }

  /** The walk never descends, so an end element nested deeper than the
      start's siblings is stepped past: selecting from "a" to "x" in
      `ExampleRoot` collects the three paragraphs and the `div`, and the
      class of the third paragraph, outside the selection, is stripped. */
  lemma WalkPassesNestedEnd(root: Node, range: Range)
    requires root == ExampleRoot && range == ExampleRange
    ensures [0, 2] in PartialTargets(root, range) && [0] in PartialTargets(root, range)
    ensures AttrsAt(root, [0, 2]) == Some([Attr("class", "k")])
    ensures AttrsAt(RemoveFormat(root, Some(range)), [0, 2]) == Some([])
  {
    ExampleIncludes();
    ExampleAttrs(root);
    ExampleStripped(root, range);
  }

  lemma ExampleStripped(root: Node, range: Range)
    requires root == ExampleRoot && range == ExampleRange
    ensures AttrsAt(RemoveFormat(root, Some(range)), [0, 2]) == Some([])
  {
    ExampleValid(root, range);
    ExampleCovered(root, range);
    ExampleAttrs(root);
    var q := [0, 2];
    assert Subtree(root, q).value.attrs == [Attr("class", "k")];
    RemoveFormatExact(root, Some(range), q);
  }

  lemma ExampleValid(root: Node, range: Range)
    requires root == ExampleRoot && range == ExampleRange
    ensures root.Element? && ValidLoc(root, range.start) && ValidLoc(root, range.end)
    ensures ElementAt(root, [0, 2])
  {
    var div := ExampleParagraphs;
    assert Subtree(root, [0]) == Some(div);
    assert Subtree(root, [0, 0]) == Some(div.kids[0]);
    assert Subtree(root, [0, 1]) == Some(div.kids[1]);
    assert Subtree(root, [0, 2]) == Some(div.kids[2]);
  }

  lemma ExampleCovered(root: Node, range: Range)
    requires root == ExampleRoot && range == ExampleRange
    ensures Covered(root, Some(range), [0, 2])
  {
    ExampleIncludes();
    var q := [0, 2];
    assert q <= q;
  }

  lemma ExampleAttrs(root: Node)
    requires root == ExampleRoot
    ensures AttrsAt(root, [0, 2]) == Some([Attr("class", "k")])
    ensures StripFormatting([Attr("class", "k")]) == []
  {
  }

  lemma ExampleIncludes()
    ensures !WholeArea(ExampleRoot, ExampleRange)
    ensures [0, 2] in PartialTargets(ExampleRoot, ExampleRange) && [0] in PartialTargets(ExampleRoot, ExampleRange)
  {
    ExampleCollect();
    assert Inside([0, 2]) in ExampleCollected && Inside([0]) in ExampleCollected;
  }
}

=== FILE: history.dfy ===
/** The undo/redo history: two string stacks bounded by `maxSize`, the
    last recorded content, and the flags that suppress recording while an
    undo or redo restores content. The editor's content is a field; the
    50 ms re-enable timer and the 10 ms paste delay are explicit steps. */
module UndoHistory {
  import opened Wrappers

  const DefaultMaxSize: int := 100

  datatype History = History(
    content: string,            // what `editor.getContent()` returns
    undo: seq<string>,          // oldest first; the top is the last element
    redo: seq<string>,
    maxSize: int,
    last: string,               // `lastContent`
    recording: bool,            // `isRecording`
    ignore: bool,               // `ignoreChange`
    pendingPastes: nat,         // scheduled paste re-checks not yet run
    pendingReEnables: nat)      // scheduled re-enable timers not yet run

  /** Recording is suppressed: the three change listeners do nothing. */
  predicate Suppressed(h: History) {
    h.ignore || !h.recording
  }

  /** The stack bound (only meaningful for a positive `maxSize`) and the
      two flags always moving together. */
  ghost predicate Valid(h: History) {
    && (h.maxSize > 0 ==> |h.undo| + |h.redo| <= h.maxSize)
    && h.recording == !h.ignore
  }

  /** `new History(editor, { maxSize })`: `options.maxSize || 100`. */
  function Create(content: string, maxSize: Option<int>): (h: History)
    ensures Valid(h) && !Suppressed(h)
    ensures h.undo == [] && h.redo == [] && h.last == content && h.content == content
    ensures h.maxSize > 0 || (maxSize.Some? && h.maxSize == maxSize.value)
    ensures maxSize.None? || maxSize == Some(0) ==> h.maxSize == DefaultMaxSize
  {
    var m := if maxSize.Some? && maxSize.value != 0 then maxSize.value else DefaultMaxSize;
    History(content, [], [], m, content, true, false, 0, 0)
  }

  /** `Array.prototype.shift` on a stack: drops the oldest entry, if any. */
  function Shift<T>(s: seq<T>): seq<T> {
    if |s| == 0 then [] else s[1..]
  }

  /** The newest `n` entries of `s`. */
  function Newest<T>(s: seq<T>, n: nat): (r: seq<T>)
    ensures |r| == if |s| <= n then |s| else n
    ensures forall k :: 0 <= k < |r| ==> r[k] == s[|s| - |r| + k]
  {
    if |s| <= n then s else s[|s| - n..]
  }

  /** The undo-stack half of `record`: evict the oldest entry when at
      capacity, then push. */
  function Push<T>(undo: seq<T>, maxSize: int, c: T): (r: seq<T>)
    ensures |r| > 0 && r[|r| - 1] == c
    ensures maxSize > 0 && |undo| <= maxSize ==> r == Newest(undo + [c], maxSize)
    ensures maxSize > 0 && |undo| <= maxSize ==> |r| <= maxSize
  {
    var u := if |undo| >= maxSize then Shift(undo) else undo;
    u + [c]
  }

  /** `record(content)`. */
  function Record(h: History, c: string): (r: History)
    ensures r.redo == [] && |r.undo| > 0 && r.undo[|r.undo| - 1] == c
    ensures r == h.(undo := r.undo, redo := [])
    ensures h.maxSize > 0 && |h.undo| <= h.maxSize ==> r.undo == Newest(h.undo + [c], h.maxSize)
    ensures Valid(h) ==> Valid(r)
  {
    h.(undo := Push(h.undo, h.maxSize, c), redo := [])
  }

  /** `recordIfChanged()`. */
  function RecordIfChanged(h: History): (r: History)
    ensures h.content == h.last ==> r == h
    ensures h.content != h.last ==> r == Record(h, h.last).(last := h.content)
    ensures r.last == h.content && r.content == h.content
    ensures Valid(h) ==> Valid(r)
  {
    if h.content != h.last then Record(h, h.last).(last := h.content) else h
  }

  /** `undo()`: the flag says whether anything was undone. */
  function Undo(h: History): (r: (bool, History))
    ensures !r.0 <==> |h.undo| == 0
    ensures !r.0 ==> r.1 == h
    ensures r.0 ==>
      && r.1.undo == h.undo[..|h.undo| - 1]
      && r.1.redo == h.redo + [h.content]
      && r.1.content == h.undo[|h.undo| - 1] && r.1.last == r.1.content
      && Suppressed(r.1) && r.1.pendingReEnables == h.pendingReEnables + 1
      && r.1.maxSize == h.maxSize && r.1.pendingPastes == h.pendingPastes
    ensures Valid(h) ==> Valid(r.1)
  {
    if |h.undo| == 0 then (false, h)
    else
      var previous := h.undo[|h.undo| - 1];
      (true, h.(undo := h.undo[..|h.undo| - 1], redo := h.redo + [h.content],
                ignore := true, recording := false,
                content := previous, last := previous,
                pendingReEnables := h.pendingReEnables + 1))
  }

  /** `redo()`: the mirror of `undo`, pushing onto the undo stack without
      checking the bound. */
  function Redo(h: History): (r: (bool, History))
    ensures !r.0 <==> |h.redo| == 0
    ensures !r.0 ==> r.1 == h
    ensures r.0 ==>
      && r.1.redo == h.redo[..|h.redo| - 1]
      && r.1.undo == h.undo + [h.content]
      && r.1.content == h.redo[|h.redo| - 1] && r.1.last == r.1.content
      && Suppressed(r.1) && r.1.pendingReEnables == h.pendingReEnables + 1
      && r.1.maxSize == h.maxSize && r.1.pendingPastes == h.pendingPastes
    ensures Valid(h) ==> Valid(r.1)
  {
    if |h.redo| == 0 then (false, h)
    else
      var next := h.redo[|h.redo| - 1];
      (true, h.(redo := h.redo[..|h.redo| - 1], undo := h.undo + [h.content],
                ignore := true, recording := false,
                content := next, last := next,
                pendingReEnables := h.pendingReEnables + 1))
  }

  /** One of the scheduled re-enable timers fires. */
  function ReEnable(h: History): (r: History)
    ensures h.pendingReEnables == 0 ==> r == h
    ensures h.pendingReEnables > 0 ==> !Suppressed(r) && r.pendingReEnables == h.pendingReEnables - 1
    ensures r.undo == h.undo && r.redo == h.redo && r.content == h.content && r.last == h.last
    ensures Valid(h) ==> Valid(r)
  {
    if h.pendingReEnables == 0 then h
    else h.(ignore := false, recording := true, pendingReEnables := h.pendingReEnables - 1)
  }

  /** The `asteronote.keyup` and `asteronote.change` listeners. */
  function OnKeyup(h: History): (r: History)
    ensures Suppressed(h) ==> r == h
    ensures !Suppressed(h) ==> r == RecordIfChanged(h)
  {
    if !h.ignore && h.recording then RecordIfChanged(h) else h
  }

  function OnChange(h: History): (r: History)
    ensures Suppressed(h) ==> r == h
    ensures !Suppressed(h) ==> r == RecordIfChanged(h)
  {
    if !h.ignore && h.recording then RecordIfChanged(h) else h
  }

  /** The `asteronote.paste` listener: schedules a re-check. */
  function OnPaste(h: History): (r: History)
    ensures Suppressed(h) ==> r == h
    ensures !Suppressed(h) ==> r == h.(pendingPastes := h.pendingPastes + 1)
  {
    if !h.ignore && h.recording then h.(pendingPastes := h.pendingPastes + 1) else h
  }

  /** A scheduled paste re-check runs; the gate is not consulted again. */
  function FlushPaste(h: History): (r: History)
    ensures h.pendingPastes == 0 ==> r == h
    ensures h.pendingPastes > 0 ==> r == RecordIfChanged(h).(pendingPastes := h.pendingPastes - 1)
  {
    if h.pendingPastes == 0 then h
    else RecordIfChanged(h).(pendingPastes := h.pendingPastes - 1)
  }

  function CanUndo(h: History): (b: bool)
    ensures b <==> Undo(h).0
  {
    |h.undo| > 0
  }

  function CanRedo(h: History): (b: bool)
    ensures b <==> Redo(h).0
  {
    |h.redo| > 0
  }

  /** `clear()`. */
  function Clear(h: History): (r: History)
    ensures !CanUndo(r) && !CanRedo(r) && r.last == r.content == h.content
    ensures RecordIfChanged(r) == r
    ensures Valid(h) ==> Valid(r)
  {
    h.(undo := [], redo := [], last := h.content)
  }

  /** What can happen to a history. */
  datatype Event =
    | Edit(content: string)     // the user changes the document
    | Keyup
    | Change
    | Paste
    | PasteTimer
    | ReEnableTimer
    | UndoCommand
    | RedoCommand
    | ClearCommand

  function Step(h: History, e: Event): History {
    match e
    case Edit(c) => h.(content := c)
    case Keyup => OnKeyup(h)
    case Change => OnChange(h)
    case Paste => OnPaste(h)
    case PasteTimer => FlushPaste(h)
    case ReEnableTimer => ReEnable(h)
    case UndoCommand => Undo(h).1
    case RedoCommand => Redo(h).1
    case ClearCommand => Clear(h)
  }

  function Run(h: History, es: seq<Event>): History
    decreases |es|
  {
    if |es| == 0 then h else Run(Step(h, es[0]), es[1..])
  }

  /** Every event sequence keeps the stack bound and the flag agreement. */
  lemma {:induction false} RunKeepsValid(h: History, es: seq<Event>)
    requires Valid(h)
    ensures Valid(Run(h, es))
    decreases |es|
  {
    if |es| > 0 {
      var h' := Step(h, es[0]);
      assert Valid(h') by {
        match es[0]
        case Edit(c) =>
        case Keyup =>
        case Change =>
        case Paste =>
        case PasteTimer =>
        case ReEnableTimer =>
        case UndoCommand =>
        case RedoCommand =>
        case ClearCommand =>
      }
      RunKeepsValid(h', es[1..]);
    }
  }

  /** A successful undo followed at once by a redo restores the content and
      both stacks, and the last recorded content is the restored one. */
  lemma UndoThenRedo(h: History)
    requires CanUndo(h)
    ensures var r := Redo(Undo(h).1);
      r.0 && r.1.content == h.content && r.1.undo == h.undo && r.1.redo == h.redo &&
      r.1.last == h.content
  {
    var u := Undo(h).1;
    assert u.undo + [u.content] == h.undo;
    assert u.redo[..|u.redo| - 1] == h.redo;
  }

  /** And symmetrically for a redo followed by an undo. */
  lemma RedoThenUndo(h: History)
    requires CanRedo(h)
    ensures var r := Undo(Redo(h).1);
      r.0 && r.1.content == h.content && r.1.undo == h.undo && r.1.redo == h.redo &&
      r.1.last == h.content
  {
    var u := Redo(h).1;
    assert u.redo + [u.content] == h.redo;
    assert u.undo[..|u.undo| - 1] == h.undo;
  }

  /** Events that do not re-enable recording. */
  predicate Quiet(e: Event) {
    e.Edit? || e.Keyup? || e.Change? || e.Paste?
  }

  /** After an undo or redo, until a re-enable timer fires, keyup, change
      and paste record nothing: edits only change the content. */
  lemma {:induction false} SuppressedRecordsNothing(h: History, es: seq<Event>)
    requires Suppressed(h)
    requires forall i :: 0 <= i < |es| ==> Quiet(es[i])
    ensures var r := Run(h, es);
      r == h.(content := r.content)
    decreases |es|
  {
    if |es| > 0 {
      var h' := Step(h, es[0]);
      assert h' == h.(content := h'.content);
      SuppressedRecordsNothing(h', es[1..]);
    }
  }

  /** Records one content after another. */
  function PushAll<T>(undo: seq<T>, maxSize: int, cs: seq<T>): seq<T>
    decreases |cs|
  {
    if |cs| == 0 then undo else PushAll(Push(undo, maxSize, cs[0]), maxSize, cs[1..])
  }

  lemma NewestOfNewest<T>(s: seq<T>, t: seq<T>, n: nat)
    requires n > 0
    ensures Newest(Newest(s, n) + t, n) == Newest(s + t, n)
  {
    if |s| > n {
      var s' := s[|s| - n..];
      var a := Newest(s' + t, n);
      var b := Newest(s + t, n);
      assert |a| == |b|;
      forall k | 0 <= k < |a| ensures a[k] == b[k] {
        assert a[k] == (s' + t)[|s' + t| - |a| + k];
        assert b[k] == (s + t)[|s + t| - |b| + k];
      }
    }
  }

  lemma NewestAppend<T>(undo: seq<T>, cs: seq<T>, n: nat)
    requires n > 0 && |cs| > 0
    ensures Newest(Newest(undo + [cs[0]], n) + cs[1..], n) == Newest(undo + cs, n)
  {
    NewestOfNewest(undo + [cs[0]], cs[1..], n);
    assert undo + [cs[0]] + cs[1..] == undo + cs;
  }

  /** Recording many contents keeps exactly the newest `maxSize` of the
      stack followed by them; the oldest are evicted first. */
  lemma {:induction false} PushAllKeepsNewest<T>(undo: seq<T>, maxSize: int, cs: seq<T>)
    requires maxSize > 0 && |undo| <= maxSize
    ensures PushAll(undo, maxSize, cs) == Newest(undo + cs, maxSize)
    decreases |cs|
  {
    if |cs| == 0 {
      assert undo + cs == undo;
    } else {
      var u' := Push(undo, maxSize, cs[0]);
      PushAllKeepsNewest(u', maxSize, cs[1..]);
      NewestAppend(undo, cs, maxSize);
    }
  }
}

=== FILE: link.dfy ===
/** The link command: how the URL typed into the link dialog is trimmed
    and given a scheme, and what the command then does to the document —
    update the link under the caret, insert a new anchor, or link the
    selection. The URL parser's verdict is a parameter. */
module LinkUrl {
  import opened Wrappers
  import opened Text

  /** `/^https?:\/\//i`: the URL starts with `http://` or `https://`, in
      any letter case. Under the `i` flag without `u`, only ASCII letters
      fold to one another, as `StartsWithCi` compares them. */
  predicate HasHttpScheme(url: string) {
    StartsWithCi(url, "http://") || StartsWithCi(url, "https://")
  }

  datatype UrlError = EmptyUrl | InvalidUrl

  datatype Normalized = NoUrl | Url(url: string)

  /** The trimmed URL, with `https://` put in front unless it already has an
      http(s) scheme; nothing when it is empty after trimming. */
  function NormalizeUrl(raw: string): (r: Normalized)
    ensures r.NoUrl? <==> AllSpace(raw)
    ensures r.Url? ==> HasHttpScheme(r.url)
    ensures r.Url? ==> r.url == Trim(raw) || r.url == "https://" + Trim(raw)
    ensures r.Url? && HasHttpScheme(Trim(raw)) ==> r.url == Trim(raw)
    ensures r.Url? && !HasHttpScheme(Trim(raw)) ==> r.url == "https://" + Trim(raw)
  {
    TrimEmptyIffAllSpace(raw);
    var t := Trim(raw);
    if t == "" then NoUrl
    else if HasHttpScheme(t) then Url(t)
    else
      HttpsPrefixed(t);
      Url("https://" + t)
  }

  /** Putting `https://` in front always yields an http(s) URL. */
  lemma HttpsPrefixed(t: string)
    ensures HasHttpScheme("https://" + t)
  {
    var u := "https://" + t;
    assert u[..8] == "https://";
  }

  /** Putting a scheme in front of a trimmed, non-empty string keeps it
      trimmed. */
  lemma PrefixKeepsTrimmed(t: string)
    requires Trimmed(t) && t != ""
    ensures Trimmed("https://" + t)
  {
    var u := "https://" + t;
    assert u[0] == 'h';
    assert u[|u| - 1] == t[|t| - 1];
  }

  /** Normalising a normalised URL changes nothing. */
  lemma NormalizeIdempotent(raw: string)
    requires NormalizeUrl(raw).Url?
    ensures NormalizeUrl(NormalizeUrl(raw).url) == NormalizeUrl(raw)
  {
    var t := Trim(raw);
    var u := NormalizeUrl(raw).url;
    if u != t {
      PrefixKeepsTrimmed(t);
    }
    TrimKeepsTrimmed(u);
    TrimEmptyIffAllSpace(u);
  }

  /** The link the caret is in: its `href` and its text. */
  datatype Anchor = Anchor(href: string, text: string)

  /** What `insertLink` does. */
  datatype LinkOutcome =
    | Rejected(reason: UrlError)
    | Updated(anchor: Anchor)
    | InsertedAnchor(href: string, text: string)
    | LinkedSelection(href: string)

  /** `insertLink`: reject an empty URL, then one the URL parser refuses
      (`parses` is that parser's verdict); otherwise update the link at the
      caret, replacing its text only when the trimmed text is not empty, or
      else insert an anchor with the text, or link the selection when there
      is no text. */
  function InsertLink(urlField: string, textField: string, parses: string -> bool, existing: Option<Anchor>): (r: LinkOutcome)
    ensures r == Rejected(EmptyUrl) <==> AllSpace(urlField)
    ensures r == Rejected(InvalidUrl) <==> !AllSpace(urlField) && !parses(NormalizeUrl(urlField).url)
    ensures r.Updated? <==> existing.Some? && !r.Rejected?
    ensures r.Updated? ==> r.anchor.href == NormalizeUrl(urlField).url
    ensures r.Updated? && AllSpace(textField) ==> r.anchor.text == existing.value.text
    ensures r.Updated? && !AllSpace(textField) ==> r.anchor.text == Trim(textField)
    ensures r.InsertedAnchor? <==> existing.None? && !r.Rejected? && !AllSpace(textField)
    ensures r.InsertedAnchor? ==> r.href == NormalizeUrl(urlField).url && r.text == Trim(textField)
    ensures r.LinkedSelection? <==> existing.None? && !r.Rejected? && AllSpace(textField)
    ensures r.LinkedSelection? ==> r.href == NormalizeUrl(urlField).url
  {
    TrimEmptyIffAllSpace(textField);
    var text := Trim(textField);
    match NormalizeUrl(urlField)
    case NoUrl => Rejected(EmptyUrl)
    case Url(url) =>
      if !parses(url) then Rejected(InvalidUrl)
      else match existing
        case Some(a) => Updated(Anchor(url, if text != "" then text else a.text))
        case None => if text != "" then InsertedAnchor(url, text) else LinkedSelection(url)
  }

  /** Every link the command writes has an http(s) URL. */
  lemma WrittenLinksHaveScheme(urlField: string, textField: string, parses: string -> bool, existing: Option<Anchor>)
    ensures var r := InsertLink(urlField, textField, parses, existing);
      (r.Updated? ==> HasHttpScheme(r.anchor.href)) &&
      (r.InsertedAnchor? ==> HasHttpScheme(r.href)) &&
      (r.LinkedSelection? ==> HasHttpScheme(r.href))
  {
  }

  /** `getLinkAtCursor`: the element itself when it is an `A`, else its
      closest `A` ancestor. `chain` lists the tags from the element up to
      the document root; the result is a position in it. */
  function LinkAtCursor(chain: seq<string>): (r: Option<nat>)
    ensures r.Some? ==> r.value < |chain| && chain[r.value] == "A"
    ensures r.Some? ==> forall k :: 0 <= k < r.value ==> chain[k] != "A"
    ensures r.None? <==> "A" !in chain
  {
    if |chain| > 0 && chain[0] == "A" then Some(0) else Closest(chain, 0)
  }

  /** `closest('a')` from position `i`, which includes the element itself. */
  function Closest(chain: seq<string>, i: nat): (r: Option<nat>)
    requires i <= |chain|
    ensures r.Some? ==> i <= r.value < |chain| && chain[r.value] == "A"
    ensures r.Some? ==> forall k :: i <= k < r.value ==> chain[k] != "A"
    ensures r.None? <==> forall k :: i <= k < |chain| ==> chain[k] != "A"
    decreases |chain| - i
  {
    if i == |chain| then None
    else if chain[i] == "A" then Some(i)
    else Closest(chain, i + 1)
  }
}

=== FILE: lists.dfy ===
/** The two list plugins' structural edits, over a small element tree:
    a list holds items (and, after the top-level exit as written, stray
    paragraphs); an item holds text, line breaks, inline elements and
    nested lists. The caret is a path from an item down to a text node. */
module Lists {
  import opened Wrappers
  import opened Text
  import opened Seqs

  datatype ListTag = UL | OL

  /** A child node of an item or a paragraph. */
  datatype Part =
    | TextNode(s: string)
    | Br
    | Elem(name: string, kids: seq<Part>)
    | Nested(list: List)

  /** One declaration of an inline style: `property: value`. */
  datatype Decl = Decl(property: string, value: string)

  /** `attrs` holds the list element's attributes by name, except `style`,
      which is held parsed, as its declarations in order. */
  datatype List = List(tag: ListTag, attrs: map<string, string>, style: seq<Decl>, children: seq<Child>)

  /** A child element of a list. */
  datatype Child = Li(parts: seq<Part>) | Para(parts: seq<Part>)

  /** A top-level block of the editable area. */
  datatype Block = P(parts: seq<Part>) | ListBlock(list: List)

  // ---------------------------------------------------------------- text

  /** `textContent`. */
  function PartText(p: Part): string {
    match p
    case TextNode(s) => s
    case Br => ""
    case Elem(_, kids) => PartsText(kids)
    case Nested(l) => ChildrenText(l.children)
  }

  function PartsText(ps: seq<Part>): string {
    if |ps| == 0 then "" else PartText(ps[0]) + PartsText(ps[1..])
  }

  function ChildrenText(cs: seq<Child>): string {
    if |cs| == 0 then "" else PartsText(cs[0].parts) + ChildrenText(cs[1..])
  }

  lemma {:induction false} PartsTextAppend(a: seq<Part>, b: seq<Part>)
    ensures PartsText(a + b) == PartsText(a) + PartsText(b)
    decreases |a|
  {
    if |a| == 0 {
      assert a + b == b;
    } else {
      assert (a + b)[0] == a[0];
      assert (a + b)[1..] == a[1..] + b;
      PartsTextAppend(a[1..], b);
    }
  }

  const ZeroWidthSpace: char := '\U{200B}'

  /** `replace(/\u200B/g, '')`. */
  function StripZeroWidth(s: string): (r: string)
    ensures ZeroWidthSpace !in r
    ensures forall c :: c in r <==> c in s && c != ZeroWidthSpace
    ensures multiset(r) == multiset(s)[ZeroWidthSpace := 0]
    ensures ZeroWidthSpace !in s ==> r == s
  {
    if |s| == 0 then ""
    else
      assert s == [s[0]] + s[1..];
      if s[0] == ZeroWidthSpace then StripZeroWidth(s[1..])
      else [s[0]] + StripZeroWidth(s[1..])
  }

  /** The replacement works piecewise: stripping a concatenation strips
      each part in place, so the characters kept stay in their order. */
  lemma {:induction false} StripZeroWidthAppend(a: string, b: string)
    ensures StripZeroWidth(a + b) == StripZeroWidth(a) + StripZeroWidth(b)
  {
    if |a| == 0 {
      assert a + b == b;
    } else {
      assert (a + b)[0] == a[0];
      assert (a + b)[1..] == a[1..] + b;
      StripZeroWidthAppend(a[1..], b);
    }
  }

  /** The ordered-list plugin's emptiness test: no visible character once
      zero-width spaces are dropped and white space is trimmed. Its
      `<br>` comparisons can only confirm what the text test decided. */
  predicate ListItemEmpty(parts: seq<Part>) {
    Trim(StripZeroWidth(PartsText(parts))) == ""
  }

  /** The bullet-list plugin's emptiness test: trimmed text is empty, or
      the markup is exactly one line break. */
  predicate BulletItemEmpty(parts: seq<Part>) {
    Trim(PartsText(parts)) == "" || parts == [Br]
  }

  predicate SpaceOrZeroWidth(t: string) {
    forall k :: 0 <= k < |t| ==> IsJsSpace(t[k]) || t[k] == ZeroWidthSpace
  }

  lemma StripTrimEmpty(t: string)
    ensures Trim(StripZeroWidth(t)) == "" <==> SpaceOrZeroWidth(t)
  {
    var u := StripZeroWidth(t);
    TrimEmptyIffAllSpace(u);
    if AllSpace(u) {
      forall k | 0 <= k < |t| && t[k] != ZeroWidthSpace
        ensures IsJsSpace(t[k])
      {
        assert t[k] in u;
      }
    } else {
      var k :| 0 <= k < |u| && !IsJsSpace(u[k]);
      assert u[k] in u;
      var k2 :| 0 <= k2 < |t| && t[k2] == u[k];
      assert !(IsJsSpace(t[k2]) || t[k2] == ZeroWidthSpace);
    }
  }

  /** An item is empty for the ordered-list plugin exactly when every
      character of its text is white space or a zero-width space. */
  lemma ListItemEmptyIff(parts: seq<Part>)
    ensures ListItemEmpty(parts) <==> SpaceOrZeroWidth(PartsText(parts))
  {
    StripTrimEmpty(PartsText(parts));
  }

  /** The bullet-list plugin's line-break test is redundant: an item is
      empty for it exactly when its text is all white space. */
  lemma BulletItemEmptyIff(parts: seq<Part>)
    ensures BulletItemEmpty(parts) <==> AllSpace(PartsText(parts))
  {
    TrimEmptyIffAllSpace(PartsText(parts));
    if parts == [Br] {
      LoneBreakText();
    }
  }

  lemma LoneBreakText()
    ensures PartsText([Br]) == ""
  {
    assert [Br][1..] == [];
  }

  /** Every item the bullet-list plugin finds empty, the ordered-list
      plugin finds empty too. */
  lemma BulletEmptyIsListEmpty(parts: seq<Part>)
    requires BulletItemEmpty(parts)
    ensures ListItemEmpty(parts)
  {
    BulletItemEmptyIff(parts);
    ListItemEmptyIff(parts);
    assert SpaceOrZeroWidth(PartsText(parts));
  }

  // --------------------------------------------------------------- caret

  /** `path` leads from an item's children through inline elements to a
      text node, and `offset` lies within that text. */
  predicate TextPath(parts: seq<Part>, path: seq<nat>, offset: nat)
    decreases |path|
  {
    |path| > 0 && path[0] < |parts| &&
    if |path| == 1 then parts[path[0]].TextNode? && offset <= |parts[path[0]].s|
    else parts[path[0]].Elem? && TextPath(parts[path[0]].kids, path[1..], offset)
  }

  /** The text between the start of the item and the caret. */
  function TextBefore(parts: seq<Part>, path: seq<nat>, offset: nat): string
    requires TextPath(parts, path, offset)
    decreases |path|
  {
    PartsText(parts[..path[0]]) +
    if |path| == 1 then parts[path[0]].s[..offset]
    else TextBefore(parts[path[0]].kids, path[1..], offset)
  }

  /** The ordered-list plugin's test, on the text before the caret:
      nothing but white space, as `replace(/\s+/g, '') === ''` checks. */
  predicate ListCaretAtStart(before: string) {
    AllSpace(before)
  }

  /** The bullet-list plugin's test as written: a collapsed caret at offset
      0 of a text node, with no previous sibling on the elements between
      that text node and the item. The text node's own previous sibling
      is never looked at. */
  predicate BulletCaretAtStartAsWritten(parts: seq<Part>, path: seq<nat>, offset: nat, collapsed: bool)
    requires TextPath(parts, path, offset)
  {
    collapsed && offset == 0 && forall k :: 0 <= k < |path| - 1 ==> path[k] == 0
  }

  /** The test with the text node included in the sibling walk. */
  predicate BulletCaretAtStart(parts: seq<Part>, path: seq<nat>, offset: nat, collapsed: bool)
    requires TextPath(parts, path, offset)
  {
    collapsed && offset == 0 && forall k :: 0 <= k < |path| ==> path[k] == 0
  }

  /** The corrected test is sound: when it holds, no text precedes the
      caret inside the item, so the ordered-list plugin agrees. */
  lemma {:induction false} BulletCaretAtStartSound(parts: seq<Part>, path: seq<nat>, offset: nat, collapsed: bool)
    requires TextPath(parts, path, offset)
    requires BulletCaretAtStart(parts, path, offset, collapsed)
    ensures TextBefore(parts, path, offset) == ""
    ensures ListCaretAtStart(TextBefore(parts, path, offset))
    decreases |path|
  {
    assert parts[..path[0]] == [];
    if |path| > 1 {
      var rest := path[1..];
      assert forall k :: 0 <= k < |rest| ==> rest[k] == path[k + 1];
      BulletCaretAtStartSound(parts[path[0]].kids, rest, offset, collapsed);
    }
  }

  /** The test as written accepts a caret that has text before it: in
      `<li><b>x</b>y</li>`, the start of "y" counts as the start of the
      item although "x" precedes it. */
  lemma BulletCaretAtStartAsWrittenUnsound()
    ensures var parts := [Elem("b", [TextNode("x")]), TextNode("y")];
      TextPath(parts, [1], 0) &&
      BulletCaretAtStartAsWritten(parts, [1], 0, true) &&
      TextBefore(parts, [1], 0) == "x" &&
      !BulletCaretAtStart(parts, [1], 0, true)
  {
    var parts := [Elem("b", [TextNode("x")]), TextNode("y")];
    assert parts[..1] == [parts[0]];
    assert PartsText(parts[..1]) == PartText(parts[0]) + PartsText([]);
    assert PartText(parts[0]) == PartsText([TextNode("x")]);
    assert PartsText([TextNode("x")]) == "x" + PartsText([]);
  }

  // ------------------------------------------------------------ counting

  /** The number of list items in a subtree. */
  function PartItems(p: Part): nat {
    match p
    case TextNode(_) => 0
    case Br => 0
    case Elem(_, kids) => PartsItems(kids)
    case Nested(l) => ChildrenItems(l.children)
  }

  function PartsItems(ps: seq<Part>): nat {
    if |ps| == 0 then 0 else PartItems(ps[0]) + PartsItems(ps[1..])
  }

  function ChildItems(c: Child): nat {
    (if c.Li? then 1 else 0) + PartsItems(c.parts)
  }

  function ChildrenItems(cs: seq<Child>): nat {
    if |cs| == 0 then 0 else ChildItems(cs[0]) + ChildrenItems(cs[1..])
  }

  lemma {:induction false} PartsItemsAppend(a: seq<Part>, b: seq<Part>)
    ensures PartsItems(a + b) == PartsItems(a) + PartsItems(b)
    decreases |a|
  {
    if |a| == 0 {
      assert a + b == b;
    } else {
      assert (a + b)[0] == a[0];
      assert (a + b)[1..] == a[1..] + b;
      PartsItemsAppend(a[1..], b);
    }
  }

  lemma {:induction false} ChildrenItemsAppend(a: seq<Child>, b: seq<Child>)
    ensures ChildrenItems(a + b) == ChildrenItems(a) + ChildrenItems(b)
    decreases |a|
  {
    if |a| == 0 {
      assert a + b == b;
    } else {
      assert (a + b)[0] == a[0];
      assert (a + b)[1..] == a[1..] + b;
      ChildrenItemsAppend(a[1..], b);
    }
  }

  lemma PartsItemsSplit(ps: seq<Part>, k: nat)
    requires k < |ps|
    ensures PartsItems(ps) == PartsItems(ps[..k]) + PartItems(ps[k]) + PartsItems(ps[k + 1..])
  {
    calc {
      PartsItems(ps);
      == { SplitAt(ps, k); }
      PartsItems(ps[..k] + [ps[k]] + ps[k + 1..]);
      == { PartsItemsAppend(ps[..k] + [ps[k]], ps[k + 1..]); }
      PartsItems(ps[..k] + [ps[k]]) + PartsItems(ps[k + 1..]);
      == { PartsItemsAppend(ps[..k], [ps[k]]); assert [ps[k]][1..] == []; }
      PartsItems(ps[..k]) + PartItems(ps[k]) + PartsItems(ps[k + 1..]);
    }
  }

  lemma ChildrenItemsSplit(cs: seq<Child>, k: nat)
    requires k < |cs|
    ensures ChildrenItems(cs) == ChildrenItems(cs[..k]) + ChildItems(cs[k]) + ChildrenItems(cs[k + 1..])
  {
    calc {
      ChildrenItems(cs);
      == { SplitAt(cs, k); }
      ChildrenItems(cs[..k] + [cs[k]] + cs[k + 1..]);
      == { ChildrenItemsAppend(cs[..k] + [cs[k]], cs[k + 1..]); }
      ChildrenItems(cs[..k] + [cs[k]]) + ChildrenItems(cs[k + 1..]);
      == { ChildrenItemsAppend(cs[..k], [cs[k]]); assert [cs[k]][1..] == []; }
      ChildrenItems(cs[..k]) + ChildItems(cs[k]) + ChildrenItems(cs[k + 1..]);
    }
  }

  lemma PartsItemsUpdate(ps: seq<Part>, k: nat, x: Part)
    requires k < |ps|
    ensures PartsItems(ps[k := x]) + PartItems(ps[k]) == PartsItems(ps) + PartItems(x)
  {
    PartsItemsSplit(ps, k);
    PartsItemsSplit(ps[k := x], k);
    assert ps[k := x][..k] == ps[..k];
    assert ps[k := x][k + 1..] == ps[k + 1..];
  }

  // -------------------------------------------------------------- indent

  predicate IsSublist(p: Part, tag: ListTag) {
    p.Nested? && p.list.tag == tag
  }

  /** `Array.from(prev.children).find(c => c.tagName === listTag)`. */
  function FirstSublist(ps: seq<Part>, tag: ListTag): (r: Option<nat>)
    ensures r.Some? ==> r.value < |ps| && IsSublist(ps[r.value], tag)
    ensures r.Some? ==> forall k :: 0 <= k < r.value ==> !IsSublist(ps[k], tag)
    ensures r.None? ==> forall k :: 0 <= k < |ps| ==> !IsSublist(ps[k], tag)
  {
    if |ps| == 0 then None
    else if IsSublist(ps[0], tag) then Some(0)
    else match FirstSublist(ps[1..], tag)
      case None => None
      case Some(k) => Some(k + 1)
  }

  function WithParts(c: Child, ps: seq<Part>): (r: Child)
    ensures r.Li? == c.Li? && r.parts == ps
  {
    if c.Li? then Li(ps) else Para(ps)
  }

  /** `prev`'s first sublist of the given kind with the item appended, or
      `prev` with a new sublist holding just the item. */
  function AppendToSublist(prev: Child, tag: ListTag, item: Child): Child {
    match FirstSublist(prev.parts, tag)
    case Some(k) =>
      var sub := prev.parts[k].list;
      WithParts(prev, prev.parts[k := Nested(sub.(children := sub.children + [item]))])
    case None =>
      WithParts(prev, prev.parts + [Nested(List(tag, map[], [], [item]))])
  }

  /** `indentListItem`: the item at `i` moves into its previous sibling;
      the first item stays where it is. */
  function Indent(l: List, i: nat): (r: List)
    requires i < |l.children| && l.children[i].Li?
    ensures i == 0 ==> r == l
    ensures r.tag == l.tag && r.attrs == l.attrs
    ensures i > 0 ==> |r.children| == |l.children| - 1
    ensures i > 0 ==> r.children[..i - 1] == l.children[..i - 1] && r.children[i..] == l.children[i + 1..]
  {
    if i == 0 then l
    else
      var prev' := AppendToSublist(l.children[i - 1], l.tag, l.children[i]);
      l.(children := l.children[..i - 1] + [prev'] + l.children[i + 1..])
  }

  /** The indented item ends up last in the previous sibling's first
      sublist of the same kind, created there when it was missing. */
  lemma IndentPlacesItem(l: List, i: nat)
    requires 0 < i < |l.children| && l.children[i].Li?
    ensures var prev := l.children[i - 1];
      var prev' := Indent(l, i).children[i - 1];
      var k := FirstSublist(prev.parts, l.tag);
      prev'.Li? == prev.Li? &&
      (k.Some? ==> |prev'.parts| == |prev.parts| && prev'.parts[k.value].Nested? &&
                   prev'.parts[k.value].list.children == prev.parts[k.value].list.children + [l.children[i]]) &&
      (k.None? ==> prev'.parts == prev.parts + [Nested(List(l.tag, map[], [], [l.children[i]]))])
  {
    var r := Indent(l, i);
    assert r.children[i - 1] == AppendToSublist(l.children[i - 1], l.tag, l.children[i]);
  }

  lemma AppendToSublistItems(prev: Child, tag: ListTag, item: Child)
    ensures ChildItems(AppendToSublist(prev, tag, item)) == ChildItems(prev) + ChildItems(item)
  {
    match FirstSublist(prev.parts, tag)
    case Some(k) =>
      var sub := prev.parts[k].list;
      var x := Nested(sub.(children := sub.children + [item]));
      PartsItemsUpdate(prev.parts, k, x);
      ChildrenItemsAppend(sub.children, [item]);
      assert ChildrenItems([item]) == ChildItems(item) + ChildrenItems([]);
    case None =>
      var x := Nested(List(tag, map[], [], [item]));
      PartsItemsAppend(prev.parts, [x]);
      assert PartsItems([x]) == PartItems(x) + PartsItems([]);
      assert ChildrenItems([item]) == ChildItems(item) + ChildrenItems([]);
  }

  /** Indenting moves an item without losing or duplicating any item. */
  lemma IndentKeepsItems(l: List, i: nat)
    requires i < |l.children| && l.children[i].Li?
    ensures ChildrenItems(Indent(l, i).children) == ChildrenItems(l.children)
  {
    if i > 0 {
      var cs := l.children;
      var prev' := AppendToSublist(cs[i - 1], l.tag, cs[i]);
      assert Indent(l, i).children == cs[..i - 1] + [prev'] + cs[i + 1..];
      calc {
        ChildrenItems(cs[..i - 1] + [prev'] + cs[i + 1..]);
        == { ChildrenItems3(cs[..i - 1], prev', cs[i + 1..]); }
        ChildrenItems(cs[..i - 1]) + ChildItems(prev') + ChildrenItems(cs[i + 1..]);
        == { AppendToSublistItems(cs[i - 1], l.tag, cs[i]); }
        ChildrenItems(cs[..i - 1]) + ChildItems(cs[i - 1]) + ChildItems(cs[i]) + ChildrenItems(cs[i + 1..]);
        == { ChildrenItemsSplit(cs[..i], i - 1); assert cs[..i][..i - 1] == cs[..i - 1]; assert cs[..i][i..] == []; }
        ChildrenItems(cs[..i]) + ChildItems(cs[i]) + ChildrenItems(cs[i + 1..]);
        == { ChildrenItemsSplit(cs, i); }
        ChildrenItems(cs);
      }
    }
  }

  lemma ChildrenItems3(a: seq<Child>, x: Child, b: seq<Child>)
    ensures ChildrenItems(a + [x] + b) == ChildrenItems(a) + ChildItems(x) + ChildrenItems(b)
  {
    ChildrenItemsAppend(a + [x], b);
    ChildrenItemsAppend(a, [x]);
    assert [x][1..] == [];
  }


  // ------------------------------------------------------------- outdent

  /** The nested item at `j` of sublist `k` of item `p` of the list. */
  predicate NestedAt(g: List, p: nat, k: nat, j: nat) {
    p < |g.children| && g.children[p].Li? && k < |g.children[p].parts| &&
    g.children[p].parts[k].Nested? && j < |g.children[p].parts[k].list.children| &&
    g.children[p].parts[k].list.children[j].Li?
  }

  /** `outdentListItem` on a nested item: it leaves its sublist, which is
      dropped once empty, and lands right after its parent item. */
  function Outdent(g: List, p: nat, k: nat, j: nat): (r: List)
    requires NestedAt(g, p, k, j)
    ensures r.tag == g.tag && r.attrs == g.attrs
    ensures |r.children| == |g.children| + 1
    ensures r.children[..p] == g.children[..p] && r.children[p + 2..] == g.children[p + 1..]
    ensures r.children[p + 1] == g.children[p].parts[k].list.children[j]
  {
    var parent := g.children[p];
    var sub := parent.parts[k].list;
    var rest := sub.children[..j] + sub.children[j + 1..];
    var parent' :=
      if |rest| == 0 then Li(parent.parts[..k] + parent.parts[k + 1..])
      else Li(parent.parts[k := Nested(sub.(children := rest))]);
    g.(children := g.children[..p] + [parent', sub.children[j]] + g.children[p + 1..])
  }

  /** The sublist disappears exactly when the outdented item was its only
      child; otherwise it keeps its other children in order. */
  lemma OutdentDropsEmptySublist(g: List, p: nat, k: nat, j: nat)
    requires NestedAt(g, p, k, j)
    ensures var parent := g.children[p];
      var sub := parent.parts[k].list;
      var parent' := Outdent(g, p, k, j).children[p];
      (|sub.children| == 1 ==> parent'.parts == parent.parts[..k] + parent.parts[k + 1..]) &&
      (|sub.children| > 1 ==> parent'.parts == parent.parts[k := Nested(sub.(children := sub.children[..j] + sub.children[j + 1..]))])
  {
  }

  /** Outdenting moves an item without losing or duplicating any item. */
  lemma OutdentKeepsItems(g: List, p: nat, k: nat, j: nat)
    requires NestedAt(g, p, k, j)
    ensures ChildrenItems(Outdent(g, p, k, j).children) == ChildrenItems(g.children)
  {
    var cs := g.children;
    var parent := cs[p];
    var sub := parent.parts[k].list;
    var item := sub.children[j];
    var rest := sub.children[..j] + sub.children[j + 1..];
    ChildrenItemsSplit(sub.children, j);
    ChildrenItemsAppend(sub.children[..j], sub.children[j + 1..]);
    PartsItemsSplit(parent.parts, k);
    var parent' := Outdent(g, p, k, j).children[p];
    if |rest| == 0 {
      PartsItemsAppend(parent.parts[..k], parent.parts[k + 1..]);
      assert ChildItems(parent') + ChildItems(item) == ChildItems(parent);
    } else {
      PartsItemsUpdate(parent.parts, k, Nested(sub.(children := rest)));
      assert ChildItems(parent') + ChildItems(item) == ChildItems(parent);
    }
    var r := Outdent(g, p, k, j).children;
    ChildrenItemsSplit(cs, p);
    assert r == cs[..p] + [parent', item] + cs[p + 1..];
    ChildrenItemsAppend(cs[..p] + [parent', item], cs[p + 1..]);
    ChildrenItemsAppend(cs[..p], [parent', item]);
    assert [parent', item][1..] == [item];
    assert ChildrenItems([item]) == ChildItems(item) + ChildrenItems([]);
  }

  /** Where `Indent` puts the item inside the previous sibling: which part
      holds the sublist, and the item's index in it. */
  function IndentSlot(prev: Child, tag: ListTag): (nat, nat) {
    match FirstSublist(prev.parts, tag)
    case Some(k) => (k, |prev.parts[k].list.children|)
    case None => (|prev.parts|, 0)
  }

  /** Indenting an item and outdenting it again gives back the list, unless
      the previous item held an empty sublist of the same kind (outdent
      then removes that sublist). */
  lemma IndentThenOutdent(l: List, i: nat)
    requires 0 < i < |l.children| && l.children[i].Li? && l.children[i - 1].Li?
    requires var f := FirstSublist(l.children[i - 1].parts, l.tag);
      f.Some? ==> |l.children[i - 1].parts[f.value].list.children| > 0
    ensures var (k, j) := IndentSlot(l.children[i - 1], l.tag);
      NestedAt(Indent(l, i), i - 1, k, j) && Outdent(Indent(l, i), i - 1, k, j) == l
  {
    var cs := l.children;
    var prev := cs[i - 1];
    var item := cs[i];
    var (k, j) := IndentSlot(prev, l.tag);
    var m := Indent(l, i);
    var prev' := AppendToSublist(prev, l.tag, item);
    assert m.children[i - 1] == prev';
    var o := Outdent(m, i - 1, k, j);
    match FirstSublist(prev.parts, l.tag) {
      case Some(f) =>
        var sub := prev.parts[f].list;
        var sub' := sub.(children := sub.children + [item]);
        assert prev'.parts[k] == Nested(sub');
        assert sub'.children[..j] + sub'.children[j + 1..] == sub.children;
        assert sub'.(children := sub.children) == sub;
        assert prev'.parts[k := Nested(sub)] == prev.parts;
      case None =>
        assert prev'.parts[..k] + prev'.parts[k + 1..] == prev.parts;
    }
    assert o.children[i - 1] == prev;
    assert o.children == cs[..i - 1] + [prev, item] + cs[i + 1..];
    assert cs == cs[..i - 1] + [prev, item] + cs[i + 1..];
  }

  // ---------------------------------------------------- top-level exit

  /** Every child of the list is an item. */
  predicate AllItems(l: List) {
    forall k :: 0 <= k < |l.children| ==> l.children[k].Li?
  }

  /** Every top-level list holds at least one child and only items. */
  predicate WellFormedBlocks(bs: seq<Block>) {
    forall b :: b in bs && b.ListBlock? ==> |b.list.children| > 0 && AllItems(b.list)
  }

  /** The top-level exit as written (Backspace in both plugins, and the
      bullet plugin's top-level outdent): a paragraph is inserted before
      the item inside the same list, the item is removed, and the list is
      removed if it has no child left. `keep` says whether the paragraph
      takes over the item's markup. */
  function ExitInPlace(l: List, i: nat, keep: bool): (r: Option<List>)
    requires i < |l.children| && l.children[i].Li?
    ensures r.Some? && r.value.tag == l.tag && |r.value.children| == |l.children|
    ensures r.Some? ==> r.value.children[i] == Para(if keep then l.children[i].parts else [])
    ensures r.Some? ==> forall k :: 0 <= k < |l.children| && k != i ==> r.value.children[k] == l.children[k]
    ensures r.Some? ==> r.value.attrs == l.attrs && r.value.style == l.style
  {
    var children := l.children[i := Para(if keep then l.children[i].parts else [])];
    if |children| == 0 then None else Some(l.(children := children))
  }

  /** As written, the list is never removed and always ends up holding a
      paragraph: exiting the only item of `<ul><li><br></li></ul>` leaves
      `<ul><p></p></ul>`, a list without items. */
  lemma ExitInPlaceLeavesItemlessList()
    ensures var l := List(UL, map[], [], [Li([Br])]);
      ExitInPlace(l, 0, false) == Some(List(UL, map[], [], [Para([])])) &&
      ChildrenItems(ExitInPlace(l, 0, false).value.children) == 0 &&
      !AllItems(ExitInPlace(l, 0, false).value)
  {
    var l := List(UL, map[], [], [Li([Br])]);
    assert l.children[0 := Para([])] == [Para([])];
    var c := [Para([])];
    assert ChildrenItems(c) == ChildItems(Para([])) + ChildrenItems([]);
  }

  /** The exit as evidently intended: the item becomes a top-level
      paragraph between what is left of its list before and after it,
      and a side left without items disappears. */
  function ExitList(bs: seq<Block>, d: nat, i: nat, keep: bool): (r: seq<Block>)
    requires d < |bs| && bs[d].ListBlock? && i < |bs[d].list.children| && bs[d].list.children[i].Li?
    ensures |bs[d].list.children| == 1 ==>
      r == bs[..d] + [P(if keep then bs[d].list.children[i].parts else [])] + bs[d + 1..]
    ensures P(if keep then bs[d].list.children[i].parts else []) in r
  {
    var l := bs[d].list;
    var before := l.children[..i];
    var after := l.children[i + 1..];
    bs[..d]
    + (if |before| == 0 then [] else [ListBlock(l.(children := before))])
    + [P(if keep then l.children[i].parts else [])]
    + (if |after| == 0 then [] else [ListBlock(l.(children := after))])
    + bs[d + 1..]
  }

  /** The intended exit keeps every top-level list non-empty and made of
      items only. */
  lemma ExitListWellFormed(bs: seq<Block>, d: nat, i: nat, keep: bool)
    requires d < |bs| && bs[d].ListBlock? && i < |bs[d].list.children| && bs[d].list.children[i].Li?
    requires WellFormedBlocks(bs)
    ensures WellFormedBlocks(ExitList(bs, d, i, keep))
  {
    var l := bs[d].list;
    var r := ExitList(bs, d, i, keep);
    assert bs[d] in bs;
    forall b | b in r && b.ListBlock?
      ensures |b.list.children| > 0 && AllItems(b.list)
    {
      if b in bs[..d] || b in bs[d + 1..] {
        assert b in bs;
      } else if b == ListBlock(l.(children := l.children[..i])) {
        assert forall k :: 0 <= k < i ==> l.children[..i][k] == l.children[k];
      } else {
        var after := l.children[i + 1..];
        forall k | 0 <= k < |after|
          ensures after[k].Li?
        {
          assert after[k] == l.children[i + 1 + k];
        }
      }
    }
  }

  function BlockText(b: Block): string {
    match b
    case P(ps) => PartsText(ps)
    case ListBlock(l) => ChildrenText(l.children)
  }

  function BlocksText(bs: seq<Block>): string {
    if |bs| == 0 then "" else BlockText(bs[0]) + BlocksText(bs[1..])
  }

  lemma {:induction false} BlocksTextAppend(a: seq<Block>, b: seq<Block>)
    ensures BlocksText(a + b) == BlocksText(a) + BlocksText(b)
    decreases |a|
  {
    if |a| == 0 {
      assert a + b == b;
    } else {
      assert (a + b)[0] == a[0];
      assert (a + b)[1..] == a[1..] + b;
      BlocksTextAppend(a[1..], b);
    }
  }

  lemma {:induction false} ChildrenTextAppend(a: seq<Child>, b: seq<Child>)
    ensures ChildrenText(a + b) == ChildrenText(a) + ChildrenText(b)
    decreases |a|
  {
    if |a| == 0 {
      assert a + b == b;
    } else {
      assert (a + b)[0] == a[0];
      assert (a + b)[1..] == a[1..] + b;
      ChildrenTextAppend(a[1..], b);
    }
  }

  /** Text of a side of the split: nothing when the side is dropped. */
  lemma {:induction false} SideText(l: List, side: seq<Child>)
    ensures BlocksText(if |side| == 0 then [] else [ListBlock(l.(children := side))]) == ChildrenText(side)
  {
    if |side| > 0 {
      assert BlocksText([ListBlock(l.(children := side))]) == ChildrenText(side) + BlocksText([]);
    }
  }

  lemma {:induction false} BlocksTextSplit(bs: seq<Block>, d: nat)
    requires d < |bs|
    ensures BlocksText(bs) == BlocksText(bs[..d]) + BlockText(bs[d]) + BlocksText(bs[d + 1..])
  {
    calc {
      BlocksText(bs);
      == { SplitAt(bs, d); }
      BlocksText(bs[..d] + [bs[d]] + bs[d + 1..]);
      == { BlocksTextAppend(bs[..d] + [bs[d]], bs[d + 1..]); }
      BlocksText(bs[..d] + [bs[d]]) + BlocksText(bs[d + 1..]);
      == { BlocksTextAppend(bs[..d], [bs[d]]); OneBlockText(bs[d]); }
      BlocksText(bs[..d]) + BlockText(bs[d]) + BlocksText(bs[d + 1..]);
    }
  }

  lemma OneBlockText(b: Block)
    ensures BlocksText([b]) == BlockText(b)
  {
    assert [b][1..] == [];
  }

  lemma {:induction false} ChildrenTextSplit(cs: seq<Child>, i: nat)
    requires i < |cs|
    ensures ChildrenText(cs) == ChildrenText(cs[..i]) + PartsText(cs[i].parts) + ChildrenText(cs[i + 1..])
  {
    calc {
      ChildrenText(cs);
      == { SplitAt(cs, i); }
      ChildrenText(cs[..i] + [cs[i]] + cs[i + 1..]);
      == { ChildrenTextAppend(cs[..i] + [cs[i]], cs[i + 1..]); }
      ChildrenText(cs[..i] + [cs[i]]) + ChildrenText(cs[i + 1..]);
      == { ChildrenTextAppend(cs[..i], [cs[i]]); assert [cs[i]][1..] == []; }
      ChildrenText(cs[..i]) + PartsText(cs[i].parts) + ChildrenText(cs[i + 1..]);
    }
  }

  lemma {:induction false} BlocksText5(a: seq<Block>, b: seq<Block>, c: seq<Block>, d: seq<Block>, e: seq<Block>)
    ensures BlocksText(a + b + c + d + e) ==
      BlocksText(a) + BlocksText(b) + BlocksText(c) + BlocksText(d) + BlocksText(e)
  {
    BlocksTextAppend(a + b + c + d, e);
    BlocksTextAppend(a + b + c, d);
    BlocksTextAppend(a + b, c);
    BlocksTextAppend(a, b);
  }

  lemma Regroup<T>(a: seq<T>, b: seq<T>, c: seq<T>, d: seq<T>, e: seq<T>)
    ensures a + (b + c + d) + e == a + b + c + d + e
  {
  }

  lemma {:induction false} SplitText(pre: seq<Block>, sb: seq<Block>, parts: seq<Part>, sa: seq<Block>, post: seq<Block>,
                                     l: List, before: seq<Child>, after: seq<Child>)
    requires sb == if |before| == 0 then [] else [ListBlock(l.(children := before))]
    requires sa == if |after| == 0 then [] else [ListBlock(l.(children := after))]
    ensures BlocksText(pre + sb + [P(parts)] + sa + post) ==
      BlocksText(pre) + ChildrenText(before) + PartsText(parts) + ChildrenText(after) + BlocksText(post)
  {
    calc {
      BlocksText(pre + sb + [P(parts)] + sa + post);
      == { BlocksText5(pre, sb, [P(parts)], sa, post); }
      BlocksText(pre) + BlocksText(sb) + BlocksText([P(parts)]) + BlocksText(sa) + BlocksText(post);
      == { SideText(l, before); SideText(l, after); OneBlockText(P(parts)); }
      BlocksText(pre) + ChildrenText(before) + PartsText(parts) + ChildrenText(after) + BlocksText(post);
    }
  }

  lemma {:induction false} ExitListText(bs: seq<Block>, d: nat, i: nat)
    requires d < |bs| && bs[d].ListBlock? && i < |bs[d].list.children| && bs[d].list.children[i].Li?
    ensures var l := bs[d].list;
      BlocksText(ExitList(bs, d, i, true)) ==
        BlocksText(bs[..d]) + ChildrenText(l.children[..i]) + PartsText(l.children[i].parts) +
        ChildrenText(l.children[i + 1..]) + BlocksText(bs[d + 1..])
  {
    var l := bs[d].list;
    var before := l.children[..i];
    var after := l.children[i + 1..];
    var sb: seq<Block> := if |before| == 0 then [] else [ListBlock(l.(children := before))];
    var sa: seq<Block> := if |after| == 0 then [] else [ListBlock(l.(children := after))];
    assert ExitList(bs, d, i, true) == bs[..d] + sb + [P(l.children[i].parts)] + sa + bs[d + 1..];
    SplitText(bs[..d], sb, l.children[i].parts, sa, bs[d + 1..], l, before, after);
  }

  /** When the paragraph takes over the item's markup, the intended exit
      keeps the document's text, in order. */
  lemma {:induction false} ExitListKeepsText(bs: seq<Block>, d: nat, i: nat)
    requires d < |bs| && bs[d].ListBlock? && i < |bs[d].list.children| && bs[d].list.children[i].Li?
    ensures BlocksText(ExitList(bs, d, i, true)) == BlocksText(bs)
  {
    var l := bs[d].list;
    ExitListText(bs, d, i);
    ChildrenTextSplit(l.children, i);
    BlocksTextSplit(bs, d);
    Regroup(BlocksText(bs[..d]), ChildrenText(l.children[..i]), PartsText(l.children[i].parts),
            ChildrenText(l.children[i + 1..]), BlocksText(bs[d + 1..]));
  }

  // ------------------------------------------------------- key handling

  datatype ListEdit = NoEdit | IndentEdit | OutdentEdit | ExitEdit

  /** The keydown decision of both plugins, given whether the caret is in
      an item they handle, whether that item is nested in another item,
      and the emptiness and caret tests. Any edit prevents the default
      action; none happens for other keys. */
  function KeydownEdit(key: string, shift: bool, inItem: bool, nested: bool, empty: bool, atStart: bool): (r: ListEdit)
    ensures r != NoEdit ==> inItem
    ensures inItem && key == "Tab" ==> r == (if shift then OutdentEdit else IndentEdit)
    ensures key == "Backspace" ==> (r != NoEdit <==> inItem && (empty || atStart))
    ensures key == "Backspace" && r != NoEdit ==> r == (if nested then OutdentEdit else ExitEdit)
    ensures key != "Tab" && key != "Backspace" ==> r == NoEdit
  {
    if !inItem then NoEdit
    else if key == "Tab" then (if shift then OutdentEdit else IndentEdit)
    else if key == "Backspace" && (empty || atStart) then (if nested then OutdentEdit else ExitEdit)
    else NoEdit
  }

  /** An element on the way from the caret up to the editable area. */
  datatype Ancestor = Ancestor(tag: string, parentTag: string)

  /** The ordered-list plugin's lookup, `closest('li')`: the nearest item. */
  function ClosestItem(chain: seq<Ancestor>): (r: Option<nat>)
    ensures r.Some? ==> r.value < |chain| && chain[r.value].tag == "LI"
    ensures r.Some? ==> forall k :: 0 <= k < r.value ==> chain[k].tag != "LI"
    ensures r.None? ==> forall k :: 0 <= k < |chain| ==> chain[k].tag != "LI"
  {
    if |chain| == 0 then None
    else if chain[0].tag == "LI" then Some(0)
    else match ClosestItem(chain[1..])
      case None => None
      case Some(k) => Some(k + 1)
  }

  /** The bullet-list plugin's lookup: the nearest item whose parent is a
      bullet list. */
  function ClosestBulletItem(chain: seq<Ancestor>): (r: Option<nat>)
    ensures r.Some? ==> r.value < |chain| && chain[r.value].tag == "LI" && chain[r.value].parentTag == "UL"
    ensures r.Some? ==> forall k :: 0 <= k < r.value ==> !(chain[k].tag == "LI" && chain[k].parentTag == "UL")
    ensures r.None? ==> forall k :: 0 <= k < |chain| ==> !(chain[k].tag == "LI" && chain[k].parentTag == "UL")
  {
    if |chain| == 0 then None
    else if chain[0].tag == "LI" && chain[0].parentTag == "UL" then Some(0)
    else match ClosestBulletItem(chain[1..])
      case None => None
      case Some(k) => Some(k + 1)
  }

  /** The bullet plugin handles the ordered plugin's item exactly when that
      item sits in a bullet list; otherwise it looks further up, or finds
      nothing. */
  lemma ClosestItemsAgree(chain: seq<Ancestor>)
    ensures ClosestBulletItem(chain).Some? ==> ClosestItem(chain).Some?
    ensures ClosestBulletItem(chain).Some? ==> ClosestItem(chain).value <= ClosestBulletItem(chain).value
    ensures ClosestItem(chain).Some? && chain[ClosestItem(chain).value].parentTag == "UL" ==>
      ClosestBulletItem(chain) == ClosestItem(chain)
  {
  }

  // ------------------------------------------------ list type and style

  const OrderedStyles: seq<string> := ["decimal", "lower-alpha", "upper-alpha", "lower-roman", "upper-roman"]

  /** `mapOrderedType`: the HTML `type` value of an ordered list style. */
  function MapOrderedType(style: string): (r: Option<string>)
    ensures r.Some? <==> style in OrderedStyles
    ensures r.Some? ==> |r.value| == 1
  {
    if style == "decimal" then Some("1")
    else if style == "lower-alpha" then Some("a")
    else if style == "upper-alpha" then Some("A")
    else if style == "lower-roman" then Some("i")
    else if style == "upper-roman" then Some("I")
    else None
  }

  /** Different styles map to different `type` values. */
  lemma MapOrderedTypeInjective(a: string, b: string)
    requires MapOrderedType(a).Some? && MapOrderedType(a) == MapOrderedType(b)
    ensures a == b
  {
  }

  /** Declarations name each property at most once. */
  predicate ValidStyle(d: seq<Decl>) {
    forall i, j :: 0 <= i < j < |d| ==> d[i].property != d[j].property
  }

  /** `style.getPropertyValue(p)`, absent when not declared. */
  function GetProperty(d: seq<Decl>, p: string): (r: Option<string>)
    ensures r.Some? ==> Decl(p, r.value) in d
    ensures r.None? ==> forall k :: 0 <= k < |d| ==> d[k].property != p
  {
    if |d| == 0 then None
    else if d[0].property == p then Some(d[0].value)
    else GetProperty(d[1..], p)
  }

  /** `style.setProperty(p, v)` with a non-empty value: a declared
      property takes the value in place, any other is appended. */
  function SetProperty(d: seq<Decl>, p: string, v: string): (r: seq<Decl>)
    ensures |r| == if GetProperty(d, p).Some? then |d| else |d| + 1
  {
    if |d| == 0 then [Decl(p, v)]
    else if d[0].property == p then [Decl(p, v)] + d[1..]
    else [d[0]] + SetProperty(d[1..], p, v)
  }

  /** After setting `p`, reading `p` gives the new value and reading any
      other property gives what it gave before. */
  lemma {:induction false} SetThenGet(d: seq<Decl>, p: string, v: string, q: string)
    ensures GetProperty(SetProperty(d, p, v), q) == if q == p then Some(v) else GetProperty(d, q)
    decreases |d|
  {
    if |d| > 0 && d[0].property != p {
      SetThenGet(d[1..], p, v, q);
      assert SetProperty(d, p, v)[1..] == SetProperty(d[1..], p, v);
    }
  }

  /** Setting a property keeps every property declared once. */
  lemma {:induction false} SetKeepsValid(d: seq<Decl>, p: string, v: string)
    requires ValidStyle(d)
    ensures ValidStyle(SetProperty(d, p, v))
    decreases |d|
  {
    if |d| > 0 && d[0].property != p {
      SetKeepsValid(d[1..], p, v);
      var r := SetProperty(d, p, v);
      assert r[1..] == SetProperty(d[1..], p, v);
      forall k | 1 <= k < |r|
        ensures r[k].property != d[0].property
      {
        SetThenGet(d[1..], p, v, d[0].property);
        assert r[1..][k - 1] == r[k];
      }
    }
  }

  /** Setting a property twice to one value is setting it once. */
  lemma {:induction false} SetPropertyTwice(d: seq<Decl>, p: string, v: string)
    ensures SetProperty(SetProperty(d, p, v), p, v) == SetProperty(d, p, v)
    decreases |d|
  {
    if |d| > 0 && d[0].property != p {
      SetPropertyTwice(d[1..], p, v);
      var r := SetProperty(d, p, v);
      assert r[0] == d[0] && r[1..] == SetProperty(d[1..], p, v);
    }
  }

  /** `applyListStyle(list, type, style)`: `type` is always cleared first
      and set again only for an ordered list whose style maps, and the
      inline `list-style-type` is set for either kind when a style is
      given. */
  function ApplyListStyle(l: List, kind: string, style: string): (r: List)
    ensures "type" in r.attrs <==> kind == "ol" && style != "" && MapOrderedType(style).Some?
    ensures "type" in r.attrs ==> r.attrs["type"] == MapOrderedType(style).value
    ensures forall k :: k != "type" ==> (k in r.attrs <==> k in l.attrs)
    ensures forall k :: k != "type" && k in l.attrs ==> r.attrs[k] == l.attrs[k]
    ensures GetProperty(r.style, "list-style-type") ==
      if style != "" && (kind == "ul" || kind == "ol") then Some(style) else GetProperty(l.style, "list-style-type")
    ensures forall q :: q != "list-style-type" ==> GetProperty(r.style, q) == GetProperty(l.style, q)
    ensures ValidStyle(l.style) ==> ValidStyle(r.style)
    ensures r.tag == l.tag && r.children == l.children
  {
    var cleared := l.attrs - {"type"};
    if style == "" || (kind != "ul" && kind != "ol") then l.(attrs := cleared)
    else
      var t := if kind == "ol" then MapOrderedType(style) else None;
      SetKeepsValidIf(l.style, "list-style-type", style);
      SetGetAll(l.style, "list-style-type", style);
      l.(attrs := if t.Some? then cleared["type" := t.value] else cleared,
         style := SetProperty(l.style, "list-style-type", style))
  }

  lemma SetGetAll(d: seq<Decl>, p: string, v: string)
    ensures forall q :: GetProperty(SetProperty(d, p, v), q) == if q == p then Some(v) else GetProperty(d, q)
  {
    forall q ensures GetProperty(SetProperty(d, p, v), q) == if q == p then Some(v) else GetProperty(d, q) {
      SetThenGet(d, p, v, q);
    }
  }

  lemma SetKeepsValidIf(d: seq<Decl>, p: string, v: string)
    ensures ValidStyle(d) ==> ValidStyle(SetProperty(d, p, v))
  {
    if ValidStyle(d) {
      SetKeepsValid(d, p, v);
    }
  }

  /** Applying a style twice is applying it once. */
  lemma ApplyListStyleIdempotent(l: List, kind: string, style: string)
    ensures ApplyListStyle(ApplyListStyle(l, kind, style), kind, style) == ApplyListStyle(l, kind, style)
  {
    var once := ApplyListStyle(l, kind, style);
    var twice := ApplyListStyle(once, kind, style);
    if style != "" && (kind == "ul" || kind == "ol") {
      SetPropertyTwice(l.style, "list-style-type", style);
    }
    assert twice.attrs == once.attrs;
  }

  function TagName(t: ListTag): string {
    if t == UL then "ul" else "ol"
  }

  /** The attribute, when present and not empty. */
  function KeepAttr(attrs: map<string, string>, name: string): map<string, string> {
    if name in attrs && attrs[name] != "" then map[name := attrs[name]] else map[]
  }

  /** `convertListRoot`: a list of the other kind with the same children in
      the same order, carrying over only a non-empty `class` and the inline
      style. A style without declarations has nothing to copy. */
  function ConvertListRoot(l: List, toType: string): (r: Option<List>)
    ensures r.Some? <==> toType == "ul" || toType == "ol"
    ensures r.Some? ==> TagName(r.value.tag) == toType && r.value.children == l.children
    ensures r.Some? ==> forall k :: k in r.value.attrs ==> k == "class"
    ensures r.Some? ==> ("class" in r.value.attrs <==> "class" in l.attrs && l.attrs["class"] != "")
    ensures r.Some? && "class" in r.value.attrs ==> r.value.attrs["class"] == l.attrs["class"]
    ensures r.Some? ==> forall q :: GetProperty(r.value.style, q) == GetProperty(l.style, q)
  {
    if toType != "ul" && toType != "ol" then None
    else Some(List(if toType == "ul" then UL else OL, KeepAttr(l.attrs, "class"),
                   if |l.style| > 0 then l.style else [], l.children))
  }

  /** Converting a list whose only attribute is a non-empty class to
      either kind and back gives back the list, inline style included. */
  lemma ConvertListRootRoundTrip(l: List, toType: string)
    requires toType == "ul" || toType == "ol"
    requires forall k :: k in l.attrs ==> k == "class" && l.attrs[k] != ""
    ensures ConvertListRoot(ConvertListRoot(l, toType).value, TagName(l.tag)) == Some(l)
  {
    var m := ConvertListRoot(l, toType).value;
    var back := ConvertListRoot(m, TagName(l.tag)).value;
    assert back.attrs == l.attrs;
  }

  /** A list style picked for one kind survives converting the list to the
      other kind: the converted list shows the same `list-style-type`. */
  lemma StyleSurvivesConversion(l: List, kind: string, style: string, toType: string)
    requires style != "" && (kind == "ul" || kind == "ol")
    requires toType == "ul" || toType == "ol"
    ensures GetProperty(ConvertListRoot(ApplyListStyle(l, kind, style), toType).value.style, "list-style-type")
      == Some(style)
  {
  }
}

=== FILE: plugin.dfy ===
/** The base plugin contract: toolbar buttons, keyboard shortcuts and the
    enable gate every plugin inherits. Callbacks are opaque ids; the DOM
    button is reduced to whether it was attached to the toolbar. */
module Plugin {
  import opened Wrappers
  import opened Text

  type CallbackId = nat

  datatype PluginError = NoEditor | ButtonWithoutNameOrCallback

  /** A stored button: `element` becomes a flag saying whether it was
      mounted, and where. */
  datatype Mount = Detached | InGroup | InToolbar

  datatype Button = Button(name: string, icon: string, tooltip: string, callback: CallbackId,
                           className: string, mount: Mount)

  /** The `config` object given to `addButton`; an absent or falsy field is
      `None` (or "" for strings). */
  datatype ButtonConfig = ButtonConfig(name: string, icon: string, tooltip: string,
                                       callback: Option<CallbackId>, className: string)

  /** `shortcuts` maps a combination string to whatever was registered for
      it; `None` stands for a falsy handler. */
  datatype Plugin = Plugin(pluginName: string, instanceName: string, enabled: bool,
                           buttons: map<string, Button>, shortcuts: map<string, Option<CallbackId>>)

  /** `new Plugin(editor, instanceName)`; `instanceName || pluginName || name`. */
  function Construct(editorPresent: bool, instanceName: string, pluginName: string, className: string): (r: Result<Plugin, PluginError>)
    ensures r.Err? <==> !editorPresent
    ensures r.Ok? ==> r.value.enabled && r.value.buttons == map[] && r.value.shortcuts == map[]
    ensures r.Ok? ==> r.value.pluginName == pluginName
    ensures r.Ok? ==> r.value.instanceName in {instanceName, pluginName, className}
    ensures r.Ok? && instanceName != "" ==> r.value.instanceName == instanceName
    ensures r.Ok? && r.value.instanceName == "" ==> instanceName == pluginName == className == ""
  {
    if !editorPresent then Err(NoEditor)
    else
      var inst := if instanceName != "" then instanceName
                  else if pluginName != "" then pluginName else className;
      Ok(Plugin(pluginName, inst, true, map[], map[]))
  }

  /** `plugin.<pluginName>.<eventName>`, as `emitEvent` builds it. */
  function PluginEvent(pluginName: string, eventName: string): string {
    "plugin." + pluginName + "." + eventName
  }

  /** `enable()`: the flag and the event announcing it. */
  function Enable(p: Plugin): (r: (Plugin, string))
    ensures r.0 == p.(enabled := true)
    ensures r.1 == PluginEvent(p.pluginName, "enabled")
  {
    (p.(enabled := true), PluginEvent(p.pluginName, "enabled"))
  }

  /** `disable()`: buttons and shortcuts stay registered. */
  function Disable(p: Plugin): (r: (Plugin, string))
    ensures !r.0.enabled && r.0.buttons == p.buttons && r.0.shortcuts == p.shortcuts
    ensures r.0 == p.(enabled := false)
    ensures r.1 == PluginEvent(p.pluginName, "disabled")
  {
    (p.(enabled := false), PluginEvent(p.pluginName, "disabled"))
  }

  /** `addButton(config)`. With a toolbar the button goes into the action's
      configured group when the editor has one, else into the toolbar. */
  function AddButton(p: Plugin, cfg: ButtonConfig, toolbarPresent: bool, groupPresent: bool): (r: Result<Plugin, PluginError>)
    ensures r.Err? <==> cfg.name == "" || cfg.callback.None?
    ensures r.Ok? ==>
      && cfg.name in r.value.buttons
      && r.value.buttons[cfg.name].callback == cfg.callback.value
      && r.value.buttons.Keys == p.buttons.Keys + {cfg.name}
      && (forall n :: n in p.buttons && n != cfg.name ==> r.value.buttons[n] == p.buttons[n])
      && r.value == p.(buttons := r.value.buttons)
    ensures r.Ok? ==>
      (r.value.buttons[cfg.name].mount.Detached? <==> !toolbarPresent) &&
      (r.value.buttons[cfg.name].mount.InGroup? <==> toolbarPresent && groupPresent)
  {
    if cfg.name == "" || cfg.callback.None? then Err(ButtonWithoutNameOrCallback)
    else
      var mount := if !toolbarPresent then Detached else if groupPresent then InGroup else InToolbar;
      var b := Button(cfg.name, cfg.icon, cfg.tooltip, cfg.callback.value, cfg.className, mount);
      Ok(p.(buttons := p.buttons[cfg.name := b]))
  }

  /** `removeButton(name)`. */
  function RemoveButton(p: Plugin, name: string): (r: Plugin)
    ensures name !in r.buttons
    ensures forall n :: n in p.buttons && n != name ==> n in r.buttons && r.buttons[n] == p.buttons[n]
    ensures forall n :: n in r.buttons ==> n in p.buttons
    ensures r == p.(buttons := r.buttons)
  {
    p.(buttons := p.buttons - {name})
  }

  /** `addShortcut(keys, callback)`: a later registration replaces an
      earlier one for the same combination. */
  function AddShortcut(p: Plugin, keys: string, callback: Option<CallbackId>): (r: Plugin)
    ensures keys in r.shortcuts && r.shortcuts[keys] == callback
    ensures forall k :: k in p.shortcuts && k != keys ==> k in r.shortcuts && r.shortcuts[k] == p.shortcuts[k]
    ensures r.shortcuts.Keys == p.shortcuts.Keys + {keys}
    ensures r == p.(shortcuts := r.shortcuts)
  {
    p.(shortcuts := p.shortcuts[keys := callback])
  }

  /** `destroy()`: every button is removed, then both maps are cleared. */
  function Destroy(p: Plugin): (r: Plugin)
    ensures r.buttons == map[] && r.shortcuts == map[]
    ensures r.enabled == p.enabled && r.pluginName == p.pluginName
  {
    p.(buttons := map[], shortcuts := map[])
  }

  // ---------------------------------------------------------------------
  // Shortcuts

  datatype KeyEvent = KeyEvent(ctrlKey: bool, metaKey: bool, shiftKey: bool, altKey: bool, key: string)

  /** The "Ctrl" modifier: the Command key on a Mac, Control elsewhere. */
  function CtrlModifier(isMac: bool, ev: KeyEvent): bool {
    if isMac then ev.metaKey else ev.ctrlKey
  }

  /** The canonical combination string `handleShortcut` looks up. */
  function ShortcutString(isMac: bool, ev: KeyEvent): string {
    (if CtrlModifier(isMac, ev) then "Ctrl+" else "")
    + (if ev.shiftKey then "Shift+" else "")
    + (if ev.altKey then "Alt+" else "")
    + ToUpper(ev.key)
  }

  /** Removes `word` from the front of `s` when it is there. */
  function StripWord(s: string, word: string): (bool, string) {
    if StartsWith(s, word) then (true, s[|word|..]) else (false, s)
  }

  /** Reads a combination string back into its modifiers and key. */
  function ParseShortcut(s: string): (bool, bool, bool, string) {
    var (ctrl, s1) := StripWord(s, "Ctrl+");
    var (shift, s2) := StripWord(s1, "Shift+");
    var (alt, s3) := StripWord(s2, "Alt+");
    (ctrl, shift, alt, s3)
  }

  lemma StripPrefixed(word: string, rest: string)
    ensures StripWord(word + rest, word) == (true, rest)
  {
    assert (word + rest)[..|word|] == word;
    assert (word + rest)[|word|..] == rest;
  }

  lemma StripOther(s: string, word: string)
    requires |s| > 0 && |word| > 0 && s[0] != word[0]
    ensures StripWord(s, word) == (false, s)
  {
    if |word| <= |s| {
      assert s[..|word|][0] != word[0];
    }
  }

  /** An upper-cased key never begins with a word holding a lower-case
      letter in second place, as each modifier word does. */
  lemma UpperNotPrefixed(u: string, word: string)
    requires forall i :: 0 <= i < |u| ==> !IsLowerAscii(u[i])
    requires |word| >= 2 && IsLowerAscii(word[1])
    ensures !StartsWith(u, word)
  {
    if |word| <= |u| {
      assert u[..|word|][1] == u[1];
      assert u[..|word|][1] != word[1];
    }
  }

  lemma UpperNotModifier(u: string)
    requires forall i :: 0 <= i < |u| ==> !IsLowerAscii(u[i])
    ensures !StartsWith(u, "Ctrl+") && !StartsWith(u, "Shift+") && !StartsWith(u, "Alt+")
  {
    UpperNotPrefixed(u, "Ctrl+");
    UpperNotPrefixed(u, "Shift+");
    UpperNotPrefixed(u, "Alt+");
  }

  /** The combination string determines the modifiers and the upper-cased
      key: parsing it gives them back. */
  lemma {:induction false} ShortcutStringParses(isMac: bool, ev: KeyEvent)
    ensures ParseShortcut(ShortcutString(isMac, ev)) ==
      (CtrlModifier(isMac, ev), ev.shiftKey, ev.altKey, ToUpper(ev.key))
  {
    var u := ToUpper(ev.key);
    UpperNotModifier(u);
    ComposedParses(CtrlModifier(isMac, ev), ev.shiftKey, ev.altKey, u);
  }

  /** The three prefix strips undo the three prefix additions for any key
      that does not itself begin with a modifier word. */
  lemma ComposedParses(ctrl: bool, shift: bool, alt: bool, u: string)
    requires !StartsWith(u, "Ctrl+") && !StartsWith(u, "Shift+") && !StartsWith(u, "Alt+")
    ensures ParseShortcut((if ctrl then "Ctrl+" else "") + (if shift then "Shift+" else "")
                          + (if alt then "Alt+" else "") + u) == (ctrl, shift, alt, u)
  {
    var a := if alt then "Alt+" + u else u;
    var sa := if shift then "Shift+" + a else a;
    var s := if ctrl then "Ctrl+" + sa else sa;
    assert (if ctrl then "Ctrl+" else "") + (if shift then "Shift+" else "")
           + (if alt then "Alt+" else "") + u == s;
    assert StripWord(a, "Alt+") == (alt, u) by {
      if alt { StripPrefixed("Alt+", u); }
    }
    assert StripWord(a, "Shift+") == (false, a) by {
      if alt { StripOther(a, "Shift+"); }
    }
    assert StripWord(sa, "Shift+") == (shift, a) by {
      if shift { StripPrefixed("Shift+", a); }
    }
    assert StripWord(sa, "Ctrl+") == (false, sa) by {
      if shift { StripOther(sa, "Ctrl+"); }
      else if alt { StripOther(a, "Ctrl+"); }
    }
    assert StripWord(s, "Ctrl+") == (ctrl, sa) by {
      if ctrl { StripPrefixed("Ctrl+", sa); }
    }
  }

  /** Two key events select the same handler exactly when they agree on the
      modifiers and on the key up to ASCII case. */
  lemma ShortcutStringInjective(isMac: bool, e1: KeyEvent, e2: KeyEvent)
    ensures ShortcutString(isMac, e1) == ShortcutString(isMac, e2) <==>
      CtrlModifier(isMac, e1) == CtrlModifier(isMac, e2) && e1.shiftKey == e2.shiftKey &&
      e1.altKey == e2.altKey && ToUpper(e1.key) == ToUpper(e2.key)
  {
    ShortcutStringParses(isMac, e1);
    ShortcutStringParses(isMac, e2);
  }

  /** What a key event does to a plugin. */
  datatype ShortcutOutcome = NotHandled | Handled(callback: CallbackId)

  /** `handleShortcut(event)`: a handled event is default-prevented and its
      handler called. */
  function HandleShortcut(p: Plugin, isMac: bool, ev: KeyEvent): (r: ShortcutOutcome)
    ensures !p.enabled ==> r == NotHandled
    ensures r.Handled? <==>
      p.enabled && exists s :: s in p.shortcuts && p.shortcuts[s].Some? && s == ShortcutString(isMac, ev)
    ensures r.Handled? ==> p.shortcuts[ShortcutString(isMac, ev)] == Some(r.callback)
  {
    if !p.enabled then NotHandled
    else
      var s := ShortcutString(isMac, ev);
      if s in p.shortcuts && p.shortcuts[s].Some? then Handled(p.shortcuts[s].value) else NotHandled
  }

  /** A shortcut registered under the canonical string of an event is the
      one that event runs, until it is replaced or the plugin disabled. */
  lemma AddedShortcutHandles(p: Plugin, isMac: bool, ev: KeyEvent, cb: CallbackId)
    requires p.enabled
    ensures HandleShortcut(AddShortcut(p, ShortcutString(isMac, ev), Some(cb)), isMac, ev) == Handled(cb)
    ensures HandleShortcut(Disable(AddShortcut(p, ShortcutString(isMac, ev), Some(cb))).0, isMac, ev) == NotHandled
  {
  }

  // ---------------------------------------------------------------------
  // Button clicks

  /** What one click on a mounted button does. */
  datatype ClickOutcome = ClickOutcome(caretMovedToEnd: bool, called: Option<CallbackId>, selectionChangeEmitted: bool)

  /** The click listener: focus is ensured first (the caret moves to the end
      of the editable when the selection lies outside it), then the
      callback runs only while the plugin is enabled, and the selection
      change is emitted after it unless it throws, which leaves the
      listener before the emit. A button that is not mounted cannot be
      clicked. */
  function Click(p: Plugin, name: string, editablePresent: bool, selectionInside: bool, callbackThrows: bool): (r: Option<ClickOutcome>)
    ensures r.Some? <==> name in p.buttons && !p.buttons[name].mount.Detached?
    ensures r.Some? ==> (r.value.called.Some? <==> p.enabled)
    ensures r.Some? && p.enabled ==> r.value.called == Some(p.buttons[name].callback)
    ensures r.Some? ==> (r.value.caretMovedToEnd <==> editablePresent && !selectionInside)
    ensures r.Some? ==> (r.value.selectionChangeEmitted <==> p.enabled && !callbackThrows)
  {
    if name !in p.buttons || p.buttons[name].mount.Detached? then None
    else
      var moved := editablePresent && !selectionInside;
      if p.enabled then Some(ClickOutcome(moved, Some(p.buttons[name].callback), !callbackThrows))
      else Some(ClickOutcome(moved, None, false))
  }

  /** Disabling silences a button without removing it; enabling again
      restores the original behaviour. */
  lemma DisableSilencesButtons(p: Plugin, name: string, editablePresent: bool, selectionInside: bool, callbackThrows: bool)
    requires Click(p, name, editablePresent, selectionInside, callbackThrows).Some?
    ensures var q := Disable(p).0;
      Click(q, name, editablePresent, selectionInside, callbackThrows).Some? &&
      Click(q, name, editablePresent, selectionInside, callbackThrows).value.called.None?
    ensures Click(Enable(Disable(p).0).0, name, editablePresent, selectionInside, callbackThrows) ==
            Click(p.(enabled := true), name, editablePresent, selectionInside, callbackThrows)
  {
  }
}

=== FILE: registry.dfy ===
/** The plugin registry: name-keyed plugin classes with declared
    dependencies, a depth-first load-order resolver, and the
    initialise/destroy lifecycle. Constructors, `init` and `destroy` are
    foreign code, so their outcomes are supplied as oracles. */
module Registry {
  import opened Wrappers
  import opened Seqs
  import EventBus

  /** The value handed to `register`: a class, with its static
      `pluginName` ("" when absent), its own class name and its static
      `dependencies`, or anything that is not a function. */
  datatype ClassValue =
    | PluginClass(id: nat, pluginName: string, className: string, dependencies: seq<string>)
    | NotAFunction

  /** The descriptor stored per registered name. */
  datatype Descriptor<I> = Descriptor(cls: nat, name: string, dependencies: seq<string>, instance: Option<I>)

  datatype RegistryError =
    | NotAClass
    | Nameless
    | CircularDependency(name: string)
    | NotRegistered(name: string)
    | ConstructorFailed(name: string)
    | MissingInit(name: string)
    | InitFailed(name: string)

  /** `plugins` is an insertion-ordered `Map` whose key order is `order`;
      `initialized` is an insertion-ordered `Set`. */
  datatype Registry<I> = Registry(plugins: map<string, Descriptor<I>>, order: seq<string>, initialized: seq<string>)

  ghost predicate Valid<I>(reg: Registry<I>) {
    && NoDup(reg.order)
    && (forall n :: n in reg.plugins <==> n in reg.order)
    && (forall n :: n in reg.plugins ==> reg.plugins[n].name == n)
    && NoDup(reg.initialized)
    && (forall n :: n in reg.initialized ==> n in reg.plugins && reg.plugins[n].instance.Some?)
  }

  function Empty<I>(): (r: Registry<I>)
    ensures Valid(r) && r.plugins == map[] && r.initialized == []
  {
    Registry(map[], [], [])
  }

  /** `PluginClass.pluginName || PluginClass.name`. */
  function NameOf(c: ClassValue): string
    requires c.PluginClass?
  {
    if c.pluginName != "" then c.pluginName else c.className
  }

  function Register<I>(reg: Registry<I>, c: ClassValue): (r: Result<Registry<I>, RegistryError>)
    ensures c.NotAFunction? ==> r == Err(NotAClass)
    ensures c.PluginClass? && NameOf(c) == "" ==> r == Err(Nameless)
    ensures r.Ok? <==> c.PluginClass? && NameOf(c) != ""
    ensures r.Ok? && NameOf(c) in reg.plugins ==> r.value == reg
    ensures r.Ok? ==>
      && NameOf(c) in r.value.plugins
      && (forall n :: n in reg.plugins ==> n in r.value.plugins && r.value.plugins[n] == reg.plugins[n])
      && (forall n :: n in r.value.plugins ==> n in reg.plugins || n == NameOf(c))
      && r.value.initialized == reg.initialized
    ensures r.Ok? && NameOf(c) !in reg.plugins ==>
      && r.value.plugins[NameOf(c)] == Descriptor(c.id, NameOf(c), c.dependencies, None)
      && r.value.order == reg.order + [NameOf(c)]
    ensures Valid(reg) && r.Ok? ==> Valid(r.value)
  {
    if c.NotAFunction? then Err(NotAClass)
    else
      var name := NameOf(c);
      if name == "" then Err(Nameless)
      else if name in reg.plugins then Ok(reg)
      else
        Ok(Registry(reg.plugins[name := Descriptor(c.id, name, c.dependencies, None)],
                    reg.order + [name], reg.initialized))
  }

  /** `get(name)`: the descriptor, or null. */
  function Get<I>(reg: Registry<I>, name: string): (r: Option<Descriptor<I>>)
    ensures r.Some? <==> name in reg.plugins
    ensures r.Some? ==> r.value == reg.plugins[name]
  {
    if name in reg.plugins then Some(reg.plugins[name]) else None
  }

  // ---------------------------------------------------------------------
  // Load order

  /** `n` declares `d` as a dependency. */
  predicate DependsOn<I>(reg: Registry<I>, n: string, d: string) {
    n in reg.plugins && d in reg.plugins[n].dependencies
  }

  ghost predicate AllRegistered<I>(reg: Registry<I>, s: seq<string>) {
    forall i :: 0 <= i < |s| ==> s[i] in reg.plugins
  }

  /** Every dependency of an element occurs strictly before it. */
  ghost predicate DepsFirst<I>(reg: Registry<I>, s: seq<string>) {
    forall i, d :: 0 <= i < |s| && DependsOn(reg, s[i], d) ==> d in s[..i]
  }

  /** What the resolver's `resolved` list satisfies between steps. */
  ghost predicate Partial<I>(reg: Registry<I>, visiting: set<string>, acc: seq<string>) {
    && NoDup(acc)
    && AllRegistered(reg, acc)
    && DepsFirst(reg, acc)
    && (forall x :: x in acc ==> x !in visiting)
  }

  /** Every element of `s` from index `from` on was asked for, or is a
      dependency of an element of `s` or of a name being visited. */
  ghost predicate Grown<I>(reg: Registry<I>, s: seq<string>, from: nat, names: seq<string>, visiting: set<string>) {
    forall i :: from <= i < |s| ==>
      s[i] in names || exists y :: (y in s || y in visiting) && DependsOn(reg, y, s[i])
  }

  lemma CardShrinks(keys: set<string>, visiting: set<string>, name: string)
    requires name in keys && name !in visiting
    ensures |keys - (visiting + {name})| < |keys - visiting|
  {
    assert keys - (visiting + {name}) == (keys - visiting) - {name};
  }

  /** Consecutive names of `p` each declare the next as a dependency. */
  ghost predicate Path<I>(reg: Registry<I>, p: seq<string>) {
    forall i :: 0 <= i < |p| - 1 ==> DependsOn(reg, p[i], p[i + 1])
  }

  /** `p` is a dependency path from `a` to `b`. */
  ghost predicate PathFrom<I>(reg: Registry<I>, p: seq<string>, a: string, b: string) {
    |p| > 0 && p[0] == a && p[|p| - 1] == b && Path(reg, p)
  }

  /** `b` is `a` or is reached from it through declared dependencies. */
  ghost predicate Reaches<I>(reg: Registry<I>, a: string, b: string) {
    exists p :: PathFrom(reg, p, a, b)
  }

  /** `n` reaches itself in at least one dependency step. */
  ghost predicate OnCycle<I>(reg: Registry<I>, n: string) {
    exists p :: |p| > 1 && PathFrom(reg, p, n, n)
  }

  /** The resolver's inner `visit(name)`; `acc` is `resolved` (and its set
      is `seen`). The ghost `stack` is the chain of calls in progress, whose
      names make up `visiting`. */
  function Visit<I>(reg: Registry<I>, name: string, ghost stack: seq<string>, visiting: set<string>, acc: seq<string>): (r: Result<seq<string>, RegistryError>)
    requires Partial(reg, visiting, acc)
    requires visiting <= reg.plugins.Keys
    requires forall x :: x in visiting <==> x in stack
    requires Path(reg, stack + [name])
    ensures r.Ok? ==>
      && acc <= r.value
      && name in r.value
      && Partial(reg, visiting, r.value)
      && Grown(reg, r.value, |acc|, [name], visiting)
    ensures r.Err? && r.error.NotRegistered? ==> r.error.name !in reg.plugins && Reaches(reg, name, r.error.name)
    ensures r.Err? && r.error.CircularDependency? ==> OnCycle(reg, r.error.name)
    ensures r.Err? ==> r.error.NotRegistered? || (r.error.CircularDependency? && r.error.name in reg.plugins)
    decreases |reg.plugins.Keys - visiting|, 0, 0
  {
    if name in acc then Ok(acc)
    else if name in visiting then
      StackCycle(reg, stack, name);
      Err(CircularDependency(name))
    else if name !in reg.plugins then
      assert PathFrom(reg, [name], name, name);
      Err(NotRegistered(name))
    else
      CardShrinks(reg.plugins.Keys, visiting, name);
      var deps := reg.plugins[name].dependencies;
      var r0 := VisitAll(reg, deps, stack + [name], visiting + {name}, acc);
      if r0.Err? then
        ReachedThroughDependency(reg, name, r0.error);
        Err(r0.error)
      else
        VisitStep(reg, name, visiting, acc, r0.value);
        Ok(r0.value + [name])
  }

  /** A name met again while it is still on the call chain closes a cycle. */
  lemma StackCycle<I>(reg: Registry<I>, stack: seq<string>, name: string)
    requires Path(reg, stack + [name]) && name in stack
    ensures OnCycle(reg, name)
  {
    var i :| 0 <= i < |stack| && stack[i] == name;
    var q := (stack + [name])[i..];
    assert q[0] == name && q[|q| - 1] == name;
    assert PathFrom(reg, q, name, name);
  }

  /** A name reached from one of `name`'s dependencies is reached from
      `name`. */
  lemma ReachedThroughDependency<I>(reg: Registry<I>, name: string, e: RegistryError)
    requires name in reg.plugins
    requires e.NotRegistered? ==> exists m :: m in reg.plugins[name].dependencies && Reaches(reg, m, e.name)
    ensures e.NotRegistered? ==> Reaches(reg, name, e.name)
  {
    if e.NotRegistered? {
      var m :| m in reg.plugins[name].dependencies && Reaches(reg, m, e.name);
      var p :| PathFrom(reg, p, m, e.name);
      assert PathFrom(reg, [name] + p, name, e.name);
    }
  }

  /** One more dependency step at the end of a path. */
  lemma PathSnoc<I>(reg: Registry<I>, p: seq<string>, x: string)
    requires Path(reg, p)
    requires |p| > 0 ==> DependsOn(reg, p[|p| - 1], x)
    ensures Path(reg, p + [x])
  {
  }

  /** Appending `name` once its dependencies are resolved keeps the
      resolver's invariant. */
  lemma VisitStep<I>(reg: Registry<I>, name: string, visiting: set<string>, acc: seq<string>, acc': seq<string>)
    requires name in reg.plugins && name !in visiting
    requires acc <= acc'
    requires forall n :: n in reg.plugins[name].dependencies ==> n in acc'
    requires Partial(reg, visiting + {name}, acc')
    requires Grown(reg, acc', |acc|, reg.plugins[name].dependencies, visiting + {name})
    ensures acc <= acc' + [name]
    ensures Partial(reg, visiting, acc' + [name])
    ensures Grown(reg, acc' + [name], |acc|, [name], visiting)
  {
    VisitStepPartial(reg, name, visiting, acc');
    VisitStepGrown(reg, name, visiting, acc, acc');
    assert (acc' + [name])[..|acc'|] == acc';
  }

  lemma VisitStepPartial<I>(reg: Registry<I>, name: string, visiting: set<string>, acc': seq<string>)
    requires name in reg.plugins && name !in visiting
    requires forall n :: n in reg.plugins[name].dependencies ==> n in acc'
    requires Partial(reg, visiting + {name}, acc')
    ensures Partial(reg, visiting, acc' + [name])
  {
    var res := acc' + [name];
    assert name !in acc';
    NoDupSnoc(acc', name);
    forall i | 0 <= i < |res| ensures res[i] in reg.plugins && res[i] !in visiting {
      if i < |acc'| {
        assert res[i] == acc'[i];
      }
    }
    assert DepsFirst(reg, res) by {
      forall i, d | 0 <= i < |res| && DependsOn(reg, res[i], d)
        ensures d in res[..i]
      {
        if i < |acc'| {
          assert res[i] == acc'[i];
          assert res[..i] == acc'[..i];
        } else {
          assert res[..i] == acc';
        }
      }
    }
  }

  lemma VisitStepGrown<I>(reg: Registry<I>, name: string, visiting: set<string>, acc: seq<string>, acc': seq<string>)
    requires name in reg.plugins
    requires |acc| <= |acc'|
    requires Grown(reg, acc', |acc|, reg.plugins[name].dependencies, visiting + {name})
    ensures Grown(reg, acc' + [name], |acc|, [name], visiting)
  {
    var res := acc' + [name];
    forall i | |acc| <= i < |res|
      ensures res[i] in [name] || exists y :: (y in res || y in visiting) && DependsOn(reg, y, res[i])
    {
      if i < |acc'| {
        assert acc'[i] == res[i];
        if res[i] in reg.plugins[name].dependencies {
          assert name in res;
          assert DependsOn(reg, name, res[i]);
        } else {
          var y :| (y in acc' || y in visiting + {name}) && DependsOn(reg, y, acc'[i]);
          assert y in res || y in visiting;
        }
      }
    }
  }

  /** Visiting the first name and then the rest grows the order by both. */
  lemma VisitAllStep<I>(reg: Registry<I>, names: seq<string>, visiting: set<string>,
                        acc: seq<string>, a0: seq<string>, a1: seq<string>)
    requires |names| > 0 && acc <= a0 && a0 <= a1
    requires Grown(reg, a0, |acc|, [names[0]], visiting)
    requires Grown(reg, a1, |a0|, names[1..], visiting)
    ensures Grown(reg, a1, |acc|, names, visiting)
  {
    forall i | |acc| <= i < |a1|
      ensures a1[i] in names || exists y :: (y in a1 || y in visiting) && DependsOn(reg, y, a1[i])
    {
      if i < |a0| {
        assert a0[i] == a1[i];
        if a1[i] !in [names[0]] {
          var y :| (y in a0 || y in visiting) && DependsOn(reg, y, a0[i]);
          assert y in a1 || y in visiting;
        }
      } else if a1[i] in names[1..] {
        assert a1[i] in names;
      }
    }
  }

  /** `forEach(visit)` over `names`, all of them dependencies of the name
      on top of the call chain, or requested names when it is empty. */
  function VisitAll<I>(reg: Registry<I>, names: seq<string>, ghost stack: seq<string>, visiting: set<string>, acc: seq<string>): (r: Result<seq<string>, RegistryError>)
    requires Partial(reg, visiting, acc)
    requires visiting <= reg.plugins.Keys
    requires forall x :: x in visiting <==> x in stack
    requires Path(reg, stack)
    requires |stack| > 0 ==> forall n :: n in names ==> DependsOn(reg, stack[|stack| - 1], n)
    ensures r.Ok? ==>
      && acc <= r.value
      && (forall n :: n in names ==> n in r.value)
      && Partial(reg, visiting, r.value)
      && Grown(reg, r.value, |acc|, names, visiting)
    ensures r.Err? && r.error.NotRegistered? ==>
      r.error.name !in reg.plugins && exists m :: m in names && Reaches(reg, m, r.error.name)
    ensures r.Err? && r.error.CircularDependency? ==> OnCycle(reg, r.error.name)
    ensures r.Err? ==> r.error.NotRegistered? || (r.error.CircularDependency? && r.error.name in reg.plugins)
    decreases |reg.plugins.Keys - visiting|, 1, |names|
  {
    if |names| == 0 then Ok(acc)
    else
      assert names[0] in names && forall n :: n in names[1..] ==> n in names;
      PathSnoc(reg, stack, names[0]);
      var r0 := Visit(reg, names[0], stack, visiting, acc);
      if r0.Err? then r0
      else
        var r1 := VisitAll(reg, names[1..], stack, visiting, r0.value);
        assert forall n :: n in names ==> n == names[0] || n in names[1..];
        if r1.Err? then r1
        else
          VisitAllStep(reg, names, visiting, acc, r0.value, r1.value);
          r1
  }

  /** `resolveLoadOrder(pluginNames)`. */
  function ResolveLoadOrder<I>(reg: Registry<I>, names: seq<string>): (r: Result<seq<string>, RegistryError>)
    ensures r.Ok? ==>
      && NoDup(r.value)
      && AllRegistered(reg, r.value)
      && DepsFirst(reg, r.value)
      && (forall n :: n in names ==> n in r.value)
      && (forall i :: 0 <= i < |r.value| ==>
            r.value[i] in names || exists y :: y in r.value && DependsOn(reg, y, r.value[i]))
    ensures r.Err? && r.error.NotRegistered? ==>
      r.error.name !in reg.plugins && exists m :: m in names && Reaches(reg, m, r.error.name)
    ensures r.Err? && r.error.CircularDependency? ==> r.error.name in reg.plugins && OnCycle(reg, r.error.name)
    ensures r.Err? ==> r.error.NotRegistered? || r.error.CircularDependency?
    ensures (exists n :: n in names && n !in reg.plugins) ==> r.Err?
  {
    VisitAll(reg, names, [], {}, [])
  }

  /** Along a dependency path inside a set closed under dependencies,
      `rank` strictly decreases when it does so on every step there. */
  lemma {:induction false} RankDescends<I>(reg: Registry<I>, closure: set<string>, rank: string -> nat, q: seq<string>)
    requires |q| > 1 && Path(reg, q) && q[0] in closure
    requires forall a, b :: a in closure && DependsOn(reg, a, b) ==> b in closure && rank(b) < rank(a)
    ensures rank(q[|q| - 1]) < rank(q[0])
    decreases |q|
  {
    assert DependsOn(reg, q[0], q[1]);
    if |q| > 2 {
      assert Path(reg, q[1..]) by {
        forall i | 0 <= i < |q[1..]| - 1 ensures DependsOn(reg, q[1..][i], q[1..][i + 1]) {
          assert q[1..][i] == q[i + 1] && q[1..][i + 1] == q[i + 2];
        }
      }
      RankDescends(reg, closure, rank, q[1..]);
    }
  }

  /** `visit` succeeds on a name of a registered set closed under
      dependencies along which a rank strictly decreases. */
  lemma {:induction false} VisitSucceeds<I>(reg: Registry<I>, name: string, stack: seq<string>, visiting: set<string>,
                                          acc: seq<string>, closure: set<string>, rank: string -> nat)
    requires Partial(reg, visiting, acc)
    requires visiting <= reg.plugins.Keys
    requires forall x :: x in visiting <==> x in stack
    requires Path(reg, stack + [name])
    requires forall a :: a in closure ==> a in reg.plugins
    requires forall a, b :: a in closure && DependsOn(reg, a, b) ==> b in closure && rank(b) < rank(a)
    requires name in closure && forall x :: x in stack ==> x in closure
    ensures Visit(reg, name, stack, visiting, acc).Ok?
    decreases |reg.plugins.Keys - visiting|, 0, 0
  {
    if name !in acc {
      if name in visiting {
        var i :| 0 <= i < |stack| && stack[i] == name;
        var q := (stack + [name])[i..];
        assert q[0] == name && q[|q| - 1] == name && |q| > 1;
        RankDescends(reg, closure, rank, q);
      } else {
        CardShrinks(reg.plugins.Keys, visiting, name);
        VisitAllSucceeds(reg, reg.plugins[name].dependencies, stack + [name], visiting + {name}, acc, closure, rank);
      }
    }
  }

  lemma {:induction false} VisitAllSucceeds<I>(reg: Registry<I>, names: seq<string>, stack: seq<string>, visiting: set<string>,
                                             acc: seq<string>, closure: set<string>, rank: string -> nat)
    requires Partial(reg, visiting, acc)
    requires visiting <= reg.plugins.Keys
    requires forall x :: x in visiting <==> x in stack
    requires Path(reg, stack)
    requires |stack| > 0 ==> forall n :: n in names ==> DependsOn(reg, stack[|stack| - 1], n)
    requires forall a :: a in closure ==> a in reg.plugins
    requires forall a, b :: a in closure && DependsOn(reg, a, b) ==> b in closure && rank(b) < rank(a)
    requires (forall n :: n in names ==> n in closure) && forall x :: x in stack ==> x in closure
    ensures VisitAll(reg, names, stack, visiting, acc).Ok?
    decreases |reg.plugins.Keys - visiting|, 1, |names|
  {
    if |names| > 0 {
      assert names[0] in names && forall n :: n in names[1..] ==> n in names;
      PathSnoc(reg, stack, names[0]);
      VisitSucceeds(reg, names[0], stack, visiting, acc, closure, rank);
      var a0 := Visit(reg, names[0], stack, visiting, acc).value;
      VisitAllSucceeds(reg, names[1..], stack, visiting, a0, closure, rank);
    }
  }

  /** Resolution succeeds when every name reachable from the request is
      registered and some rank strictly decreases along every dependency
      among those names, i.e. there is no cycle among them. */
  lemma ResolveSucceeds<I>(reg: Registry<I>, names: seq<string>, rank: string -> nat)
    requires forall m, n :: m in names && Reaches(reg, m, n) ==> n in reg.plugins
    requires forall m, a, b :: m in names && Reaches(reg, m, a) && DependsOn(reg, a, b) ==> rank(b) < rank(a)
    ensures ResolveLoadOrder(reg, names).Ok?
  {
    var closure := set n | n in reg.plugins && exists m :: m in names && Reaches(reg, m, n);
    forall n | n in names ensures n in closure {
      assert PathFrom(reg, [n], n, n);
    }
    forall a, b | a in closure && DependsOn(reg, a, b) ensures b in closure && rank(b) < rank(a) {
      var m :| m in names && Reaches(reg, m, a);
      var p :| PathFrom(reg, p, m, a);
      assert PathFrom(reg, p + [b], m, b);
    }
    VisitAllSucceeds(reg, names, [], {}, [], closure, rank);
  }

  /** The position of `x` in a prefix bounds its first index. */
  lemma IndexOfInPrefix(s: seq<string>, i: nat, x: string)
    requires i <= |s| && x in s[..i]
    ensures x in s && IndexOf(s, x) < i
  {
    var k :| 0 <= k < i && s[..i][k] == x;
    assert s[k] == x;
  }

  /** Every resolved name that was not asked for is a dependency of a name
      placed later, i.e. it was pulled in by that name. */
  lemma {:induction false} ResolvedPulledInLater<I>(reg: Registry<I>, names: seq<string>)
    requires ResolveLoadOrder(reg, names).Ok?
    ensures var out := ResolveLoadOrder(reg, names).value;
      forall i :: 0 <= i < |out| && out[i] !in names ==>
        exists j :: i < j < |out| && DependsOn(reg, out[j], out[i])
  {
    var out := ResolveLoadOrder(reg, names).value;
    forall i | 0 <= i < |out| && out[i] !in names
      ensures exists j :: i < j < |out| && DependsOn(reg, out[j], out[i])
    {
      var y :| y in out && DependsOn(reg, y, out[i]);
      var j := IndexOf(out, y);
      assert out[i] in out[..j];
      var k := IndexOf(out, out[i]);
      IndexOfInPrefix(out, j, out[i]);
      assert out[k] == out[i];
      assert k == i;
    }
  }

  /** The resolved order is the least set holding the requested names and
      closed under dependencies: any such set contains all of it. */
  lemma {:induction false} ResolvedIsLeastClosed<I>(reg: Registry<I>, names: seq<string>, closed: set<string>)
    requires ResolveLoadOrder(reg, names).Ok?
    requires forall n :: n in names ==> n in closed
    requires forall y, d :: y in closed && DependsOn(reg, y, d) ==> d in closed
    ensures forall x :: x in ResolveLoadOrder(reg, names).value ==> x in closed
  {
    var out := ResolveLoadOrder(reg, names).value;
    ResolvedPulledInLater(reg, names);
    forall x | x in out
      ensures x in closed
    {
      ClosedFrom(reg, names, closed, out, IndexOf(out, x));
    }
  }

  lemma {:induction false} ClosedFrom<I>(reg: Registry<I>, names: seq<string>, closed: set<string>, out: seq<string>, i: nat)
    requires i < |out|
    requires forall n :: n in names ==> n in closed
    requires forall y, d :: y in closed && DependsOn(reg, y, d) ==> d in closed
    requires forall i :: 0 <= i < |out| && out[i] !in names ==>
        exists j :: i < j < |out| && DependsOn(reg, out[j], out[i])
    ensures out[i] in closed
    decreases |out| - i
  {
    if out[i] !in names {
      var j :| i < j < |out| && DependsOn(reg, out[j], out[i]);
      ClosedFrom(reg, names, closed, out, j);
    }
  }

  /** A dependency cycle through a requested name makes resolution fail. */
  lemma {:induction false} CycleRejected<I>(reg: Registry<I>, names: seq<string>, cycle: seq<string>)
    requires |cycle| > 0 && cycle[0] in names
    requires forall i :: 0 <= i < |cycle| - 1 ==> DependsOn(reg, cycle[i], cycle[i + 1])
    requires DependsOn(reg, cycle[|cycle| - 1], cycle[0])
    ensures ResolveLoadOrder(reg, names).Err?
  {
    var r := ResolveLoadOrder(reg, names);
    if r.Ok? {
      var out := r.value;
      var n := |cycle|;
      ChainDescends(reg, out, cycle, n - 1);
    }
  }

  /** Along a dependency chain inside a dependencies-first order, first
      indices strictly decrease. */
  lemma {:induction false} ChainDescends<I>(reg: Registry<I>, out: seq<string>, cycle: seq<string>, k: nat)
    requires k < |cycle| && cycle[0] in out
    requires DepsFirst(reg, out)
    requires forall i :: 0 <= i < |cycle| - 1 ==> DependsOn(reg, cycle[i], cycle[i + 1])
    ensures cycle[k] in out && IndexOf(out, cycle[k]) + k <= IndexOf(out, cycle[0])
  {
    if k > 0 {
      ChainDescends(reg, out, cycle, k - 1);
      var p := IndexOf(out, cycle[k - 1]);
      assert DependsOn(reg, out[p], cycle[k]);
      IndexOfInPrefix(out, p, cycle[k]);
    }
  }

  // ---------------------------------------------------------------------
  // Lifecycle

  /** What constructing a plugin and calling its `init` does, with the
      calls the instance makes on the editor's bus meanwhile (`init`
      subscribes its handlers through the base plugin's `on`). */
  datatype Startup<I> =
    | Started(instance: I, actions: seq<EventBus.Action>)
    | InitThrew(instance: I, actions: seq<EventBus.Action>)
    | NoInitMethod
    | ConstructorThrew

  /** The bus calls one start made. */
  function BusCalls<I>(s: Startup<I>): seq<EventBus.Action> {
    if s.Started? || s.InitThrew? then s.actions else []
  }

  /** The bus calls of the starts of `names`, in order. */
  function InitCalls<I>(names: seq<string>, startup: string -> Startup<I>): seq<EventBus.Action> {
    if |names| == 0 then [] else BusCalls(startup(names[0])) + InitCalls(names[1..], startup)
  }

  /** The bus calls of the `init` that threw, if that was the failure. */
  function FailedCalls<I>(e: Option<RegistryError>, startup: string -> Startup<I>): seq<EventBus.Action> {
    if e.Some? && e.value.InitFailed? then BusCalls(startup(e.value.name)) else []
  }

  /** An action made by the start of a name in `names` is among their
      calls. */
  lemma {:induction false} InitCallsMember<I>(names: seq<string>, startup: string -> Startup<I>, n: string, a: EventBus.Action)
    requires n in names && a in BusCalls(startup(n))
    ensures a in InitCalls(names, startup)
    decreases |names|
  {
    if names[0] != n {
      assert n in names[1..];
      InitCallsMember(names[1..], startup, n, a);
    }
  }

  /** What calling an instance's `destroy` does. */
  datatype Teardown = Destroyed | NoDestroyMethod | DestroyThrew

  /** The error rethrown for a failed start, if any. */
  function StartFailure<I>(name: string, s: Startup<I>): Option<RegistryError> {
    match s
    case Started(_, _) => None
    case InitThrew(_, _) => Some(InitFailed(name))
    case NoInitMethod => Some(MissingInit(name))
    case ConstructorThrew => Some(ConstructorFailed(name))
  }

  /** Same registered classes, same key order. */
  ghost predicate SameClasses<I>(a: Registry<I>, b: Registry<I>) {
    && a.order == b.order
    && a.plugins.Keys == b.plugins.Keys
    && forall n :: n in a.plugins ==>
         b.plugins[n].(instance := None) == a.plugins[n].(instance := None)
  }

  /** Stores a started instance and marks its name initialised. */
  function MarkStarted<I>(reg: Registry<I>, n: string, i: I): (r: Registry<I>)
    requires Valid(reg) && n in reg.plugins && n !in reg.initialized
    ensures Valid(r) && SameClasses(reg, r)
    ensures r.initialized == reg.initialized + [n]
    ensures r.plugins == reg.plugins[n := reg.plugins[n].(instance := Some(i))]
  {
    Registry(reg.plugins[n := reg.plugins[n].(instance := Some(i))], reg.order, reg.initialized + [n])
  }

  /** Keeps the instance whose `init` threw, without marking it
      initialised. */
  function MarkThrew<I>(reg: Registry<I>, n: string, i: I): (r: Registry<I>)
    requires Valid(reg) && n in reg.plugins && n !in reg.initialized
    ensures Valid(r) && SameClasses(reg, r)
    ensures r.initialized == reg.initialized
    ensures r.plugins == reg.plugins[n := reg.plugins[n].(instance := Some(i))]
  {
    Registry(reg.plugins[n := reg.plugins[n].(instance := Some(i))], reg.order, reg.initialized)
  }

  /** What holds of the rest of the loop relative to the registry after a
      start also holds relative to the registry before it. */
  lemma StartedThenRest<I>(reg: Registry<I>, n: string, i: I, reg': Registry<I>, r: Registry<I>)
    requires Valid(reg) && n in reg.plugins && n !in reg.initialized
    requires reg' == MarkStarted(reg, n, i)
    requires SameClasses(reg', r) && reg'.initialized <= r.initialized
    requires forall m :: m in reg'.initialized ==> r.plugins[m] == reg'.plugins[m]
    ensures SameClasses(reg, r) && reg.initialized <= r.initialized
    ensures forall m :: m in reg.initialized ==> r.plugins[m] == reg.plugins[m]
  {
    assert reg.initialized <= reg'.initialized;
    forall m | m in reg.initialized ensures r.plugins[m] == reg.plugins[m] {
      assert m in reg'.initialized;
    }
  }

  /** The `forEach` over the resolved order in `initializePlugins`, with the
      bus calls the starts made. The loop stops at the first failing name;
      every name before it is initialised. */
  function StartAll<I>(reg: Registry<I>, order: seq<string>, startup: string -> Startup<I>)
    : (r: (Registry<I>, Option<RegistryError>, seq<EventBus.Action>))
    requires Valid(reg) && AllRegistered(reg, order)
    ensures Valid(r.0) && SameClasses(reg, r.0)
    ensures reg.initialized <= r.0.initialized
    ensures forall n :: n in reg.initialized ==> r.0.plugins[n] == reg.plugins[n]
    ensures FirstFailure(order, r.0.initialized, r.1, startup)
    ensures CallsMade(reg.initialized, r.0.initialized, r.1, r.2, startup)
    decreases |order|
  {
    if |order| == 0 then
      CallsOfNothing(reg.initialized, startup);
      (reg, None, [])
    else
      var n := order[0];
      assert forall m :: m in order ==> m == n || m in order[1..];
      if n in reg.initialized then
        var r := StartAll(reg, order[1..], startup);
        PrefixMember(reg.initialized, r.0.initialized, n);
        FailureShifts(order, r.0.initialized, r.1, startup);
        r
      else
        match startup(n)
        case Started(i, acts) =>
          var reg' := MarkStarted(reg, n, i);
          var r := StartAll(reg', order[1..], startup);
          StartedThenRest(reg, n, i, reg', r.0);
          PrefixMember(reg'.initialized, r.0.initialized, n);
          FailureShifts(order, r.0.initialized, r.1, startup);
          CallsShift(reg, n, reg', r.0.initialized, r.1, r.2, startup);
          (r.0, r.1, acts + r.2)
        case InitThrew(i, acts) =>
          var reg' := MarkThrew(reg, n, i);
          FailureAtHead(order, reg'.initialized, startup);
          CallsOfFailure(reg.initialized, n, startup);
          (reg', StartFailure(n, startup(n)), acts)
        case NoInitMethod =>
          FailureAtHead(order, reg.initialized, startup);
          CallsOfFailure(reg.initialized, n, startup);
          (reg, StartFailure(n, startup(n)), [])
        case ConstructorThrew =>
          FailureAtHead(order, reg.initialized, startup);
          CallsOfFailure(reg.initialized, n, startup);
          (reg, StartFailure(n, startup(n)), [])
  }

  /** `e`, when present, is the failure of the first name of `order` that
      is not initialised; every name before it is. */
  ghost predicate FirstFailure<I>(order: seq<string>, initialized: seq<string>, e: Option<RegistryError>,
                                  startup: string -> Startup<I>) {
    e.Some? ==>
      exists k :: 0 <= k < |order| && order[k] !in initialized && e == StartFailure(order[k], startup(order[k])) &&
        forall j :: 0 <= j < k ==> order[j] in initialized
  }

  /** A failure at the head of the order is its first failure. */
  lemma FailureAtHead<I>(order: seq<string>, initialized: seq<string>, startup: string -> Startup<I>)
    requires |order| > 0 && order[0] !in initialized
    ensures FirstFailure(order, initialized, StartFailure(order[0], startup(order[0])), startup)
  {
  }

  /** A first failure of the rest of the order, behind an initialised
      head, is the first failure of the whole order. */
  lemma FailureShifts<I>(order: seq<string>, initialized: seq<string>, e: Option<RegistryError>, startup: string -> Startup<I>)
    requires |order| > 0 && order[0] in initialized
    requires FirstFailure(order[1..], initialized, e, startup)
    ensures FirstFailure(order, initialized, e, startup)
  {
    if e.Some? {
      var k :| 0 <= k < |order[1..]| && order[1..][k] !in initialized &&
        e == StartFailure(order[1..][k], startup(order[1..][k])) &&
        forall j :: 0 <= j < k ==> order[1..][j] in initialized;
      assert forall j :: 1 <= j < k + 1 ==> order[j] == order[1..][j - 1];
      assert order[k + 1] == order[1..][k];
    }
  }

  /** `calls` are the bus calls of the starts that took `initialized` to
      `fin`, followed by those of the `init` that threw, if one did. */
  ghost predicate CallsMade<I>(initialized: seq<string>, fin: seq<string>, e: Option<RegistryError>,
                               calls: seq<EventBus.Action>, startup: string -> Startup<I>) {
    |initialized| <= |fin| && calls == InitCalls(fin[|initialized|..], startup) + FailedCalls(e, startup)
  }

  lemma CallsOfNothing<I>(initialized: seq<string>, startup: string -> Startup<I>)
    ensures CallsMade(initialized, initialized, None, [], startup)
  {
    assert initialized[|initialized|..] == [];
  }

  lemma CallsOfFailure<I>(initialized: seq<string>, n: string, startup: string -> Startup<I>)
    requires !startup(n).Started?
    ensures CallsMade(initialized, initialized, StartFailure(n, startup(n)), BusCalls(startup(n)), startup)
  {
    assert initialized[|initialized|..] == [];
  }

  /** The calls after a successful start are that start's calls followed by
      those of the rest of the loop. */
  lemma CallsShift<I>(reg: Registry<I>, n: string, reg': Registry<I>, fin: seq<string>, e: Option<RegistryError>,
                      calls: seq<EventBus.Action>, startup: string -> Startup<I>)
    requires reg'.initialized == reg.initialized + [n] && reg'.initialized <= fin
    requires CallsMade(reg'.initialized, fin, e, calls, startup)
    ensures CallsMade(reg.initialized, fin, e, BusCalls(startup(n)) + calls, startup)
  {
    var s := fin[|reg.initialized|..];
    assert s[0] == n && s[1..] == fin[|reg'.initialized|..];
  }

  /** A plugin whose `init` threw keeps the instance that was built, and
      the loop stops there. */
  lemma {:induction false} StartAllKeepsThrown<I>(reg: Registry<I>, order: seq<string>, startup: string -> Startup<I>)
    requires Valid(reg) && AllRegistered(reg, order)
    ensures var r := StartAll(reg, order, startup);
      r.1.Some? && r.1.value.InitFailed? ==>
        r.1.value.name in r.0.plugins && startup(r.1.value.name).InitThrew? &&
        r.0.plugins[r.1.value.name].instance == Some(startup(r.1.value.name).instance)
    decreases |order|
  {
    if |order| > 0 {
      var n := order[0];
      assert forall m :: m in order[1..] ==> m in order;
      if n in reg.initialized {
        StartAllKeepsThrown(reg, order[1..], startup);
      } else if startup(n).Started? {
        StartAllKeepsThrown(MarkStarted(reg, n, startup(n).instance), order[1..], startup);
      }
    }
  }

  /** Plugins outside the order are left as they were. */
  lemma {:induction false} StartAllLeavesOthers<I>(reg: Registry<I>, order: seq<string>, startup: string -> Startup<I>)
    requires Valid(reg) && AllRegistered(reg, order)
    ensures var r := StartAll(reg, order, startup).0;
      forall n :: n in reg.plugins && n !in order ==> r.plugins[n] == reg.plugins[n]
    decreases |order|
  {
    if |order| > 0 {
      var n := order[0];
      assert forall m :: m in order[1..] ==> m in order;
      if n in reg.initialized {
        StartAllLeavesOthers(reg, order[1..], startup);
      } else if startup(n).Started? {
        StartAllLeavesOthers(MarkStarted(reg, n, startup(n).instance), order[1..], startup);
      }
    }
  }

  /** Without a failure every name of the order ends up initialised. */
  lemma {:induction false} StartAllCompletes<I>(reg: Registry<I>, order: seq<string>, startup: string -> Startup<I>)
    requires Valid(reg) && AllRegistered(reg, order)
    requires StartAll(reg, order, startup).1.None?
    ensures forall n :: n in order ==> n in StartAll(reg, order, startup).0.initialized
    decreases |order|
  {
    if |order| > 0 {
      var n := order[0];
      var r := StartAll(reg, order, startup).0;
      assert forall m :: m in order ==> m == n || m in order[1..];
      if n in reg.initialized {
        StartAllCompletes(reg, order[1..], startup);
        assert n in r.initialized by { PrefixMember(reg.initialized, r.initialized, n); }
      } else {
        var i := startup(n).instance;
        var reg' := MarkStarted(reg, n, i);
        StartAllCompletes(reg', order[1..], startup);
        assert n in reg'.initialized;
        assert n in r.initialized by { PrefixMember(reg'.initialized, r.initialized, n); }
      }
    }
  }

  /** A name is newly initialised only if it was in the order and its
      constructor and `init` both succeeded; its instance is the one built. */
  lemma {:induction false} StartAllStartedOnly<I>(reg: Registry<I>, order: seq<string>, startup: string -> Startup<I>)
    requires Valid(reg) && AllRegistered(reg, order)
    ensures var r := StartAll(reg, order, startup).0;
      forall n :: n in r.initialized && n !in reg.initialized ==>
        n in order && startup(n).Started? && r.plugins[n].instance == Some(startup(n).instance)
    decreases |order|
  {
    if |order| > 0 {
      var n := order[0];
      var r := StartAll(reg, order, startup).0;
      assert forall m :: m in order[1..] ==> m in order;
      if n in reg.initialized {
        StartAllStartedOnly(reg, order[1..], startup);
      } else if startup(n).Started? {
        var i := startup(n).instance;
        var reg' := MarkStarted(reg, n, i);
        StartAllStartedOnly(reg', order[1..], startup);
        forall m | m in r.initialized && m !in reg.initialized
          ensures m in order && startup(m).Started? && r.plugins[m].instance == Some(startup(m).instance)
        {
          if m == n {
            assert r.plugins[n] == reg'.plugins[n];
          }
        }
      }
    }
  }

  /** The returned `Map` of instances: the names of `order` that hold an
      instance, with that instance. */
  function Instances<I>(reg: Registry<I>, order: seq<string>): (r: seq<(string, I)>)
    requires AllRegistered(reg, order)
    ensures forall k :: 0 <= k < |r| ==>
      r[k].0 in order && reg.plugins[r[k].0].instance == Some(r[k].1)
    ensures (forall n :: n in order ==> reg.plugins[n].instance.Some?) ==>
      |r| == |order| && forall k :: 0 <= k < |r| ==> r[k].0 == order[k]
  {
    if |order| == 0 then []
    else
      var rest := Instances(reg, order[1..]);
      match reg.plugins[order[0]].instance
      case Some(i) => [(order[0], i)] + rest
      case None => rest
  }

  /** `pluginNames.length > 0 ? pluginNames : Array.from(this.plugins.keys())`. */
  function Targets<I>(reg: Registry<I>, names: seq<string>): seq<string> {
    if |names| > 0 then names else reg.order
  }

  /** What `initializePlugins` did: the registry afterwards, the instances
      or the rethrown error, and the bus calls the starts made. */
  datatype InitOutcome<I> = InitOutcome(reg: Registry<I>, result: Result<seq<(string, I)>, RegistryError>,
                                        calls: seq<EventBus.Action>)

  /** `initializePlugins(pluginNames)`. A thrown error leaves the plugins
      started before it in place, and the ones before it in the load order
      initialised. */
  function InitializePlugins<I>(reg: Registry<I>, names: seq<string>, startup: string -> Startup<I>): (out: InitOutcome<I>)
    requires Valid(reg)
    ensures Valid(out.reg) && SameClasses(reg, out.reg)
    ensures ResolveLoadOrder(reg, Targets(reg, names)).Err? ==>
      out.reg == reg && out.calls == [] && out.result == Err(ResolveLoadOrder(reg, Targets(reg, names)).error)
    ensures reg.initialized <= out.reg.initialized
    ensures forall n :: n in reg.initialized ==> out.reg.plugins[n] == reg.plugins[n]
    ensures out.result.Err? && ResolveLoadOrder(reg, Targets(reg, names)).Ok? ==>
      FirstFailure(ResolveLoadOrder(reg, Targets(reg, names)).value, out.reg.initialized,
                   Some(out.result.error), startup)
    ensures CallsMade(reg.initialized, out.reg.initialized,
                      if out.result.Err? then Some(out.result.error) else None, out.calls, startup)
  {
    var targets := Targets(reg, names);
    match ResolveLoadOrder(reg, targets)
    case Err(e) =>
      assert reg.initialized[|reg.initialized|..] == [];
      InitOutcome(reg, Err(e), [])
    case Ok(order) =>
      var (reg', failure, calls) := StartAll(reg, order, startup);
      if failure.Some? then InitOutcome(reg', Err(failure.value), calls)
      else InitOutcome(reg', Ok(Instances(reg', order)), calls)
  }

  /** A successful `initializePlugins` has initialised every requested name
      and its dependencies (every registered name when none is requested),
      and returns their instances keyed in load order. */
  lemma {:induction false} InitializeSucceeds<I>(reg: Registry<I>, names: seq<string>, startup: string -> Startup<I>)
    requires Valid(reg)
    requires InitializePlugins(reg, names, startup).result.Ok?
    ensures ResolveLoadOrder(reg, Targets(reg, names)).Ok?
    ensures var out := InitializePlugins(reg, names, startup);
      var order := ResolveLoadOrder(reg, Targets(reg, names)).value;
      && (forall n :: n in order ==> n in out.reg.initialized)
      && |out.result.value| == |order|
      && (forall k :: 0 <= k < |order| ==>
            out.result.value[k] == (order[k], out.reg.plugins[order[k]].instance.value))
    ensures var out := InitializePlugins(reg, names, startup);
      forall n :: n in Targets(reg, names) ==> n in out.reg.initialized
    ensures var out := InitializePlugins(reg, names, startup);
      |names| == 0 ==> forall n :: n in reg.plugins ==> n in out.reg.initialized
  {
    var order := ResolveLoadOrder(reg, Targets(reg, names)).value;
    StartAllCompletes(reg, order, startup);
  }

  /** `initializePlugins` never re-instantiates: a name it newly marks
      initialised was started successfully and holds the instance built. */
  lemma {:induction false} InitializeStartsOnlyNew<I>(reg: Registry<I>, names: seq<string>, startup: string -> Startup<I>)
    requires Valid(reg)
    ensures var out := InitializePlugins(reg, names, startup);
      forall n :: n in out.reg.initialized && n !in reg.initialized ==>
        startup(n).Started? && out.reg.plugins[n].instance == Some(startup(n).instance)
  {
    var r := ResolveLoadOrder(reg, Targets(reg, names));
    if r.Ok? {
      StartAllStartedOnly(reg, r.value, startup);
    }
  }

  /** The `forEach` of `destroyAll` over the reversed initialisation order;
      the trace lists the names whose instance was torn down or attempted. */
  function DestroyEach<I>(reg: Registry<I>, names: seq<string>, teardown: string -> Teardown): (r: (Registry<I>, seq<string>))
    requires forall n :: n in names ==> n in reg.plugins
    ensures r.0.order == reg.order && r.0.initialized == reg.initialized
    ensures r.0.plugins.Keys == reg.plugins.Keys
    ensures forall n :: n in reg.plugins ==>
      r.0.plugins[n] == if n in names && teardown(n) != DestroyThrew
                        then reg.plugins[n].(instance := None) else reg.plugins[n]
    decreases |names|
  {
    if |names| == 0 then (reg, [])
    else
      var n := names[0];
      assert forall m :: m in names ==> m == n || m in names[1..];
      if reg.plugins[n].instance.None? then DestroyEach(reg, names[1..], teardown)
      else
        var (reg'', trace) := DestroyEach(AfterDestroy(reg, n, teardown(n)), names[1..], teardown);
        (reg'', [n] + trace)
  }

  /** The registry after one `destroy` call: the instance is dropped
      unless the call threw. */
  function AfterDestroy<I>(reg: Registry<I>, n: string, t: Teardown): Registry<I>
    requires n in reg.plugins
  {
    if t == DestroyThrew then reg
    else reg.(plugins := reg.plugins[n := reg.plugins[n].(instance := None)])
  }

  /** With distinct names that all hold an instance, every one of them is
      torn down or attempted, in order. */
  lemma {:induction false} DestroyEachTrace<I>(reg: Registry<I>, names: seq<string>, teardown: string -> Teardown)
    requires forall n :: n in names ==> n in reg.plugins && reg.plugins[n].instance.Some?
    requires NoDup(names)
    ensures DestroyEach(reg, names, teardown).1 == names
    decreases |names|
  {
    if |names| > 0 {
      var n := names[0];
      var reg' := AfterDestroy(reg, n, teardown(n));
      NoDupTail(names);
      forall m | m in names[1..] ensures m in reg'.plugins && reg'.plugins[m].instance.Some? {
        assert m != n;
      }
      DestroyEachTrace(reg', names[1..], teardown);
      assert [n] + names[1..] == names;
    }
  }

  /** `destroyAll()`: every initialised plugin is torn down, newest first,
      continuing past a throwing `destroy`; `initialized` ends empty. */
  function DestroyAll<I>(reg: Registry<I>, teardown: string -> Teardown): (r: (Registry<I>, seq<string>))
    requires Valid(reg)
    ensures Valid(r.0) && SameClasses(reg, r.0)
    ensures r.0.initialized == []
    ensures r.1 == Reverse(reg.initialized)
    ensures forall n :: n in reg.plugins ==>
      (n in reg.initialized && teardown(n) != DestroyThrew ==> r.0.plugins[n].instance.None?) &&
      (n !in reg.initialized || teardown(n) == DestroyThrew ==> r.0.plugins[n] == reg.plugins[n])
  {
    var names := Reverse(reg.initialized);
    ReverseMembers(reg.initialized);
    DestroyEachTrace(reg, names, teardown);
    var (reg', trace) := DestroyEach(reg, names, teardown);
    (reg'.(initialized := []), trace)
  }

  function IsInitialized<I>(reg: Registry<I>, name: string): bool {
    name in reg.initialized
  }

  function GetInstance<I>(reg: Registry<I>, name: string): Option<I> {
    if name in reg.plugins then reg.plugins[name].instance else None
  }

  /** After a successful `initializePlugins` every requested plugin reports
      initialised with an instance; after `destroyAll` none reports
      initialised, and only those whose `destroy` threw keep an instance. */
  lemma {:induction false} InitializeThenDestroy<I>(reg: Registry<I>, names: seq<string>,
                                                  startup: string -> Startup<I>, teardown: string -> Teardown)
    requires Valid(reg)
    requires InitializePlugins(reg, names, startup).result.Ok?
    ensures var r1 := InitializePlugins(reg, names, startup).reg;
      forall n :: n in names ==> IsInitialized(r1, n) && GetInstance(r1, n).Some?
    ensures var r1 := InitializePlugins(reg, names, startup).reg;
      var r2 := DestroyAll(r1, teardown).0;
      forall n :: n in names ==>
        !IsInitialized(r2, n) && (GetInstance(r2, n).Some? <==> teardown(n) == DestroyThrew)
  {
    InitializeSucceeds(reg, names, startup);
    if |names| > 0 {
      assert Targets(reg, names) == names;
    }
  }
}

=== FILE: seqs.dfy ===
/** Sequence helpers standing in for the JavaScript array methods the
    editor uses (`indexOf`, `splice`, `reverse`) and for the distinctness
    of the keys of an insertion-ordered `Map` or `Set`. */
module Seqs {

  /** No element occurs twice. */
  ghost predicate NoDup<T>(s: seq<T>) {
    forall i, j :: 0 <= i < j < |s| ==> s[i] != s[j]
  }

  /** What a prefix holds, the whole sequence holds. */
  lemma PrefixMember<T>(a: seq<T>, b: seq<T>, x: T)
    requires a <= b && x in a
    ensures x in b
  {
    var k :| 0 <= k < |a| && a[k] == x;
    assert b[k] == x;
  }

  /** The index of the first occurrence of `x` in `s`. */
  function IndexOf<T(==)>(s: seq<T>, x: T): (i: nat)
    requires x in s
    ensures i < |s| && s[i] == x && x !in s[..i]
  {
    if s[0] == x then 0 else 1 + IndexOf(s[1..], x)
  }

  /** `indexOf` followed by `splice(index, 1)`: drops the first occurrence
      of `x`, if any. */
  function RemoveFirst<T(==)>(s: seq<T>, x: T): (r: seq<T>)
    ensures x !in s ==> r == s
    ensures x in s ==> r == s[..IndexOf(s, x)] + s[IndexOf(s, x) + 1..]
    ensures x in s ==> multiset(r) == multiset(s) - multiset{x}
    ensures forall y :: y in r ==> y in s
  {
    if x !in s then s
    else
      var i := IndexOf(s, x);
      assert s == s[..i] + [s[i]] + s[i + 1..];
      s[..i] + s[i + 1..]
  }

  /** Removing the first occurrence of an element appended to a list that
      did not hold it gives the list back. */
  lemma {:induction false} RemoveFirstOfAppended<T>(s: seq<T>, x: T)
    requires x !in s
    ensures RemoveFirst(s + [x], x) == s
  {
    assert x in s + [x];
    var i := IndexOf(s + [x], x);
    assert i == |s|;
    assert (s + [x])[..|s|] == s;
  }

  /** `Array.prototype.reverse`. */
  function Reverse<T>(s: seq<T>): (r: seq<T>)
    ensures |r| == |s|
    ensures forall i :: 0 <= i < |s| ==> r[i] == s[|s| - 1 - i]
  {
    if |s| == 0 then [] else Reverse(s[1..]) + [s[0]]
  }

  /** A sequence is what lies before, at and after any of its positions. */
  lemma SplitAt<T>(s: seq<T>, k: nat)
    requires k < |s|
    ensures s == s[..k] + [s[k]] + s[k + 1..]
  {
  }

  /** Dropping the first element keeps the rest distinct, and the first
      element does not occur again. */
  lemma NoDupTail<T>(s: seq<T>)
    requires |s| > 0 && NoDup(s)
    ensures NoDup(s[1..]) && s[0] !in s[1..]
  {
    forall i, j | 0 <= i < j < |s| - 1 ensures s[1..][i] != s[1..][j] {
      assert s[1..][i] == s[i + 1] && s[1..][j] == s[j + 1];
    }
  }

  /** Appending an element not yet present keeps the elements distinct. */
  lemma NoDupSnoc<T>(s: seq<T>, x: T)
    requires NoDup(s) && x !in s
    ensures NoDup(s + [x])
  {
    var t := s + [x];
    forall i, j | 0 <= i < j < |t| ensures t[i] != t[j] {
      if j < |s| {
        assert t[i] == s[i] && t[j] == s[j];
      } else {
        assert t[i] == s[i];
      }
    }
  }

  /** Reversing keeps the elements and their distinctness. */
  lemma ReverseMembers<T>(s: seq<T>)
    ensures forall x :: x in Reverse(s) <==> x in s
    ensures NoDup(s) ==> NoDup(Reverse(s))
  {
    var r := Reverse(s);
    forall x | x in r ensures x in s {
      var k :| 0 <= k < |r| && r[k] == x;
      assert s[|s| - 1 - k] == x;
    }
    forall x | x in s ensures x in r {
      var k :| 0 <= k < |s| && s[k] == x;
      assert r[|s| - 1 - k] == x;
    }
    if NoDup(s) {
      forall i, j | 0 <= i < j < |r| ensures r[i] != r[j] {
        assert r[i] == s[|s| - 1 - i];
        assert r[j] == s[|s| - 1 - j];
      }
    }
  }
}

=== FILE: table.dfy ===
/** The table plugin's structural edits, over a grid of cells instead of a
    DOM table. A grid is the list of rows of the table's body; the caret
    context is the position of the cell holding the caret, or nothing when
    the caret is outside every table. */
module TableGrid {
  import opened Wrappers

  datatype Kind = TD | TH

  datatype Cell = Cell(kind: Kind, content: string)

  type Row = seq<Cell>

  type Grid = seq<Row>

  /** The markup every new cell starts with. */
  const EmptyCellHtml: string := "<p><br></p>"

  const EmptyCell: Cell := Cell(TD, EmptyCellHtml)

  /** The side of the picker grid. */
  const PickerSize: nat := 8

  datatype Pos = Pos(row: nat, col: nat)

  predicate ValidPos(g: Grid, p: Pos) {
    p.row < |g| && p.col < |g[p.row]|
  }

  /** A caret context, when present, names a cell of the grid. */
  predicate CtxValid(g: Grid, ctx: Option<Pos>) {
    ctx.None? || ValidPos(g, ctx.value)
  }

  predicate Rectangular(g: Grid) {
    forall i :: 0 <= i < |g| ==> |g[i]| == |g[0]|
  }

  function NewRow(n: nat): (r: Row)
    ensures |r| == n && forall j :: 0 <= j < n ==> r[j] == EmptyCell
  {
    seq(n, _ => EmptyCell)
  }

  /** JavaScript's `x|0` on an integral number: reduction modulo 2^32 into
      the signed 32-bit range. */
  function ToInt32(x: int): (r: int)
    ensures -0x8000_0000 <= r < 0x8000_0000
    ensures (x - r) % 0x1_0000_0000 == 0
  {
    var m := x % 0x1_0000_0000;
    if m >= 0x8000_0000 then m - 0x1_0000_0000 else m
  }

  /** `Math.max(1, Math.min(100, x|0))`. */
  function Clamp(x: int): (r: int)
    ensures 1 <= r <= 100
    ensures 1 <= x <= 100 ==> r == x
    ensures ToInt32(x) < 1 ==> r == 1
    ensures ToInt32(x) > 100 ==> r == 100
  {
    var n := ToInt32(x);
    if n < 1 then 1 else if n > 100 then 100 else n
  }

  /** A fresh rows by cols table of empty data cells, both sizes clamped
      into [1, 100]. */
  function InsertTable(rows: int, cols: int): (g: Grid)
    ensures 1 <= |g| <= 100 && Rectangular(g) && 1 <= |g[0]| <= 100
    ensures 1 <= rows <= 100 ==> |g| == rows
    ensures 1 <= cols <= 100 ==> |g[0]| == cols
    ensures |g| == Clamp(rows) && forall i :: 0 <= i < |g| ==> |g[i]| == Clamp(cols)
    ensures forall i, j :: 0 <= i < |g| && 0 <= j < |g[i]| ==> g[i][j] == EmptyCell
  {
    seq(Clamp(rows), _ => NewRow(Clamp(cols)))
  }

  /** The hover highlight of the picker: cell (i, j), counted from 1 as in
      its `data-r`/`data-c` attributes, is lit when it lies inside the
      rows by cols corner. */
  function HighlightGrid(rows: int, cols: int): (h: seq<seq<bool>>)
    ensures |h| == PickerSize
    ensures forall i :: 0 <= i < PickerSize ==> |h[i]| == PickerSize
    ensures forall i, j :: 0 <= i < PickerSize && 0 <= j < PickerSize ==>
      (h[i][j] <==> i + 1 <= rows && j + 1 <= cols)
  {
    seq(PickerSize, i => seq(PickerSize, j => i + 1 <= rows && j + 1 <= cols))
  }

  /** Clicking the picker cell under the hover inserts exactly the lit
      region: a lit cell is a cell of the new table and the reverse. */
  lemma PickerMatchesInsert(r: int, c: int, i: int, j: int)
    requires 1 <= r <= PickerSize && 1 <= c <= PickerSize
    requires 0 <= i < PickerSize && 0 <= j < PickerSize
    ensures HighlightGrid(r, c)[i][j] <==> i < |InsertTable(r, c)| && j < |InsertTable(r, c)[i]|
  {
  }

  /** Where `addRow` puts the new row: before the caret row ("above") or
      after it (anything else). */
  function RowSlot(p: Pos, above: bool): nat {
    if above then p.row else p.row + 1
  }

  /** `addRow`: one new row of empty cells, as wide as the caret row. */
  function AddRow(g: Grid, ctx: Option<Pos>, above: bool): (r: Grid)
    requires CtxValid(g, ctx)
    ensures ctx.None? ==> r == g
    ensures ctx.Some? ==> |r| == |g| + 1
    ensures ctx.Some? ==> var at := RowSlot(ctx.value, above);
      at <= |g| && r[at] == NewRow(|g[ctx.value.row]|) &&
      (forall i :: 0 <= i < at ==> r[i] == g[i]) &&
      (forall i :: at < i < |r| ==> r[i] == g[i - 1])
  {
    if ctx.None? then g
    else
      var at := RowSlot(ctx.value, above);
      g[..at] + [NewRow(|g[ctx.value.row]|)] + g[at..]
  }

  /** `deleteRow`: the caret row goes; the table goes with its last row. */
  function DeleteRow(g: Grid, ctx: Option<Pos>): (r: Option<Grid>)
    requires CtxValid(g, ctx)
    ensures ctx.None? ==> r == Some(g)
    ensures r.None? <==> ctx.Some? && |g| == 1
    ensures ctx.Some? && r.Some? ==> |r.value| == |g| - 1
    ensures ctx.Some? && r.Some? ==> forall i :: 0 <= i < ctx.value.row ==> r.value[i] == g[i]
    ensures ctx.Some? && r.Some? ==> forall i :: ctx.value.row <= i < |r.value| ==> r.value[i] == g[i + 1]
  {
    if ctx.None? then Some(g)
    else
      var rest := g[..ctx.value.row] + g[ctx.value.row + 1..];
      if |rest| == 0 then None else Some(rest)
  }

  /** `deleteTable`. */
  function DeleteTable(g: Grid, ctx: Option<Pos>): (r: Option<Grid>)
    requires CtxValid(g, ctx)
    ensures r.None? <==> ctx.Some?
    ensures r.Some? ==> r.value == g
  {
    if ctx.None? then Some(g) else None
  }

  /** Adding a row and deleting it again, with the caret where `addRow`
      leaves it, gives back the table. */
  lemma AddRowThenDeleteRow(g: Grid, p: Pos, above: bool)
    requires ValidPos(g, p)
    ensures var g' := AddRow(g, Some(p), above);
      var at := RowSlot(p, above);
      ValidPos(g', Pos(at, p.col)) && DeleteRow(g', Some(Pos(at, p.col))) == Some(g)
  {
    var at := RowSlot(p, above);
    var g' := AddRow(g, Some(p), above);
    assert g' == g[..at] + [NewRow(|g[p.row]|)] + g[at..];
    assert g'[..at] + g'[at + 1..] == g;
  }

  /** A row added to a rectangular table keeps it rectangular. */
  lemma AddRowKeepsRectangular(g: Grid, ctx: Option<Pos>, above: bool)
    requires CtxValid(g, ctx) && Rectangular(g)
    ensures Rectangular(AddRow(g, ctx, above))
  {
  }

  /** Where `addColumn` puts a row's new cell: before the caret column, or
      first when the row is too short ("left"); after it, or last when the
      row is too short (anything else). */
  function ColumnSlot(len: nat, col: nat, left: bool): (k: nat)
    ensures k <= len
    ensures left ==> k == (if col < len then col else 0)
    ensures !left ==> k == (if col + 1 < len then col + 1 else len)
  {
    if left then (if col < len then col else 0)
    else if col + 1 < len then col + 1 else len
  }

  function InsertAt<T>(s: seq<T>, k: nat, x: T): (r: seq<T>)
    requires k <= |s|
    ensures |r| == |s| + 1 && r[k] == x
    ensures forall j :: 0 <= j < k ==> r[j] == s[j]
    ensures forall j :: k < j < |r| ==> r[j] == s[j - 1]
  {
    s[..k] + [x] + s[k..]
  }

  function RemoveAt<T>(s: seq<T>, k: nat): (r: seq<T>)
    requires k < |s|
    ensures |r| == |s| - 1
    ensures forall j :: 0 <= j < k ==> r[j] == s[j]
    ensures forall j :: k <= j < |r| ==> r[j] == s[j + 1]
  {
    s[..k] + s[k + 1..]
  }

  lemma RemoveInserted<T>(s: seq<T>, k: nat, x: T)
    requires k <= |s|
    ensures RemoveAt(InsertAt(s, k, x), k) == s
  {
    assert RemoveAt(InsertAt(s, k, x), k) == s[..k] + s[k..];
    assert s[..k] + s[k..] == s;
  }

  /** `addColumn`: every row of the table gains one empty cell next to the
      caret column. */
  function AddColumn(g: Grid, ctx: Option<Pos>, left: bool): (r: Grid)
    requires CtxValid(g, ctx)
    ensures ctx.None? ==> r == g
    ensures |r| == |g|
    ensures ctx.Some? ==> forall i :: 0 <= i < |g| ==>
      r[i] == InsertAt(g[i], ColumnSlot(|g[i]|, ctx.value.col, left), EmptyCell)
  {
    if ctx.None? then g
    else seq(|g|, i requires 0 <= i < |g| => InsertAt(g[i], ColumnSlot(|g[i]|, ctx.value.col, left), EmptyCell))
  }

  /** The cell without index k, when the row has one. */
  function Strip(row: Row, k: nat): Row {
    if k < |row| then RemoveAt(row, k) else row
  }

  predicate NoCells(g: Grid) {
    forall i :: 0 <= i < |g| ==> |g[i]| == 0
  }

  /** `deleteColumn`: the caret column's cell leaves every row that has
      one; the table goes once no cell is left anywhere. */
  function DeleteColumn(g: Grid, ctx: Option<Pos>): (r: Option<Grid>)
    requires CtxValid(g, ctx)
    ensures ctx.None? ==> r == Some(g)
    ensures ctx.Some? ==>
      (r.None? <==> forall i :: 0 <= i < |g| ==> |g[i]| == 0 || (|g[i]| == 1 && ctx.value.col == 0))
    ensures ctx.Some? && r.Some? ==> |r.value| == |g|
    ensures ctx.Some? && r.Some? ==> forall i :: 0 <= i < |g| ==> r.value[i] == Strip(g[i], ctx.value.col)
  {
    if ctx.None? then Some(g)
    else
      var stripped := seq(|g|, i requires 0 <= i < |g| => Strip(g[i], ctx.value.col));
      assert forall i :: 0 <= i < |g| ==> (|stripped[i]| == 0 <==> |g[i]| == 0 || (|g[i]| == 1 && ctx.value.col == 0));
      if NoCells(stripped) then None else Some(stripped)
  }

  /** On a rectangular table, adding a column and deleting it again, with
      the caret in the new cell, gives back the table. */
  lemma AddColumnThenDeleteColumn(g: Grid, p: Pos, left: bool)
    requires ValidPos(g, p) && Rectangular(g)
    ensures var g' := AddColumn(g, Some(p), left);
      var k := ColumnSlot(|g[p.row]|, p.col, left);
      ValidPos(g', Pos(p.row, k)) && DeleteColumn(g', Some(Pos(p.row, k))) == Some(g)
  {
    var g' := AddColumn(g, Some(p), left);
    var k := ColumnSlot(|g[p.row]|, p.col, left);
    assert |g'[p.row]| == |g[p.row]| + 1;
    var d := DeleteColumn(g', Some(Pos(p.row, k)));
    assert g'[p.row][k] == EmptyCell;
    assert d.Some?;
    forall i | 0 <= i < |g|
      ensures d.value[i] == g[i]
    {
      assert ColumnSlot(|g[i]|, p.col, left) == k;
      RemoveInserted(g[i], k, EmptyCell);
    }
    assert d.value == g;
  }

  /** A column added to a rectangular table keeps it rectangular. */
  lemma AddColumnKeepsRectangular(g: Grid, ctx: Option<Pos>, left: bool)
    requires CtxValid(g, ctx) && Rectangular(g)
    ensures Rectangular(AddColumn(g, ctx, left))
  {
  }

  function Other(k: Kind): Kind {
    if k == TD then TH else TD
  }

  /** The replacement cell: the other kind, the same markup, and the empty
      markup filled in. */
  function Flip(c: Cell): (r: Cell)
    ensures r.kind != c.kind
    ensures c.content != "" ==> r.content == c.content
    ensures c.content == "" ==> r.content == EmptyCellHtml
  {
    Cell(Other(c.kind), if c.content == "" then EmptyCellHtml else c.content)
  }

  /** The cell with its empty markup filled in and its kind kept. */
  function Filled(c: Cell): Cell {
    Cell(c.kind, if c.content == "" then EmptyCellHtml else c.content)
  }

  /** `toggleHeaderRow`: every cell of the first row flips kind; no other
      row changes. */
  function ToggleHeaderRow(g: Grid, ctx: Option<Pos>): (r: Grid)
    requires CtxValid(g, ctx)
    ensures |r| == |g| && forall i :: 0 <= i < |g| ==> |r[i]| == |g[i]|
    ensures ctx.None? ==> r == g
    ensures forall i :: 0 < i < |g| ==> r[i] == g[i]
    ensures ctx.Some? ==> forall j :: 0 <= j < |g[0]| ==> r[0][j] == Flip(g[0][j])
  {
    if ctx.None? || |g| == 0 then g
    else g[0 := seq(|g[0]|, j requires 0 <= j < |g[0]| => Flip(g[0][j]))]
  }

  /** `toggleHeaderColumn`: the first cell of every row flips kind; every
      other cell stays. */
  function ToggleHeaderColumn(g: Grid, ctx: Option<Pos>): (r: Grid)
    requires CtxValid(g, ctx)
    ensures |r| == |g| && forall i :: 0 <= i < |g| ==> |r[i]| == |g[i]|
    ensures ctx.None? ==> r == g
    ensures forall i, j :: 0 <= i < |g| && 0 < j < |g[i]| ==> r[i][j] == g[i][j]
    ensures ctx.Some? ==> forall i :: 0 <= i < |g| && |g[i]| > 0 ==> r[i][0] == Flip(g[i][0])
  {
    if ctx.None? then g
    else seq(|g|, i requires 0 <= i < |g| => if |g[i]| == 0 then g[i] else g[i][0 := Flip(g[i][0])])
  }

  /** Toggling the header row twice restores every kind and every
      non-empty markup; empty cells come back filled. */
  lemma ToggleHeaderRowTwice(g: Grid, p: Pos)
    requires ValidPos(g, p)
    ensures var g2 := ToggleHeaderRow(ToggleHeaderRow(g, Some(p)), Some(p));
      |g2| == |g| && g2[1..] == g[1..] &&
      |g2[0]| == |g[0]| && forall j :: 0 <= j < |g[0]| ==> g2[0][j] == Filled(g[0][j])
  {
    var g1 := ToggleHeaderRow(g, Some(p));
    var g2 := ToggleHeaderRow(g1, Some(p));
    assert g2[1..] == g[1..];
  }

  /** Toggling the header column twice restores every kind and every
      non-empty markup; empty first cells come back filled. */
  lemma ToggleHeaderColumnTwice(g: Grid, p: Pos)
    requires ValidPos(g, p)
    ensures var g2 := ToggleHeaderColumn(ToggleHeaderColumn(g, Some(p)), Some(p));
      |g2| == |g| && forall i :: 0 <= i < |g| && |g[i]| > 0 ==>
        g2[i] == g[i][0 := Filled(g[i][0])]
  {
    var g1 := ToggleHeaderColumn(g, Some(p));
    var g2 := ToggleHeaderColumn(g1, Some(p));
    forall i | 0 <= i < |g| && |g[i]| > 0
      ensures g2[i] == g[i][0 := Filled(g[i][0])]
    {
      assert g2[i][0] == Flip(Flip(g[i][0]));
    }
  }
}

=== FILE: text.dfy ===
/** The few string primitives of the JavaScript runtime that the editor
    relies on: `String.prototype.trim`, `toUpperCase` restricted to ASCII,
    and the ASCII case folding a regular expression with the `i` flag
    applies to the letters of its pattern. */
module Text {

  /** JavaScript's WhiteSpace and LineTerminator code points: the set that
      `trim` strips and that `\s` matches. */
  predicate IsJsSpace(c: char) {
    || c == '\t' || c == '\n' || c == '\U{000B}' || c == '\U{000C}' || c == '\r'
    || c == ' ' || c == '\U{00A0}' || c == '\U{1680}'
    || ('\U{2000}' <= c <= '\U{200A}')
    || c == '\U{2028}' || c == '\U{2029}' || c == '\U{202F}' || c == '\U{205F}'
    || c == '\U{3000}' || c == '\U{FEFF}'
  }

  predicate AllSpace(s: string) {
    forall k :: 0 <= k < |s| ==> IsJsSpace(s[k])
  }

  /** Neither end of `s` is white space. */
  predicate Trimmed(s: string) {
    |s| == 0 || (!IsJsSpace(s[0]) && !IsJsSpace(s[|s| - 1]))
  }

  /** Drops leading white space: the result is the suffix of `s` that starts
      at its first non-space character. */
  function TrimStart(s: string): (r: string)
    ensures |r| <= |s| && r == s[|s| - |r|..]
    ensures AllSpace(s[..|s| - |r|])
    ensures |r| > 0 ==> !IsJsSpace(r[0])
  {
    if |s| > 0 && IsJsSpace(s[0]) then TrimStart(s[1..]) else s
  }

  /** Drops trailing white space: the result is the prefix of `s` that ends
      at its last non-space character. */
  function TrimEnd(s: string): (r: string)
    ensures |r| <= |s| && r == s[..|r|]
    ensures AllSpace(s[|r|..])
    ensures |r| > 0 ==> !IsJsSpace(r[|r| - 1])
  {
    if |s| > 0 && IsJsSpace(s[|s| - 1]) then TrimEnd(s[..|s| - 1]) else s
  }

  /** `String.prototype.trim`. */
  function Trim(s: string): (r: string)
    ensures Trimmed(r)
    ensures |r| <= |s|
  {
    var t := TrimStart(s);
    var r := TrimEnd(t);
    assert |r| > 0 ==> r[0] == t[0];
    r
  }

  /** `trim` gives the part of `s` between its leading and its trailing
      white space. */
  lemma TrimIsSlice(s: string)
    ensures exists k :: (0 <= k <= |s| - |Trim(s)| && Trim(s) == s[k..k + |Trim(s)|] &&
                         AllSpace(s[..k]) && AllSpace(s[k + |Trim(s)|..]))
  {
    var t := TrimStart(s);
    var r := TrimEnd(t);
    PrefixOfSuffix(s, t, r);
    var k := |s| - |t|;
    assert AllSpace(s[..k]) && AllSpace(s[k + |r|..]);
    assert r == Trim(s);
  }

  /** A prefix `r` of a suffix `t` of `s` is the slice of `s` at the offset
      where `t` begins. */
  lemma PrefixOfSuffix(s: string, t: string, r: string)
    requires |t| <= |s| && t == s[|s| - |t|..]
    requires |r| <= |t| && r == t[..|r|]
    ensures var k := |s| - |t|;
      r == s[k..k + |r|] && s[k + |r|..] == t[|r|..]
  {
    var k := |s| - |t|;
    assert forall j :: 0 <= j < |r| ==> s[k..k + |r|][j] == t[j];
    assert forall j :: 0 <= j < |t| - |r| ==> s[k + |r|..][j] == t[|r|..][j];
  }

  /** Trimming keeps a string that has no white space at either end. */
  lemma {:induction false} TrimKeepsTrimmed(s: string)
    requires Trimmed(s)
    ensures Trim(s) == s
  {
    assert TrimStart(s) == s;
    assert TrimEnd(s) == s;
  }

  /** Trimming is idempotent. */
  lemma TrimIdempotent(s: string)
    ensures Trim(Trim(s)) == Trim(s)
  {
    TrimKeepsTrimmed(Trim(s));
  }

  /** A string of white space only trims to the empty string, and nothing
      else does. */
  lemma TrimEmptyIffAllSpace(s: string)
    ensures Trim(s) == "" <==> AllSpace(s)
  {
    var t := TrimStart(s);
    if !AllSpace(s) {
      var k :| 0 <= k < |s| && !IsJsSpace(s[k]);
      assert |t| > 0;
    }
  }

  function UpperChar(c: char): char {
    if 'a' <= c <= 'z' then (c as int - 32) as char else c
  }

  function LowerChar(c: char): char {
    if 'A' <= c <= 'Z' then (c as int + 32) as char else c
  }

  predicate IsLowerAscii(c: char) {
    'a' <= c <= 'z'
  }

  /** `toUpperCase` restricted to ASCII letters: every other character is
      kept as it is. */
  function ToUpper(s: string): (r: string)
    ensures |r| == |s|
    ensures forall i :: 0 <= i < |r| ==> !IsLowerAscii(r[i])
    ensures forall i :: 0 <= i < |s| && !IsLowerAscii(s[i]) ==> r[i] == s[i]
    ensures forall i :: 0 <= i < |s| ==> LowerChar(r[i]) == LowerChar(s[i])
  {
    if |s| == 0 then "" else [UpperChar(s[0])] + ToUpper(s[1..])
  }

  /** Upper-casing twice is upper-casing once. */
  lemma ToUpperIdempotent(s: string)
    ensures ToUpper(ToUpper(s)) == ToUpper(s)
  {
  }

  /** `a` and `b` are equal up to ASCII case. */
  predicate EqualsCi(a: string, b: string) {
    |a| == |b| && forall i :: 0 <= i < |a| ==> LowerChar(a[i]) == LowerChar(b[i])
  }

  /** `s` begins with `prefix`, ASCII letters compared case-insensitively,
      as an anchored literal under the `i` flag matches. */
  predicate StartsWithCi(s: string, prefix: string) {
    |prefix| <= |s| && EqualsCi(s[..|prefix|], prefix)
  }

  predicate StartsWith(s: string, prefix: string) {
    |prefix| <= |s| && s[..|prefix|] == prefix
  }
}

=== FILE: toolbar.dfy ===
/** The toolbar configuration and its flattening, shared by the editor's
    toolbar groups and by the bundles' plugin derivation. A configuration
    is a JavaScript value: a string, an array, or anything else. */
module Toolbar {

  /** `Other(truthy)` stands for every value that is neither a string nor
      an array (numbers, objects, null, undefined, booleans). */
  datatype Json = Str(s: string) | Arr(items: seq<Json>) | Other(truthy: bool)

  predicate Falsy(j: Json) {
    j == Str("") || j == Other(false)
  }

  /** What one top-level item contributes: the action list of a legacy
      `[group, [actions...]]` pair, every element of any other array, the
      item itself when it is a string, and nothing otherwise. */
  function Contribution(item: Json): seq<Json> {
    match item
    case Arr(xs) => if |xs| >= 2 && xs[1].Arr? then xs[1].items else xs
    case Str(_) => [item]
    case Other(_) => []
  }

  /** The flattening loop over a toolbar array. */
  function Flatten(items: seq<Json>): seq<Json> {
    if |items| == 0 then [] else Contribution(items[0]) + Flatten(items[1..])
  }

  /** Flattening works item by item, so it distributes over concatenation. */
  lemma {:induction false} FlattenAppend(a: seq<Json>, b: seq<Json>)
    ensures Flatten(a + b) == Flatten(a) + Flatten(b)
    decreases |a|
  {
    if |a| == 0 {
      assert a + b == b;
    } else {
      assert (a + b)[0] == a[0];
      assert (a + b)[1..] == a[1..] + b;
      FlattenAppend(a[1..], b);
    }
  }

  predicate AllStrings(items: seq<Json>) {
    forall i :: 0 <= i < |items| ==> items[i].Str?
  }

  /** A flat list of action names is kept as it is, duplicates and order
      included. */
  lemma {:induction false} FlattenFlat(items: seq<Json>)
    requires AllStrings(items)
    ensures Flatten(items) == items
    decreases |items|
  {
    if |items| > 0 {
      FlattenFlat(items[1..]);
      assert items == [items[0]] + items[1..];
    }
  }

  /** Items that are neither strings nor arrays contribute nothing. */
  lemma {:induction false} FlattenDropsOthers(a: seq<Json>, x: Json, b: seq<Json>)
    requires x.Other?
    ensures Flatten(a + [x] + b) == Flatten(a + b)
  {
    calc {
      Flatten(a + [x] + b);
      == { FlattenAppend(a + [x], b); }
      Flatten(a + [x]) + Flatten(b);
      == { FlattenAppend(a, [x]); FlattenOne(x); }
      Flatten(a) + [] + Flatten(b);
      == { assert Flatten(a) + [] == Flatten(a); }
      Flatten(a) + Flatten(b);
      == { FlattenAppend(a, b); }
      Flatten(a + b);
    }
  }

  lemma FlattenOne(x: Json)
    ensures Flatten([x]) == Contribution(x)
  {
    assert [x][1..] == [];
  }

  /** A legacy group contributes exactly its action list, whatever its
      group name. */
  lemma LegacyGroup(group: Json, actions: seq<Json>, rest: seq<Json>)
    ensures Flatten([Arr([group, Arr(actions)])] + rest) == actions + Flatten(rest)
  {
    assert ([Arr([group, Arr(actions)])] + rest)[1..] == rest;
  }
}

=== FILE: video.dfy ===
/** Video embedding: recognising a YouTube, Vimeo or DailyMotion link or a
    direct media file in the URL typed into the video dialog, and the
    element built for it. Each recogniser is the plugin's regular
    expression under `exec`: the leftmost position where the pattern
    matches wins, and the captured id is the greedy run at that position. */
module VideoUrl {
  import opened Wrappers
  import opened Text

  // ---------------------------------------------------------------- characters

  /** The character classes the patterns use: `[A-Za-z0-9_-]`, `\w`,
      `[0-9]` and `[A-Za-z0-9]`. The `i` flag does not change them. */
  datatype CharClass = IdChars | WordChars | Digits | AlnumChars

  predicate IsAlnum(c: char) {
    'A' <= c <= 'Z' || 'a' <= c <= 'z' || '0' <= c <= '9'
  }

  predicate InClass(cls: CharClass, c: char) {
    match cls
    case IdChars => IsAlnum(c) || c == '_' || c == '-'
    case WordChars => IsAlnum(c) || c == '_'
    case Digits => '0' <= c <= '9'
    case AlnumChars => IsAlnum(c)
  }

  /** The characters `.` does not match. */
  predicate IsLineTerminator(c: char) {
    c == '\n' || c == '\r' || c == '\U{2028}' || c == '\U{2029}'
  }

  /** The length of the greedy run of class characters starting at `i`. */
  function RunLength(s: string, i: nat, cls: CharClass): (n: nat)
    requires i <= |s|
    ensures i + n <= |s|
    ensures forall k :: i <= k < i + n ==> InClass(cls, s[k])
    ensures i + n == |s| || !InClass(cls, s[i + n])
    decreases |s| - i
  {
    if i < |s| && InClass(cls, s[i]) then 1 + RunLength(s, i + 1, cls) else 0
  }

  /** The literal `lit` occurs at position `i`, ASCII letters compared
      without regard to case. */
  predicate LitAt(s: string, i: nat, lit: string) {
    i + |lit| <= |s| && EqualsCi(s[i..i + |lit|], lit)
  }

  // ---------------------------------------------------------------- patterns

  datatype Pattern = YouTube | Vimeo | DailyMotion | DirectFile

  /** `youtu\.be\/` or `youtube\.com\/` followed by `watch\?v=`, `embed\/`
      or `v\/`: the length of the prefix at `i`. The alternatives differ
      in a fixed character, so at most one of them can match. */
  function YouTubePrefix(s: string, i: nat): Option<nat> {
    if LitAt(s, i, "youtu.be/") then Some(9)
    else if LitAt(s, i, "youtube.com/") then
      if LitAt(s, i + 12, "watch?v=") then Some(20)
      else if LitAt(s, i + 12, "embed/") then Some(18)
      else if LitAt(s, i + 12, "v/") then Some(14)
      else None
    else None
  }

  /** `vimeo\.com\/(?:channels\/\w+\/|groups\/\w+\/videos\/)?`: where the
      id may start, after the optional segment when it is there. */
  function VimeoIdStart(s: string, i: nat): (r: Option<nat>)
    ensures r.Some? ==> i < r.value <= |s|
  {
    if !LitAt(s, i, "vimeo.com/") then None
    else
      var j := i + 10;
      if LitAt(s, j, "channels/") then
        var w := RunLength(s, j + 9, WordChars);
        if w >= 1 && LitAt(s, j + 9 + w, "/") && RunLength(s, j + 10 + w, Digits) >= 1 then Some(j + 10 + w)
        else Some(j)
      else if LitAt(s, j, "groups/") then
        var w := RunLength(s, j + 7, WordChars);
        if w >= 1 && LitAt(s, j + 7 + w, "/videos/") && RunLength(s, j + 15 + w, Digits) >= 1 then Some(j + 15 + w)
        else Some(j)
      else Some(j)
  }

  /** `dailymotion\.com\/video\/` or `dai\.ly\/`: the length of the prefix. */
  function DailyMotionPrefix(s: string, i: nat): Option<nat> {
    if LitAt(s, i, "dailymotion.com/video/") then Some(22)
    else if LitAt(s, i, "dai.ly/") then Some(7)
    else None
  }

  /** `\.(mp4|webm|ogg)(\?.*)?$`: a dot, an extension, then the end of the
      URL or a `?` and a rest without line terminators. */
  predicate FileAt(s: string, i: nat) {
    i < |s| && s[i] == '.' &&
    exists ext :: ext in ["mp4", "webm", "ogg"] && LitAt(s, i + 1, ext) && QueryTail(s, i + 1 + |ext|)
  }

  predicate QueryTail(s: string, e: nat)
    requires e <= |s|
  {
    e == |s| || (s[e] == '?' && forall k :: e < k < |s| ==> !IsLineTerminator(s[k]))
  }

  /** What the pattern captures when it matches at `i`. */
  function MatchAt(p: Pattern, s: string, i: nat): Option<string>
    requires i <= |s|
  {
    match p
    case YouTube =>
      (match YouTubePrefix(s, i)
       case Some(n) =>
         var run := RunLength(s, i + n, IdChars);
         if run >= 6 then Some(s[i + n..i + n + run]) else None
       case None => None)
    case Vimeo =>
      (match VimeoIdStart(s, i)
       case Some(j) =>
         var run := RunLength(s, j, Digits);
         if run >= 1 then Some(s[j..j + run]) else None
       case None => None)
    case DailyMotion =>
      (match DailyMotionPrefix(s, i)
       case Some(n) =>
         var run := RunLength(s, i + n, AlnumChars);
         if run >= 1 then Some(s[i + n..i + n + run]) else None
       case None => None)
    case DirectFile =>
      if FileAt(s, i) then Some("") else None
  }

  predicate Matches(p: Pattern, s: string) {
    exists k :: 0 <= k <= |s| && MatchAt(p, s, k).Some?
  }

  datatype Hit = Hit(at: nat, group: string)

  /** The pattern's match at each position, as one function value;
      nothing past the end. */
  function Matcher(p: Pattern, s: string): nat -> Option<string> {
    (k: nat) => if k <= |s| then MatchAt(p, s, k) else None
  }

  lemma MatcherAt(p: Pattern, s: string, k: nat)
    requires k <= |s|
    ensures Matcher(p, s)(k) == MatchAt(p, s, k)
  {
  }

  /** The first position from `from` to `n` where `m` finds a match. */
  function Leftmost(m: nat -> Option<string>, from: nat, n: nat): (r: Option<Hit>)
    requires from <= n
    ensures r.Some? ==> from <= r.value.at <= n && m(r.value.at) == Some(r.value.group)
    ensures r.Some? ==> forall k :: from <= k < r.value.at ==> m(k).None?
    ensures r.None? <==> forall k :: from <= k <= n ==> m(k).None?
    decreases n - from
  {
    match m(from)
    case Some(g) => Some(Hit(from, g))
    case None => if from == n then None else Leftmost(m, from + 1, n)
  }

  /** `exec` from position `from`: the leftmost match. */
  function Exec(p: Pattern, s: string, from: nat): Option<Hit>
    requires from <= |s|
  {
    Leftmost(Matcher(p, s), from, |s|)
  }

  /** What `exec` returns is a match of the pattern, and no match starts
      earlier. */
  lemma ExecLeftmost(p: Pattern, s: string, from: nat, k: nat)
    requires from <= k <= |s|
    ensures Exec(p, s, from).Some? && Exec(p, s, from).value.at == k ==>
      MatchAt(p, s, k) == Some(Exec(p, s, from).value.group)
    ensures MatchAt(p, s, k).Some? ==> Exec(p, s, from).Some? && Exec(p, s, from).value.at <= k
  {
    MatcherAt(p, s, k);
  }

  /** `exec` from the start finds a match exactly when the pattern matches
      somewhere. */
  lemma ExecMatches(p: Pattern, s: string)
    ensures Exec(p, s, 0).Some? <==> Matches(p, s)
  {
    if Matches(p, s) {
      var k :| 0 <= k <= |s| && MatchAt(p, s, k).Some?;
      ExecLeftmost(p, s, 0, k);
    }
    if Exec(p, s, 0).Some? {
      ExecLeftmost(p, s, 0, Exec(p, s, 0).value.at);
    }
  }

  // ---------------------------------------------------------------- parsing

  datatype Provider = YouTubeVideo | VimeoVideo | DailyMotionVideo | FileVideo

  datatype VideoInfo = VideoInfo(provider: Provider, src: string)

  /** `parseVideo`: nothing for an empty URL; otherwise the first of
      YouTube, Vimeo, DailyMotion and a direct file that matches, with its
      embed source; nothing when none does. */
  function ParseVideo(url: string): (r: Option<VideoInfo>)
    ensures url == "" ==> r.None?
    ensures r.None? <==> url == "" || (!Matches(YouTube, url) && !Matches(Vimeo, url) &&
                                      !Matches(DailyMotion, url) && !Matches(DirectFile, url))
    ensures r.Some? && r.value.provider == YouTubeVideo <==> url != "" && Matches(YouTube, url)
    ensures r.Some? && r.value.provider == VimeoVideo <==>
      url != "" && !Matches(YouTube, url) && Matches(Vimeo, url)
    ensures r.Some? && r.value.provider == DailyMotionVideo <==>
      url != "" && !Matches(YouTube, url) && !Matches(Vimeo, url) && Matches(DailyMotion, url)
    ensures r.Some? && r.value.provider == FileVideo <==>
      url != "" && !Matches(YouTube, url) && !Matches(Vimeo, url) && !Matches(DailyMotion, url) &&
      Matches(DirectFile, url)
    ensures r.Some? && r.value.provider == FileVideo ==> r.value.src == url
  {
    ExecMatches(YouTube, url);
    ExecMatches(Vimeo, url);
    ExecMatches(DailyMotion, url);
    ExecMatches(DirectFile, url);
    if url == "" then None
    else match Exec(YouTube, url, 0)
      case Some(h) => Some(VideoInfo(YouTubeVideo, "https://www.youtube.com/embed/" + h.group))
      case None => match Exec(Vimeo, url, 0)
        case Some(h) => Some(VideoInfo(VimeoVideo, "https://player.vimeo.com/video/" + h.group))
        case None => match Exec(DailyMotion, url, 0)
          case Some(h) => Some(VideoInfo(DailyMotionVideo, "https://www.dailymotion.com/embed/video/" + h.group))
          case None => if Exec(DirectFile, url, 0).Some? then Some(VideoInfo(FileVideo, url)) else None
  }

  /** A YouTube match captures the greedy run of at least six id
      characters right after the recognised prefix. */
  lemma YouTubeCapture(s: string, i: nat)
    requires i <= |s| && MatchAt(YouTube, s, i).Some?
    ensures YouTubePrefix(s, i).Some?
    ensures var n := YouTubePrefix(s, i).value;
      var g := MatchAt(YouTube, s, i).value;
      |g| >= 6 && i + n + |g| <= |s| && g == s[i + n..i + n + |g|] &&
      (forall k :: i + n <= k < i + n + |g| ==> InClass(IdChars, s[k])) &&
      (i + n + |g| == |s| || !InClass(IdChars, s[i + n + |g|]))
  {
    var n := YouTubePrefix(s, i).value;
    var run := RunLength(s, i + n, IdChars);
    assert MatchAt(YouTube, s, i).value == s[i + n..i + n + run];
  }

  /** When the YouTube pattern matches anywhere, its leftmost match
      decides the embed source. */
  lemma YouTubeFirst(url: string)
    requires url != "" && Exec(YouTube, url, 0).Some?
    ensures ParseVideo(url) ==
      Some(VideoInfo(YouTubeVideo, "https://www.youtube.com/embed/" + Exec(YouTube, url, 0).value.group))
  {
  }

  /** Without a YouTube match, a Vimeo match embeds the player for the
      digits its leftmost match captures. */
  lemma VimeoFirst(url: string)
    requires url != "" && !Matches(YouTube, url) && Exec(Vimeo, url, 0).Some?
    ensures var g := Exec(Vimeo, url, 0).value.group;
      && ParseVideo(url) == Some(VideoInfo(VimeoVideo, "https://player.vimeo.com/video/" + g))
      && |g| >= 1 && forall k :: 0 <= k < |g| ==> InClass(Digits, g[k])
  {
    ExecMatches(YouTube, url);
    var h := Exec(Vimeo, url, 0).value;
    ExecLeftmost(Vimeo, url, 0, h.at);
    VimeoCapture(url, h.at);
  }

  /** Without a YouTube or Vimeo match, a DailyMotion match embeds the
      player for the letters and digits its leftmost match captures. */
  lemma DailyMotionFirst(url: string)
    requires url != "" && !Matches(YouTube, url) && !Matches(Vimeo, url) && Exec(DailyMotion, url, 0).Some?
    ensures var g := Exec(DailyMotion, url, 0).value.group;
      && ParseVideo(url) == Some(VideoInfo(DailyMotionVideo, "https://www.dailymotion.com/embed/video/" + g))
      && |g| >= 1 && forall k :: 0 <= k < |g| ==> InClass(AlnumChars, g[k])
  {
    ExecMatches(YouTube, url);
    ExecMatches(Vimeo, url);
    var h := Exec(DailyMotion, url, 0).value;
    ExecLeftmost(DailyMotion, url, 0, h.at);
    DailyMotionCapture(url, h.at);
  }

  /** A DailyMotion match captures the greedy run of letters and digits
      right after the recognised prefix. */
  lemma DailyMotionCapture(s: string, i: nat)
    requires i <= |s| && MatchAt(DailyMotion, s, i).Some?
    ensures var g := MatchAt(DailyMotion, s, i).value;
      |g| >= 1 && forall k :: 0 <= k < |g| ==> InClass(AlnumChars, g[k])
  {
    var n := DailyMotionPrefix(s, i).value;
    var run := RunLength(s, i + n, AlnumChars);
    var g := MatchAt(DailyMotion, s, i).value;
    assert g == s[i + n..i + n + run];
    assert forall k :: 0 <= k < |g| ==> g[k] == s[i + n + k];
  }

  /** A Vimeo match captures the greedy run of digits where the id may
      start. */
  lemma VimeoCapture(s: string, i: nat)
    requires i <= |s| && MatchAt(Vimeo, s, i).Some?
    ensures VimeoIdStart(s, i).Some?
    ensures var j := VimeoIdStart(s, i).value;
      var g := MatchAt(Vimeo, s, i).value;
      |g| >= 1 && j + |g| <= |s| && g == s[j..j + |g|] &&
      (forall k :: j <= k < j + |g| ==> InClass(Digits, s[k])) &&
      (j + |g| == |s| || !InClass(Digits, s[j + |g|]))
  {
    var j := VimeoIdStart(s, i).value;
    var run := RunLength(s, j, Digits);
    assert MatchAt(Vimeo, s, i).value == s[j..j + run];
  }

  /** Every YouTube prefix starts with a `y`, so no match starts at any
      other character. */
  lemma NoYouTubeWithoutY(s: string, i: nat)
    requires i <= |s| && (i == |s| || LowerChar(s[i]) != 'y')
    ensures MatchAt(YouTube, s, i).None?
  {
    assert !LitAt(s, i, "youtu.be/") by {
      if i + 9 <= |s| {
        assert s[i..i + 9][0] == s[i];
      }
    }
    assert !LitAt(s, i, "youtube.com/") by {
      if i + 12 <= |s| {
        assert s[i..i + 12][0] == s[i];
      }
    }
  }

  /** A short link `https://youtu.be/<id>` followed by anything that does
      not continue the id embeds exactly that id, whatever comes after. */
  lemma ShortLinkEmbedsId(id: string, rest: string)
    requires |id| >= 6 && forall k :: 0 <= k < |id| ==> InClass(IdChars, id[k])
    requires rest == "" || !InClass(IdChars, rest[0])
    ensures ParseVideo("https://youtu.be/" + id + rest) ==
      Some(VideoInfo(YouTubeVideo, "https://www.youtube.com/embed/" + id))
  {
    var url := "https://youtu.be/" + id + rest;
    ShortLinkMatch(url, id, rest);
    forall k | 0 <= k < 8
      ensures MatchAt(YouTube, url, k).None?
    {
      assert url[k] == "https://"[k];
      NoYouTubeWithoutY(url, k);
    }
    ExecLeftmost(YouTube, url, 0, 8);
    var h := Exec(YouTube, url, 0).value;
    ExecLeftmost(YouTube, url, 0, h.at);
    assert Exec(YouTube, url, 0) == Some(Hit(8, id));
  }

  /** In a short link the YouTube pattern matches at the `youtu.be/` and
      captures the id. */
  lemma ShortLinkMatch(url: string, id: string, rest: string)
    requires url == "https://youtu.be/" + id + rest
    requires |id| >= 6 && forall k :: 0 <= k < |id| ==> InClass(IdChars, id[k])
    requires rest == "" || !InClass(IdChars, rest[0])
    ensures MatchAt(YouTube, url, 8) == Some(id)
  {
    assert url[8..17] == "youtu.be/";
    assert LitAt(url, 8, "youtu.be/");
    RunOfId(url, id, rest);
  }

  /** The run of id characters at position 17 of a short link is the id. */
  lemma RunOfId(url: string, id: string, rest: string)
    requires url == "https://youtu.be/" + id + rest
    requires forall k :: 0 <= k < |id| ==> InClass(IdChars, id[k])
    requires rest == "" || !InClass(IdChars, rest[0])
    ensures RunLength(url, 17, IdChars) == |id|
    ensures url[17..17 + |id|] == id
  {
    forall k | 0 <= k < |id|
      ensures url[17 + k] == id[k] && InClass(IdChars, url[17 + k])
    {
    }
    assert 17 + |id| == |url| || !InClass(IdChars, url[17 + |id|]) by {
      if rest != "" {
        assert url[17 + |id|] == rest[0];
      }
    }
  }

  // ---------------------------------------------------------------- inserting

  /** The element inserted: a `<video>` with controls for a direct file,
      otherwise a wrapper `<div>` holding an `<iframe>`. */
  datatype Embed =
    | VideoTag(src: string, controls: bool)
    | IframeWrapper(wrapperClass: string, src: string, allow: string, allowFullscreen: bool, title: string)

  const WrapperClass := "asteronote-video-wrapper"
  const IframeAllow := "accelerometer; autoplay; clipboard-write; encrypted-media; gyroscope; picture-in-picture; web-share"
  const IframeTitle := "Embedded video"

  function BuildEmbed(info: VideoInfo): (r: Embed)
    ensures r.VideoTag? <==> info.provider == FileVideo
    ensures r.src == info.src
    ensures r.VideoTag? ==> r.controls
    ensures r.IframeWrapper? ==> r.allowFullscreen
  {
    if info.provider == FileVideo then VideoTag(info.src, true)
    else IframeWrapper(WrapperClass, info.src, IframeAllow, true, IframeTitle)
  }

  /** What `insertVideo` does with the dialog's field. */
  datatype VideoOutcome =
    | NothingToInsert
    | MarkedInvalid
    | Inserted(embed: Embed, url: string, provider: Provider)

  /** `insertVideo`: nothing for a URL that is empty after trimming; the
      field is marked invalid when the trimmed URL is not recognised;
      otherwise the embed for it is inserted and reported with the trimmed
      URL and its provider. */
  function InsertVideo(field: string): (r: VideoOutcome)
    ensures r == NothingToInsert <==> AllSpace(field)
    ensures r == MarkedInvalid <==> !AllSpace(field) && ParseVideo(Trim(field)).None?
    ensures r.Inserted? ==> r.url == Trim(field) && r.url != ""
    ensures r.Inserted? ==> ParseVideo(r.url) == Some(VideoInfo(r.provider, r.embed.src))
    ensures r.Inserted? ==> r.embed == BuildEmbed(VideoInfo(r.provider, r.embed.src))
  {
    TrimEmptyIffAllSpace(field);
    var url := Trim(field);
    if url == "" then NothingToInsert
    else match ParseVideo(url)
      case None => MarkedInvalid
      case Some(info) => Inserted(BuildEmbed(info), url, info.provider)
  }
}

=== FILE: wrappers.dfy ===
/** Failure-compatible result types shared by every module of the model.
    A JavaScript `throw` that escapes an operation is an `Err`; a `null`
    return is `None`. */
module Wrappers {

  datatype Option<+T> = None | Some(value: T)

  datatype Result<+T, +E> = Ok(value: T) | Err(error: E) {
    predicate IsFailure() {
      Err?
    }

    function PropagateFailure<U>(): Result<U, E>
      requires Err?
    {
      Err(error)
    }

    function Extract(): T
      requires Ok?
    {
      value
    }
  }
}
